=== FILE: README.md ===
# ASCEND dimensions, function registry, path environment and solver-variable flags in Dafny

This project models four small, self-contained parts of the ASCEND modelling system:

- **Dimension vectors** (`ascend/compiler/dimen.c`). A dimension has one rational exponent for each of
  the ten base dimensions (M, Q, L, T, TMP, C, E, LUM, P, S) and a *wild* flag. The global interning
  store keeps exactly one record per distinct vector, in a list sorted by `CmpDimen`. The model covers
  the store and the algebra over it: add, subtract, scale, square, half, cube, third, integer power,
  sum and difference with an interning step, and unification. It also covers the order, printing and
  name parsing. Pointers into the store become handles, which are indices into an append-only heap.
  The store is passed in and returned explicitly. NULL is `None`.
- **The function registry** (`ascend/compiler/func.c`). This is the table of elementary functions with
  their names, C names, derivative names and ids. The model covers lookup by name and by id, the
  accessors, and the dimension each function demands of its argument. `HAVE_ERF` becomes a boolean
  parameter.
- **The path environment** (`ascend4/utilities/ascEnvVar.c`). ASCEND keeps a private list of
  variables, sorted by name, each holding an ordered list of path elements. The model covers creation
  and destruction, `Asc_SetPathList`, `Asc_PutEnv`, `Asc_AppendPath`, `Asc_GetPathList`, `Asc_GetEnv`
  and `Asc_EnvNames`. It also covers the static helpers `CmpEV`, `FindEnvVar`, `AppendEnvVar` and
  `DeleteEnvVar`. The list is `None` before `Asc_InitEnvironment`. Every entry point returns the new
  list together with its status code.
- **Solver-variable bookkeeping** (`base/generic/solver/var.c`). This part covers the master and
  solver indices, the 32-bit flag word with its bit set/read and filter operations, and the incidence
  list. A variable without an instance is "bad", and the accessors refuse it.

The model assumes that fractions are exact, in lowest terms and with a positive denominator. The
fraction module that supplies them is not part of this model, so this is an assumption about it,
not something shown here. Module `Fractions` writes that behaviour out, with the value of a fraction
as a real number.

Layout:

| file | module | contents |
|---|---|---|
| `options.dfy` | `Options` | `Option` |
| `str_order.dfy` | `StrOrder` | `strcmp` |
| `fractions.dfy` | `Fractions` | reduced fractions and their arithmetic |
| `dimen.dfy` | `Dimen` | vectors and their pure operations |
| `dimen_order.dfy` | `DimenOrder` | `CmpDimen` is a lexicographic total order |
| `dimen_algebra.dfy` | `DimenAlgebra` | laws of add and scale |
| `dimen_store.dfy` | `DimenStore` | the interning store |
| `dimen_ops.dfy` | `DimenOps` | the operations that intern their result |
| `dimen_laws.dfy` | `DimenLaws` | round trips through the store |
| `dimen_text.dfy` | `DimenText` | `PrintDimen` and a reader proving it is injective |
| `func_registry.dfy` | `FuncRegistry` | the registry |
| `env_store.dfy` | `EnvStore` | the sorted variable list |
| `env_paths.dfy` | `EnvPaths` | name trimming, path splitting and the two writers |
| `env_laws.dfy` | `EnvLaws` | write/read round trips and the findings |
| `flag_words.dfy` | `FlagWords` | bit-level meaning |
| `solver_var.dfy` | `SolverVar` | the var.c accessors |
| `var_laws.dfy` | `VarLaws` | the var.c accessor laws |

Three modelling decisions follow the C code where a reader might expect otherwise:

- For a NULL dimension pointer, the square, half, cube, third and power operations return NULL. They
  do not treat it as wild.
- `IsWild(NULL)` is true.
- `FindEnvVar` and `DeleteEnvVar` assume the variable list is sorted.

## Model

| member | source | states |
|---|---|---|
| Dimen.IsWild | ascend/compiler/dimen.c:92-99 | NULL counts as wild; otherwise the record's wild flag (its meaning on the store is DimenStore.WildIsSingleton) |
| Dimen.SameDimenIsEquivalence | ascend/compiler/dimen.c:223-235 | SameDimen is reflexive, symmetric and transitive, and holds iff both vectors are wild or neither is and their exponents are equal |
| Dimen.NotMultipleFrom | ascend/compiler/dimen.c:102-131 | the shared scan is true exactly when some slot from i on is not an integral multiple of k |
| Dimen.OddDimension | ascend/compiler/dimen.c:102-110 | true iff the pointer is NULL or wild or some exponent is not an even integer |
| Dimen.FractionalDimension | ascend/compiler/dimen.c:114-120 | true iff NULL, wild, or some exponent has a denominator other than 1 |
| Dimen.NonCubicDimension | ascend/compiler/dimen.c:123-131 | true iff NULL, wild, or some exponent is not an integral multiple of 3 |
| Dimen.ClearDimensions | ascend/compiler/dimen.c:266-274 | the cleared vector is valid, not wild, and every exponent has value 0 |
| Dimen.TrigVector | ascend/compiler/dimen.c:72-79 | the trig singleton is not wild, has exponent 1 on plane angle and 0 elsewhere |
| Dimen.WildCleared | ascend/compiler/dimen.c:72-76 | the wild singleton is a valid vector with the wild flag set |
| Dimen.AddDimensions | ascend/compiler/dimen.c:321-334 | wild iff either operand is wild (then the cleared wild vector); otherwise each exponent's value is the sum of the operands' values |
| Dimen.SubDimensions | ascend/compiler/dimen.c:356-369 | as AddDimensions with the difference of the values |
| Dimen.ScaleDimensions | ascend/compiler/dimen.c:393-402 | a wild vector is returned unchanged; otherwise each exponent's value is the factor times the old value, in lowest terms |
| Dimen.CmpExps | ascend/compiler/dimen.c:251-262 | the slot-by-slot comparison answers -1, 0 or 1 (its meaning is DimenOrder.CmpExpsLex) |
| Dimen.CmpDimen | ascend/compiler/dimen.c:238-263 | a three-way answer; order properties in DimenOrder |
| Dimen.DimName | ascend/compiler/dimen.c:472-477 | a name exactly for indices 0..9, and it is that slot's entry of the name table |
| Dimen.NameIndexFrom | ascend/compiler/dimen.c:466 | the strcmp scan finds the first slot holding the name, or reports that none does |
| Dimen.ParseDim | ascend/compiler/dimen.c:462-469 | an unknown name gives the cleared vector; a known one gives exponent 1 on its slot and 0 elsewhere |
| Dimen.NamesDistinct | ascend/compiler/dimen.c:45-57 | the ten base-dimension names are pairwise different |
| Dimen.ParseDimName | ascend/compiler/dimen.c:462-477 | parsing the name DimName(i) yields the unit vector of slot i, so ParseDim inverts DimName |
| DimenOrder.CmpExpsZero | ascend/compiler/dimen.c:251-262 | on reduced fractions the comparison is 0 exactly when the exponent sequences are equal |
| DimenOrder.CmpExpsAntisymmetric | ascend/compiler/dimen.c:251-262 | swapping the operands negates the answer |
| DimenOrder.CmpExpsTransitive | ascend/compiler/dimen.c:251-262 | below is transitive |
| DimenOrder.CmpExpsLex | ascend/compiler/dimen.c:251-262 | below holds iff the sequences agree up to a slot where the first has the smaller value (independent lexicographic definition) |
| DimenOrder.LexLessTail | ascend/compiler/dimen.c:251-262 | with equal first slots the lexicographic order is decided by the rest |
| DimenOrder.NotLexLessHead | ascend/compiler/dimen.c:253-258 | a larger first slot can never be lexicographically below |
| DimenOrder.CmpDimenReflexive | ascend/compiler/dimen.c:238-263 | every vector compares equal to itself |
| DimenOrder.CmpDimenAntisymmetric | ascend/compiler/dimen.c:238-263 | CmpDimen(a,b) is -CmpDimen(b,a) |
| DimenOrder.CmpDimenTransitive | ascend/compiler/dimen.c:238-263 | the strict order is transitive, so the store's list can be sorted by it |
| DimenOrder.CmpDimenZeroIsSame | ascend/compiler/dimen.c:223-263 | CmpDimen is 0 iff SameDimen holds, and for non-wild vectors iff they are equal |
| DimenOrder.CmpDimenSubstitute | ascend/compiler/dimen.c:238-263 | vectors comparing equal compare identically against any third |
| DimenOrder.CmpDimenIsLexicographic | ascend/compiler/dimen.c:238-263 | wild comes first; between non-wild vectors the order is lexicographic on exponent values |
| DimenAlgebra.SameValues | ascend/compiler/dimen.c:233-234 | reduced vectors with equal values in every slot are identical, which is why a bytewise compare decides equality |
| DimenAlgebra.SubAddRoundTrip | ascend/compiler/dimen.c:321-369 | (a + b) - b is a for non-wild vectors |
| DimenAlgebra.AddSubRoundTrip | ascend/compiler/dimen.c:321-369 | (a - b) + b is a for non-wild vectors |
| DimenAlgebra.AddCommutes | ascend/compiler/dimen.c:321-334 | adding is commutative, including wild operands |
| DimenAlgebra.AddCleared | ascend/compiler/dimen.c:266-334 | the cleared vector is neutral for adding |
| DimenAlgebra.ScaleCleared | ascend/compiler/dimen.c:393-402 | scaling the dimensionless vector by any fraction leaves it dimensionless |
| DimenAlgebra.ScaleScale | ascend/compiler/dimen.c:393-402 | scaling by f then g is scaling once by g*f |
| DimenStore.InitDimenList | ascend/compiler/dimen.c:60-83 | the new store satisfies the store invariant and holds three distinct singletons |
| DimenStore.InitValid | ascend/compiler/dimen.c:60-83 | the wild, trig and dimensionless records, listed as wild, dimensionless, trig, form a valid store |
| DimenStore.InitSorted | ascend/compiler/dimen.c:80-82 | the three initial records are strictly sorted by CmpDimen |
| DimenStore.WildFirst | ascend/compiler/dimen.c:243-249 | wild sorts below every non-wild vector |
| DimenStore.ClearBeforeTrig | ascend/compiler/dimen.c:72-82 | dimensionless sorts below trig |
| DimenStore.Canonicity | ascend/compiler/dimen.c:306-318 | two interned handles whose records compare equal are the same handle |
| DimenStore.SortedDistinct | ascend/compiler/dimen.c:306-318 | distinct list positions hold records that compare unequal |
| DimenStore.SameDimenIsIdentity | ascend/compiler/dimen.c:223-235 | on interned handles SameDimen is exactly pointer equality |
| DimenStore.WildIsSingleton | ascend/compiler/dimen.c:92-99 | an interned record is wild exactly when its handle is the wild singleton |
| DimenStore.LowerBound | ascend/compiler/dimen.c:309 | the search position is the first list entry not below the key |
| DimenStore.AboveLowerBound | ascend/compiler/dimen.c:309-314 | every entry after a not-below entry is strictly above the key |
| DimenStore.FindOrAddDimen | ascend/compiler/dimen.c:306-318 | the result is an interned handle comparing equal to the key; an existing entry is returned with the store unchanged, otherwise a copy is added and nothing else changes |
| DimenStore.Insert | ascend/compiler/dimen.c:313-314 | inserting at the search position keeps the store valid and the old handles, and the new handle holds the key |
| DimenStore.FoundFacts | ascend/compiler/dimen.c:309-311 | a hit at the search position means the key is present |
| DimenStore.NotPresent | ascend/compiler/dimen.c:309-314 | a miss at the search position means no interned record compares equal to the key |
| DimenStore.InsertValid | ascend/compiler/dimen.c:313-314 | the sorted insertion preserves the store invariant and extends the store |
| DimenStore.InsertSorted | ascend/compiler/dimen.c:314 | the list after insertion is strictly sorted |
| DimenStore.InsertCovers | ascend/compiler/dimen.c:314 | after insertion every heap record is listed |
| DimenOps.Deref | ascend/compiler/dimen.c:92-99 | a non-NULL handle dereferences to a valid vector |
| DimenOps.InternScaled | ascend/compiler/dimen.c:198-199 | interning the scaled vector gives the FindOrAddDimen answer for it, holding the argument scaled by the factor |
| DimenOps.SquareDimension | ascend/compiler/dimen.c:139-149 | NULL gives NULL, wild gives wild; with check a fractional exponent gives NULL and leaves the store alone; otherwise the interned vector with every exponent doubled; the store grows by at most one record, and the result is exactly FindOrAddDimen of the doubled vector |
| DimenOps.HalfDimension | ascend/compiler/dimen.c:152-162 | as SquareDimension, refusing under check any exponent that is not an even integer, and halving; the result is exactly FindOrAddDimen of the halved vector, and the store grows by at most one record |
| DimenOps.CubeDimension | ascend/compiler/dimen.c:165-175 | as SquareDimension with every exponent tripled; the result is exactly FindOrAddDimen of the tripled vector, and the store grows by at most one record |
| DimenOps.ThirdDimension | ascend/compiler/dimen.c:203-214 | as HalfDimension with non-multiples of 3 refused and exponents divided by 3; the result is exactly FindOrAddDimen of the vector divided by 3, and the store grows by at most one record |
| DimenOps.TopMax | ascend/compiler/dimen.c:178-185 | the largest absolute numerator, attained by some slot |
| DimenOps.PowDimension | ascend/compiler/dimen.c:188-201 | NULL, wild and dimensionless pass through; NULL iff check finds a fraction or some numerator times mult would exceed FRACMAX in magnitude; otherwise every exponent is multiplied by mult and stays within FRACMAX; then the result is exactly FindOrAddDimen of the scaled vector, and the store grows by at most one record |
| DimenOps.PowDimensionAsWritten | ascend/compiler/dimen.c:193 | the signed guard refuses only when mult times topmax exceeds FRACMAX, so any negative mult passes |
| DimenOps.PowAsWrittenExceedsFracMax | ascend/compiler/dimen.c:193-199 | on the trig dimension, mult = -(FRACMAX+1) passes the written guard and interns a plane-angle exponent of magnitude FRACMAX+1 |
| DimenOps.PowRefusesOverflow | ascend/compiler/dimen.c:193 | the corrected guard refuses every mult of magnitude above FRACMAX on the trig dimension |
| DimenOps.PowRefusesLarge | ascend/compiler/dimen.c:193 | whenever |mult| * topmax exceeds FRACMAX the corrected PowDimension returns NULL |
| DimenOps.TrigFacts | ascend/compiler/dimen.c:77-79 | the trig record is non-wild, not dimensionless, and has topmax 1 |
| DimenOps.SumDimensions | ascend/compiler/dimen.c:337-353 | NULL iff check is set and an operand is NULL, wild or has a fractional exponent (and then the store is unchanged); otherwise wild if either operand is wild, else the interned vector whose exponents are the slot-wise sums; that result is exactly FindOrAddDimen of the sum, and the store grows by at most one record |
| DimenOps.DiffDimensions | ascend/compiler/dimen.c:371-390 | as SumDimensions with the slot-wise difference; the result is exactly FindOrAddDimen of the difference, and the store grows by at most one record |
| DimenOps.CheckDimensionsMatch | ascend/compiler/dimen.c:454-459 | wild unifies with anything and yields the other; otherwise a result exists iff the two handles are the same |
| DimenOps.PlaneAngleOfScaled | ascend/compiler/dimen.c:197-199 | scaling a vector with unit plane angle by integer m leaves m on plane angle |
| DimenLaws.FindExisting | ascend/compiler/dimen.c:309-311 | looking up an interned vector returns its handle and changes nothing |
| DimenLaws.FindOrAddTwice | ascend/compiler/dimen.c:306-318 | FindOrAddDimen is idempotent: a second lookup of an equal vector returns the same handle and store |
| DimenLaws.FindOrAddWild | ascend/compiler/dimen.c:306-318 | interning any wild vector returns the wild singleton |
| DimenLaws.ScaledBack | ascend/compiler/dimen.c:393-402 | scaling an interned multiple by the reciprocal factor finds the original handle without growing the store |
| DimenLaws.ScaledMultiples | ascend/compiler/dimen.c:102-131 | an integral vector scaled by n has every exponent an integral multiple of n |
| DimenLaws.HalfOfSquare | ascend/compiler/dimen.c:139-162 | the half of the square of an integral dimension is that dimension, even under check |
| DimenLaws.ThirdOfCube | ascend/compiler/dimen.c:165-214 | the third of the cube of an integral dimension is that dimension, even under check |
| DimenLaws.SquareOfHalf | ascend/compiler/dimen.c:139-162 | when the half exists, squaring it returns the original handle |
| DimenLaws.CubeOfThird | ascend/compiler/dimen.c:165-214 | when the third exists, cubing it returns the original handle |
| DimenLaws.DiffOfSum | ascend/compiler/dimen.c:337-390 | subtracting p2 from the sum of p1 and p2 returns p1's handle |
| DimenLaws.PowTwoIsSquare | ascend/compiler/dimen.c:139-201 | PowDimension with multiplier 2 is SquareDimension, store and handle, under either check, when doubling stays within FRACMAX |
| DimenLaws.SquareOfDimless | ascend/compiler/dimen.c:139-149 | the square of the dimensionless handle is that handle and the store is unchanged |
| DimenLaws.PowScaled | ascend/compiler/dimen.c:188-200 | off the pass-through, check and overflow branches PowDimension interns the vector scaled by mult |
| DimenLaws.PowOfPow | ascend/compiler/dimen.c:188-201 | raising to n and then to m gives the same handle and store as raising to m*n, when no numerator passes FRACMAX |
| DimenLaws.PowOfSquare | ascend/compiler/dimen.c:139-201 | the cube of a square is the sixth power: PowDimension(3, SquareDimension(L)) is PowDimension(6, L) |
| DimenLaws.SumCommutes | ascend/compiler/dimen.c:337-353 | SumDimensions is symmetric in its operands, store included |
| DimenText.PrintDimen | ascend/compiler/dimen.c:405-421 | wild prints "wild"; "dimensionless" is printed iff every numerator is 0; otherwise one numerator/denominator/name token per non-zero slot |
| DimenText.TokensShape | ascend/compiler/dimen.c:412-419 | the token text is empty iff all numerators are 0, and otherwise starts with a digit or '-' |
| DimenText.PrintReadRoundTrip | ascend/compiler/dimen.c:405-421 | reading the printed text gives back the vector (up to SameDimen for wild), so PrintDimen is injective on non-wild vectors |
| DimenText.PrintBaseUnit | ascend/compiler/dimen.c:405-477 | a parsed base dimension prints as "1/1" followed by its name and a blank |
| DimenText.ReadIntOf | ascend/compiler/dimen.c:414 | the reader inverts the "%d" rendering of a numerator |
| DimenText.ReadTokenOf | ascend/compiler/dimen.c:414-415 | the reader inverts one "%d/%d%s " token |
| FuncRegistry.LookupIn | ascend/compiler/func.c:716-724 | the first entry with that name, or None iff no entry has it |
| FuncRegistry.LookupIdIn | ascend/compiler/func.c:726-734 | the first entry with that id, or None iff no entry has it |
| FuncRegistry.LookupFunc | ascend/compiler/func.c:716-724 | a registered descriptor carrying that name, or NULL iff no entry has it |
| FuncRegistry.LookupFuncById | ascend/compiler/func.c:726-734 | a registered descriptor carrying that id, or NULL iff no entry has it |
| FuncRegistry.FuncName | ascend/compiler/func.c:736-738 | the name of a registered descriptor is the key LookupFunc finds it by, with or without erf |
| FuncRegistry.FuncCName | ascend/compiler/func.c:740-743 | the descriptor's C name; a field read with no further promise (values for ln in DescriptorFields) |
| FuncRegistry.FuncYName | ascend/compiler/func.c:745-747 | the descriptor's Yacas name; a field read with no further promise (values for ln in DescriptorFields) |
| FuncRegistry.FuncDeriv1CName | ascend/compiler/func.c:749-751 | the C name of the first derivative; a field read (values for sin in DescriptorFields) |
| FuncRegistry.FuncDeriv2CName | ascend/compiler/func.c:753-755 | the C name of the second derivative; a field read (values for sin in DescriptorFields) |
| FuncRegistry.FuncId | ascend/compiler/func.c:757-759 | the id of a registered descriptor is the key LookupFuncById finds it by, with or without erf |
| FuncRegistry.RegistryDistinct | ascend/compiler/func.c:687-714 | names and ids are pairwise distinct in the table, with or without erf |
| FuncRegistry.LookupRoundTrip | ascend/compiler/func.c:716-759 | every registered function is found again by its own name and by its own id |
| FuncRegistry.ErfAbsent | ascend/compiler/func.c:699-701 | without HAVE_ERF neither "erf" nor its id is found |
| FuncRegistry.ErfPresent | ascend/compiler/func.c:549-564 | with HAVE_ERF, "erf" finds the erf descriptor |
| FuncRegistry.DescriptorFields | ascend/compiler/func.c:354-412 | the accessors return the descriptor fields: sin differentiates to "cos"/"dcos", ln is "log" in C and "Ln" elsewhere |
| FuncRegistry.FuncDimens | ascend/compiler/func.c:761-795 | NULL gives dimensionless; the result is wild exactly for sqr, sqrt, cube, cbrt, abs, hold, trig exactly for sin, cos, tan, and dimensionless otherwise |
| EnvStore.CmpEV | ascend4/utilities/ascEnvVar.c:133-145 | 0 iff the names are equal; a missing name sorts after every name; otherwise the sign of strcmp |
| EnvStore.CmpEVAntisymmetric | ascend4/utilities/ascEnvVar.c:133-145 | swapping the records negates the comparison |
| EnvStore.FindEnvVar | ascend4/utilities/ascEnvVar.c:151-162 | a record with that name from the list, or None iff no record has it |
| EnvStore.FindAt | ascend4/utilities/ascEnvVar.c:151-162 | in a sorted list each record is found by its own name |
| EnvStore.AppendEnvVar | ascend4/utilities/ascEnvVar.c:168-171 | the new record is inserted at some position and the list stays sorted |
| EnvStore.InsertFacts | ascend4/utilities/ascEnvVar.c:168-171 | after insertion the new name finds the new record and every other name finds what it found before |
| EnvStore.DeleteEnvVar | ascend4/utilities/ascEnvVar.c:177-192 | NULL name or list changes nothing; otherwise the named record is gone and every other name finds what it found before |
| EnvStore.DropKeeps | ascend4/utilities/ascEnvVar.c:188-190 | removing one record leaves every other name's lookup unchanged |
| EnvStore.UpdateFacts | ascend4/utilities/ascEnvVar.c:410 | replacing a record's data leaves other names' lookups unchanged |
| EnvStore.InitEnvironment | ascend4/utilities/ascEnvVar.c:194-204 | status 0 iff no list existed, which creates an empty one; otherwise status 1 and nothing changes (the `len` argument is only the initial list capacity and is dropped) |
| EnvStore.DestroyEnvironment | ascend4/utilities/ascEnvVar.c:206-214 | afterwards there is no list |
| EnvStore.AppendPath | ascend4/utilities/ascEnvVar.c:383-412 | status 0 iff list, name and element are present and non-empty; then the variable (created if needed) ends with the element and no other variable changes; otherwise status 1 and nothing changes |
| EnvStore.GetPathList | ascend4/utilities/ascEnvVar.c:414-456 | -1 without a list or name; a list exactly when the variable exists, and then it is the stored elements and the count is its length; 0 otherwise |
| EnvStore.Terminated | ascend4/utilities/ascEnvVar.c:473-486 | the elements each followed by ':' occupy BufferLength characters, one more than each element's length: the `slen` sum, counted in characters (see Left out) |
| EnvStore.Join | ascend4/utilities/ascEnvVar.c:473-489 | no elements give ""; otherwise the result is BufferLength - 1 characters long, the last separator being where the NUL goes |
| EnvStore.JoinCons | ascend4/utilities/ascEnvVar.c:483-489 | the joined text is the elements separated by ':' |
| EnvStore.GetEnv | ascend4/utilities/ascEnvVar.c:458-491 | a string exactly when the list, a non-empty name and the variable exist, and it is the elements joined with ':' |
| EnvStore.GetEnvAsWritten | ascend4/utilities/ascEnvVar.c:473-489 | the written code writes out of bounds exactly when the variable has no elements, and otherwise agrees with GetEnv |
| EnvStore.EnvNames | ascend4/utilities/ascEnvVar.c:493-513 | -1 without a list; otherwise one name per variable, exactly the names that are found, in strictly ascending strcmp order |
| EnvPaths.TrimLeft | ascend4/utilities/ascEnvVar.c:237-239 | a suffix of the input; what was dropped is blank; it starts with a non-blank |
| EnvPaths.TrimRight | ascend4/utilities/ascEnvVar.c:246-249 | a prefix of the input; what was dropped is blank; it ends with a non-blank |
| EnvPaths.TrimBothEmpty | ascend4/utilities/ascEnvVar.c:237-249 | trimming both ends yields "" exactly for an all-blank name |
| EnvPaths.ParseName | ascend4/utilities/ascEnvVar.c:234-259 | an all-blank name is blank; otherwise it is accepted iff the trimmed name has no inner blank, and the accepted name is the trimmed one |
| EnvPaths.ParsePlainName | ascend4/utilities/ascEnvVar.c:234-259 | a non-empty name without blanks is kept as it is |
| EnvPaths.SepIndex | ascend4/utilities/ascEnvVar.c:279-281 | the copy loop stops at the first ':' or the end |
| EnvPaths.SkipSeps | ascend4/utilities/ascEnvVar.c:289 | only blanks and ':' are skipped, and what remains starts an element |
| EnvPaths.ElementsAreElements | ascend4/utilities/ascEnvVar.c:276-290 | every stored element is non-empty, free of ':' and without blanks at either end |
| EnvPaths.Split | ascend4/utilities/ascEnvVar.c:271-290 | the corrected splitter yields only such elements |
| EnvPaths.SplitAsWritten | ascend4/utilities/ascEnvVar.c:273-284 | the written loop reads out of bounds exactly when the first non-blank is ':', and otherwise agrees with Split |
| EnvPaths.AppendAll | ascend4/utilities/ascEnvVar.c:276-290 | appending the elements one at a time adds them after the existing data and changes no other variable |
| EnvPaths.Install | ascend4/utilities/ascEnvVar.c:260-290 | deleting, recreating and appending leaves the variable holding exactly the elements, with every other variable unchanged |
| EnvPaths.SetPathList | ascend4/utilities/ascEnvVar.c:216-292 | status 0 iff list, name and value are present and non-empty and the name is acceptable; then the trimmed variable holds exactly the split elements and nothing else changes; otherwise status 1 and nothing changes |
| EnvPaths.SetPathListAsWritten | ascend4/utilities/ascEnvVar.c:216-292 | the written code goes out of bounds exactly for an all-blank name or a value whose first non-blank is ':', and otherwise agrees with SetPathList |
| EnvPaths.SplitAssignment | ascend4/utilities/ascEnvVar.c:310-319 | None iff there is no '='; otherwise the text splits at the first '=' |
| EnvPaths.PutEnv | ascend4/utilities/ascEnvVar.c:294-366 | status 0 iff list and string are present, the string has '=', and the part before it is an acceptable name; then that variable holds exactly the split right-hand side |
| EnvPaths.PutEnvAsWritten | ascend4/utilities/ascEnvVar.c:294-366 | out of bounds exactly for an all-blank name or a right-hand side whose first non-blank is ':', otherwise agrees with PutEnv |
| EnvLaws.ElementsOfJoin | ascend4/utilities/ascEnvVar.c:276-290 | cutting a ':'-joined list of elements gives the elements back |
| EnvLaws.SplitJoin | ascend4/utilities/ascEnvVar.c:271-290 | Split inverts Join on element lists |
| EnvLaws.SplitIdempotent | ascend4/utilities/ascEnvVar.c:271-290 | joining and splitting again a split list changes nothing |
| EnvLaws.ReadAfterSetPathList | ascend4/utilities/ascEnvVar.c:216-491 | after a successful Asc_SetPathList, Asc_GetPathList returns the split elements and Asc_GetEnv their ':'-join |
| EnvLaws.SetThenGet | ascend4/utilities/ascEnvVar.c:216-491 | setting a variable to joined elements and reading it back returns the elements and the same text |
| EnvLaws.PutEnvIsSetPathList | ascend4/utilities/ascEnvVar.c:216-366 | "name=value" with a non-empty value does what Asc_SetPathList(name, value) does |
| EnvLaws.PutEnvEmptyValue | ascend4/utilities/ascEnvVar.c:315-366 | "name=" succeeds and leaves the variable with no elements |
| EnvLaws.PutEnvInstalls | ascend4/utilities/ascEnvVar.c:294-491 | after a successful Asc_PutEnv the variable's elements, path list and joined value are those of the split right-hand side |
| EnvLaws.SetPathListBlankName | ascend4/utilities/ascEnvVar.c:246 | name " " with value "a": the written code reads out of bounds; the corrected one refuses with status 1 |
| EnvLaws.PutEnvBlankName | ascend4/utilities/ascEnvVar.c:321 | "=a": the written code reads out of bounds; the corrected one refuses with status 1 |
| EnvLaws.SetPathListLeadingSeparator | ascend4/utilities/ascEnvVar.c:273-284 | value ":e": the written code reads out of bounds; the corrected one stores just e |
| EnvLaws.PutEnvLeadingSeparator | ascend4/utilities/ascEnvVar.c:347-358 | "X=:e": the written code reads out of bounds; the corrected one stores just e |
| EnvLaws.PutEnvStrays | ascend4/utilities/ascEnvVar.c:347-358 | every right-hand side starting with ':' after blanks makes the written Asc_PutEnv go out of bounds |
| EnvLaws.GetEnvOfEmptyVariable | ascend4/utilities/ascEnvVar.c:473-489 | after "X=", the written Asc_GetEnv writes out of bounds while the corrected one returns "" |
| FlagWords.MaskedBitsMeaning | base/generic/solver/var.c:396 | the masked word has no bits outside the mask and equals the flags on it |
| FlagWords.SetBitsField | base/generic/solver/var.c:405-409 | after setting, the field bits are all ones if one is non-zero and all zeros otherwise |
| FlagWords.SetBitsRest | base/generic/solver/var.c:405-409 | bits outside the field keep their value |
| FlagWords.MatchesAgree | base/generic/solver/var.c:420-422 | a matching word agrees with the match value on every selected bit |
| FlagWords.DisagreeRejects | base/generic/solver/var.c:420-422 | one selected bit that disagrees makes the filter reject |
| FlagWords.MismatchWitness | base/generic/solver/var.c:420-422 | a rejected word has a single selected bit where it disagrees |
| FlagWords.MatchesAfterSetBits | base/generic/solver/var.c:399-422 | after setting a field, a filter on that field matches iff its value selects the field as set |
| SolverVar.MIndex | base/generic/solver/var.c:132-139 | -1 for a NULL variable or one without an instance |
| SolverVar.SetMIndex | base/generic/solver/var.c:141-148 | a bad variable is unchanged; otherwise the master index is set and nothing else changes |
| SolverVar.SIndex | base/generic/solver/var.c:150-157 | -1 for a bad variable |
| SolverVar.SetSIndex | base/generic/solver/var.c:159-166 | a bad variable is unchanged; otherwise only the solver index changes |
| SolverVar.Flags | base/generic/solver/var.c:290-293 | the word returned is the variable's stored flag word |
| SolverVar.SetFlags | base/generic/solver/var.c:295-298 | the flag word is replaced and nothing else changes |
| SolverVar.FlagBit | base/generic/solver/var.c:390-397 | 0 for a bad variable; otherwise the flags masked by one |
| SolverVar.SetFlagBit | base/generic/solver/var.c:399-410 | a bad variable is unchanged; otherwise the field is set or cleared and nothing else changes |
| SolverVar.ApplyFilter | base/generic/solver/var.c:412-423 | true iff the variable is good, a filter is given, and the flags agree with the match value on the match bits |
| SolverVar.NIncidences | base/generic/solver/var.c:426-431 | 0 for a NULL variable |
| SolverVar.Incidence | base/generic/solver/var.c:445-449 | NULL for a NULL variable |
| SolverVar.SetIncidences | base/generic/solver/var.c:432-444 | NULL variable or negative count changes nothing; otherwise count and list are replaced and nothing else changes |
| VarLaws.IndexRoundTrip | base/generic/solver/var.c:132-166 | each index reads back as set, and setting one index leaves the other alone |
| VarLaws.FlagsRoundTrip | base/generic/solver/var.c:290-298 | the flag word reads back as set, and restoring the old word restores the variable |
| VarLaws.FlagBitAfterSet | base/generic/solver/var.c:390-410 | reading a field just set gives the whole field or 0, as one was non-zero or zero |
| VarLaws.SetFlagBitIdempotent | base/generic/solver/var.c:399-410 | setting the same field twice is setting it once |
| VarLaws.SetThenClear | base/generic/solver/var.c:399-410 | setting then clearing a field clears exactly that field |
| VarLaws.EmptyFilterAcceptsAll | base/generic/solver/var.c:412-423 | a filter with no match bits accepts exactly the good variables |
| VarLaws.NullFilterRejects | base/generic/solver/var.c:415-418 | a NULL filter rejects every variable |
| VarLaws.IncidenceRoundTrip | base/generic/solver/var.c:426-449 | a non-negative count and its list read back as set; a negative count changes nothing |

## Left out

- Function evaluation: `FuncEval`, `FuncDeriv`, `FuncDeriv2`, their safe variants and the floating-point
  evaluators in func.c (`ascend/compiler/func.c:55-336`, `797-819`) are left out. They are
  floating-point mathematics. The registry keeps each descriptor's names and id, but not its function
  pointers.
- The fraction module, `gl_list` and the memory allocator are not part of this model. Fractions are
  modelled by their contract (lowest terms, positive denominator). Lists are sequences.
- Allocation failure is left out. This covers every `ascmalloc`/`CreateEnvVar` failure return,
  including the failure branch of the `Asc_AppendPath` call inside `Asc_SetPathList` and `Asc_PutEnv`.
  It also covers the failure returns of `Asc_GetPathList` and `Asc_EnvNames`, and the `gl_create`
  failure of `Asc_InitEnvironment`; its `len` argument (`ascend4/utilities/ascEnvVar.c:194,199`) only
  sizes that allocation, so EnvStore.InitEnvironment takes no argument.
- The 4096-byte `g_path_var` buffer is not modelled. The model does not reject or overflow longer
  strings.
- Strings are sequences of characters, while the C code works on NUL-terminated byte strings. Names,
  elements and assignment strings are assumed free of `'\0'`; the model does not cut a string at an
  embedded NUL, so `strlen`-based tests such as the empty-element test of `Asc_AppendPath` see the whole
  sequence. Lengths such as BufferLength (the `slen` of `Asc_GetEnv`) count characters, which equal bytes
  only for one-byte characters. StrOrder.StrCmp compares code points, which orders strings as `strcmp`
  orders their UTF-8 bytes; separators, blanks and '=' are one-byte characters, so splitting and trimming
  are unaffected.
- SolverVar.Flags and SolverVar.SetFlags: the variable is never NULL. `var_flagsF` and `var_set_flagsF`
  (`base/generic/solver/var.c:290-298`) dereference it without a test, so NULL there is undefined
  behaviour, not a result.
- The path separator `PATHDIV`/`QPATHDIV` is ':' and ":", the non-`__WIN32__` branch of
  `ascend4/utilities/ascEnvVar.c:52-53`. The `__WIN32__` separator ';' (`:48-49`) is not modelled; the
  path functions of EnvPaths and EnvStore.Join split and join on ':' only.
- `isspace` is modelled as blank, tab, newline, vertical tab, form feed and carriage return. It is not
  the locale-dependent C function.
- `CmpEV`'s pointer-equality shortcut and records whose name is NULL are left out. A NULL record is
  `None`, which orders as the code orders it.
- `FindEnvVar` is modelled as a first-match scan rather than the binary search `gl_search`. On the
  sorted, duplicate-free list both give the same record.
- EnvStore.DeleteEnvVar: requires that the variable exists. `gl_search` returns 0 for a missing name
  and `gl_fetch(…, 0)` is undefined, and the only callers delete after a successful `FindEnvVar`.
- `Asc_ImportPathList` is left out. It reads the process environment, which is outside the model.
- `DestroyDimenList`, `DumpDimens` and `PrintDimenMessage` are left out. They only free memory or
  write to a stream. The text `PrintDimen` writes is modelled as a returned string.
- `CopyDimensions`, `CopyDimen`, `SetWild`, `Dimensionless`, `TrigDimension` and `WildDimension` need no
  member of their own. They are record copies and field reads of the store.
- DimenOps.PowDimension: the product `mult*topmax` is computed without `long` overflow. The
  `(FRACPART)mult` cast is not modelled either. Once the corrected guard holds, `|mult|` is at most
  FRACMAX and the cast is exact.
- DimenOps.SumDimensions and DimenOps.DiffDimensions: with check off, both operands must be non-NULL.
  The C code dereferences them at `ascend/compiler/dimen.c:344` and `:381` without a test, so a NULL
  operand there is undefined behaviour, not a result.
- DimenOps.CheckDimensionsMatch: both operands are handles, never NULL. `WILD(d1)` and `WILD(d2)` at
  `ascend/compiler/dimen.c:454-455` dereference them without a test, so a NULL operand there is
  undefined behaviour, not a result.
- Only pointers handed out by the store are modelled, as handles that satisfy `Ptr`/`Interned`. A
  `dim_type*` to a vector outside the store is left out. So the pointer comparison with
  `Dimensionless()` at `ascend/compiler/dimen.c:191` is a handle comparison. The `CmpDimen(d1,d2)==0`
  fallback at `ascend/compiler/dimen.c:457` can never decide anything in the model, because interned
  handles compare equal only when they are the same handle.
- Fraction width is not modelled. `AddF`, `SubF` and `MultF` are exact on unbounded integers. The
  `FRACPART` width of numerators and denominators, and any overflow inside the fraction module, are
  left out. This applies to AddDimensions, SubDimensions, ScaleDimensions and every operation built
  on them. Only PowDimension's FRACMAX guard is modelled.
- The `argc` out-parameter of `Asc_GetPathList` and `Asc_EnvNames` becomes the returned count. A
  NULL `argc` is not modelled. The code tests `argc == NULL` at `ascend4/utilities/ascEnvVar.c:421`
  and then writes `*argc = -1` through it at line 422.
- FRACMAX and the index of the plane-angle slot are defined in headers that are not part of this
  model. They are left as unspecified constants.
- The var.c accessors for value, nominal, bounds, fixed/relaxed/interface flags, names and instance
  handling are left out. They read the compiler's instance tree or are one-field getters outside the
  core.
- SolverVar.FlagBit and SolverVar.SetFlagBit: the contracts state the result as the masked or updated
  word. The bit-level meaning of that word is in FlagWords.MaskedBitsMeaning, SetBitsField and
  SetBitsRest. It is not restated in the function contracts.
- The diagnostic messages the code prints to stderr are left out.

## Findings

| source | as written | input that shows it | evidently intended | confidence | as-written member | corrected member |
|---|---|---|---|---|---|---|
| ascend/compiler/dimen.c:193 | the overflow guard compares FRACMAX with the signed product `mult*topmax(dim)` | `PowDimension(-(FRACMAX+1), TrigDimension(), 0)` passes the guard and interns a plane-angle exponent of magnitude FRACMAX+1 | refuse when the magnitude of every scaled exponent cannot be kept within FRACMAX | not executed | DimenOps.PowDimensionAsWritten, DimenOps.PowAsWrittenExceedsFracMax | DimenOps.PowDimension, DimenOps.PowRefusesOverflow |
| ascend4/utilities/ascEnvVar.c:246, ascend4/utilities/ascEnvVar.c:321 | after left-trimming, the backward blank scan reads `putenvstring[c-1]` with unsigned `c` equal to 0 | `Asc_SetPathList(" ", "a")`; `Asc_PutEnv("=a")` | refuse a name that is blank after trimming (status 1) | not executed | EnvPaths.SetPathListAsWritten, EnvPaths.PutEnvAsWritten, EnvLaws.SetPathListBlankName, EnvLaws.PutEnvBlankName | EnvPaths.SetPathList, EnvPaths.PutEnv |
| ascend4/utilities/ascEnvVar.c:282, ascend4/utilities/ascEnvVar.c:356 | when the first non-blank character of the value is `PATHDIV` (':'), the copy loop copies nothing and `g_path_var[length-1]` is read with `length` 0 | `Asc_SetPathList("X", ":a")`; `Asc_PutEnv("X=:a")` | skip a leading ':' like any separator, storing just `a` | not executed | EnvPaths.SplitAsWritten, EnvPaths.SetPathListAsWritten, EnvLaws.SetPathListLeadingSeparator, EnvLaws.PutEnvLeadingSeparator | EnvPaths.Split, EnvPaths.SetPathList, EnvPaths.PutEnv |
| ascend4/utilities/ascEnvVar.c:489 | for a variable with no elements `slen` is 0 and `result[slen-1]` writes out of bounds, the index wrapping to the largest unsigned value | `Asc_PutEnv("X=")` then `Asc_GetEnv("X")` | return the empty string | not executed | EnvStore.GetEnvAsWritten, EnvLaws.GetEnvOfEmptyVariable | EnvStore.GetEnv |

=== FILE: dimen.dfy ===
/**
 * Dimension vectors (ascend/compiler/dimen.c): one rational exponent per
 * base dimension plus a wild flag, and the algebra, order, printing and
 * parsing defined on them. The interning store lives in module DimenStore.
 */
module Dimen {
  import opened Fractions
  import opened Options

  /** Number of base dimensions. */
  const NUM_DIMENS: nat := 10

  type Slot = i: int | 0 <= i < 10

  /** Index of the plane-angle slot; its value is fixed by a header outside this model. */
  const D_PLANE_ANGLE: Slot

  /** Short codes of the base dimensions, in slot order. */
  const DimNames: seq<string> := ["M", "Q", "L", "T", "TMP", "C", "E", "LUM", "P", "S"]

  /** A dimension: the exponents of the base dimensions and the wild flag. */
  datatype Dim = Dim(exps: seq<Frac>, wild: bool)

  /** A dimension with one normalised exponent per slot. */
  predicate ValidDim(d: Dim) {
    |d.exps| == NUM_DIMENS && forall i :: 0 <= i < |d.exps| ==> Valid(d.exps[i])
  }

  /** The exponent vector with every slot 0/1. */
  const Zeros: seq<Frac> := [Zero, Zero, Zero, Zero, Zero, Zero, Zero, Zero, Zero, Zero]

  /** IsWild: NULL counts as wild. */
  predicate IsWild(d: Option<Dim>) {
    d.None? || d.value.wild
  }

  /** Exponent `f` is an integer that is a multiple of k. */
  predicate IntMultiple(f: Frac, k: int)
    requires k > 0
  {
    f.den == 1 && f.num % k == 0
  }

  /**
   * Scan of slots i.. for an exponent that is not an integral multiple of k,
   * the loop shared by OddDimension (k = 2), FractionalDimension (k = 1)
   * and NonCubicDimension (k = 3). Every integer is a multiple of 1, so
   * with k = 1 only the denominator is examined, as FractionalDimension does.
   */
  function NotMultipleFrom(e: seq<Frac>, i: nat, k: int): (r: bool)
    requires i <= |e| && k > 0
    ensures r <==> exists j :: i <= j < |e| && !IntMultiple(e[j], k)
    decreases |e| - i
  {
    if i == |e| then false
    else if e[i].den != 1 || e[i].num % k != 0 then true
    else NotMultipleFrom(e, i + 1, k)
  }

  /** OddDimension: true for NULL, wild, or some exponent that is not an even integer. */
  function OddDimension(d: Option<Dim>): (r: bool)
    requires d.Some? ==> ValidDim(d.value)
    ensures r <==> IsWild(d) || exists j :: 0 <= j < NUM_DIMENS && !IntMultiple(d.value.exps[j], 2)
  {
    if d.None? || d.value.wild then true else NotMultipleFrom(d.value.exps, 0, 2)
  }

  /** FractionalDimension: true for NULL, wild, or some non-integral exponent. */
  function FractionalDimension(d: Option<Dim>): (r: bool)
    requires d.Some? ==> ValidDim(d.value)
    ensures r <==> IsWild(d) || exists j :: 0 <= j < NUM_DIMENS && d.value.exps[j].den != 1
  {
    if d.None? || d.value.wild then true
    else
      var r := NotMultipleFrom(d.value.exps, 0, 1);
      assert forall j :: 0 <= j < NUM_DIMENS ==> (IntMultiple(d.value.exps[j], 1) <==> d.value.exps[j].den == 1);
      r
  }

  /** NonCubicDimension: true for NULL, wild, or some exponent that is not an integral multiple of 3. */
  function NonCubicDimension(d: Option<Dim>): (r: bool)
    requires d.Some? ==> ValidDim(d.value)
    ensures r <==> IsWild(d) || exists j :: 0 <= j < NUM_DIMENS && !IntMultiple(d.value.exps[j], 3)
  {
    if d.None? || d.value.wild then true else NotMultipleFrom(d.value.exps, 0, 3)
  }

  /** ClearDimensions: the dimensionless, non-wild vector. */
  function ClearDimensions(): (r: Dim)
    ensures ValidDim(r) && !r.wild
    ensures forall i :: 0 <= i < NUM_DIMENS ==> Value(r.exps[i]) == 0.0
  {
    Dim(Zeros, false)
  }

  /** The trig singleton's vector: exponent 1 on the plane-angle slot, 0 elsewhere. */
  function TrigVector(): (r: Dim)
    ensures ValidDim(r) && !r.wild
    ensures forall i :: 0 <= i < NUM_DIMENS ==> r.exps[i] == (if i == D_PLANE_ANGLE then One else Zero)
  {
    assert Gcd(1, 1) == 1;
    Dim(Zeros[D_PLANE_ANGLE := One], false)
  }

  /** The vector AddDimensions/SubDimensions return for a wild operand: cleared, then marked wild. */
  function WildCleared(): (r: Dim)
    ensures ValidDim(r) && r.wild
  {
    Dim(Zeros, true)
  }

  /** AddDimensions: slot-wise sum of exponents; a wild operand gives a wild result. */
  function AddDimensions(d1: Dim, d2: Dim): (r: Dim)
    requires ValidDim(d1) && ValidDim(d2)
    ensures ValidDim(r)
    ensures r.wild <==> d1.wild || d2.wild
    ensures r.wild ==> r == WildCleared()
    ensures !r.wild ==> forall i :: 0 <= i < NUM_DIMENS ==> Value(r.exps[i]) == Value(d1.exps[i]) + Value(d2.exps[i])
  {
    if d1.wild || d2.wild then WildCleared()
    else Dim(seq(NUM_DIMENS, i requires 0 <= i < NUM_DIMENS => AddF(d1.exps[i], d2.exps[i])), false)
  }

  /** SubDimensions: slot-wise difference of exponents; a wild operand gives a wild result. */
  function SubDimensions(d1: Dim, d2: Dim): (r: Dim)
    requires ValidDim(d1) && ValidDim(d2)
    ensures ValidDim(r)
    ensures r.wild <==> d1.wild || d2.wild
    ensures r.wild ==> r == WildCleared()
    ensures !r.wild ==> forall i :: 0 <= i < NUM_DIMENS ==> Value(r.exps[i]) == Value(d1.exps[i]) - Value(d2.exps[i])
  {
    if d1.wild || d2.wild then WildCleared()
    else Dim(seq(NUM_DIMENS, i requires 0 <= i < NUM_DIMENS => SubF(d1.exps[i], d2.exps[i])), false)
  }

  /** ScaleDimensions: every exponent times `frac`; a wild vector is returned unchanged. */
  function ScaleDimensions(d: Dim, frac: Frac): (r: Dim)
    requires ValidDim(d) && Valid(frac)
    ensures ValidDim(r)
    ensures d.wild ==> r == d
    ensures !d.wild ==> !r.wild && forall i :: 0 <= i < NUM_DIMENS ==> Value(r.exps[i]) == Value(frac) * Value(d.exps[i])
  {
    if d.wild then d
    else Dim(seq(NUM_DIMENS, i requires 0 <= i < NUM_DIMENS => MultF(frac, d.exps[i])), false)
  }

  /**
   * SameDimen on two vectors: both wild, or neither wild and the exponent
   * arrays equal field by field. (The pointer-identity shortcut is the
   * handle comparison of module DimenStore.)
   */
  predicate SameDimen(d1: Dim, d2: Dim) {
    if d1.wild && d2.wild then true
    else if d1.wild || d2.wild then false
    else d1.exps == d2.exps
  }

  /**
   * SameDimen is an equivalence whose classes are the single non-wild
   * vectors and the set of all wild vectors.
   */
  lemma SameDimenIsEquivalence(d1: Dim, d2: Dim, d3: Dim)
    ensures SameDimen(d1, d1)
    ensures SameDimen(d1, d2) ==> SameDimen(d2, d1)
    ensures SameDimen(d1, d2) && SameDimen(d2, d3) ==> SameDimen(d1, d3)
    ensures SameDimen(d1, d2) <==> (d1.wild && d2.wild) || (!d1.wild && !d2.wild && d1.exps == d2.exps)
  {
  }

  /** Exponents with positive denominators, as CmpF needs. */
  predicate PositiveDens(e: seq<Frac>) {
    forall i :: 0 <= i < |e| ==> e[i].den > 0
  }

  /**
   * The slot loop of CmpDimen: the first slot whose exponents differ
   * decides, by rational value; equal vectors compare 0.
   */
  function CmpExps(e1: seq<Frac>, e2: seq<Frac>): (r: int)
    requires |e1| == |e2| && PositiveDens(e1) && PositiveDens(e2)
    ensures r == -1 || r == 0 || r == 1
    decreases |e1|
  {
    if |e1| == 0 then 0
    else
      var i := CmpF(e1[0], e2[0]);
      if i < 0 then -1 else if i > 0 then 1 else CmpExps(e1[1..], e2[1..])
  }

  /** CmpDimen: wild sorts first (two wilds are equal), otherwise lexicographic over the slots. */
  function CmpDimen(d1: Dim, d2: Dim): (r: int)
    requires ValidDim(d1) && ValidDim(d2)
    ensures r == -1 || r == 0 || r == 1
  {
    if d1.wild then (if d2.wild then 0 else -1)
    else if d2.wild then 1
    else CmpExps(d1.exps, d2.exps)
  }

  /** DimName: the short code of slot ndx, or NULL out of range. */
  function DimName(ndx: int): (r: Option<string>)
    ensures r.Some? <==> 0 <= ndx < NUM_DIMENS
    ensures r.Some? ==> r.value == DimNames[ndx]
  {
    if 0 <= ndx < NUM_DIMENS then Some(DimNames[ndx]) else None
  }

  /** Index of the first short code at or after slot i equal to `name`. */
  function NameIndexFrom(name: string, i: nat): (r: Option<Slot>)
    requires i <= NUM_DIMENS
    ensures r.Some? ==> i <= r.value && DimNames[r.value] == name
    ensures r.Some? ==> forall j :: i <= j < r.value ==> DimNames[j] != name
    ensures r.None? ==> forall j :: i <= j < NUM_DIMENS ==> DimNames[j] != name
    decreases NUM_DIMENS - i
  {
    if i == NUM_DIMENS then None
    else if DimNames[i] == name then Some(i)
    else NameIndexFrom(name, i + 1)
  }

  /** ParseDim: exponent 1/1 on the slot whose short code is `name`; cleared for an unknown name. */
  function ParseDim(name: string): (r: Dim)
    ensures ValidDim(r) && !r.wild
    ensures name !in DimNames ==> r == ClearDimensions()
    ensures forall i :: 0 <= i < NUM_DIMENS ==>
      r.exps[i] == (if DimNames[i] == name then One else Zero)
  {
    match NameIndexFrom(name, 0)
    case None => ClearDimensions()
    case Some(i) =>
      assert Gcd(1, 1) == 1;
      NamesDistinct();
      Dim(Zeros[i := One], false)
  }

  /** No two slots share a short code. */
  lemma NamesDistinct()
    ensures forall i, j :: 0 <= i < j < NUM_DIMENS ==> DimNames[i] != DimNames[j]
  {
  }

  /** ParseDim inverts DimName: parsing the short code of slot i gives the base vector of slot i. */
  lemma ParseDimName(i: int)
    requires DimName(i).Some?
    ensures forall j :: 0 <= j < NUM_DIMENS ==> ParseDim(DimName(i).value).exps[j] == (if j == i then One else Zero)
  {
    NamesDistinct();
  }
}

=== FILE: dimen_algebra.dfy ===
/** Laws of the raw vector algebra of ascend/compiler/dimen.c. */
module DimenAlgebra {
  import opened Fractions
  import opened Dimen

  /** Two valid vectors with the same wild flag and equal exponent values are equal. */
  lemma SameValues(d1: Dim, d2: Dim)
    requires ValidDim(d1) && ValidDim(d2) && d1.wild == d2.wild
    requires forall i :: 0 <= i < NUM_DIMENS ==> Value(d1.exps[i]) == Value(d2.exps[i])
    ensures d1 == d2
  {
    forall i | 0 <= i < NUM_DIMENS
      ensures d1.exps[i] == d2.exps[i]
    {
      Canonical(d1.exps[i], d2.exps[i]);
    }
  }

  /** Subtracting what was added gives back the original vector. */
  lemma SubAddRoundTrip(a: Dim, b: Dim)
    requires ValidDim(a) && ValidDim(b) && !a.wild && !b.wild
    ensures SubDimensions(AddDimensions(a, b), b) == a
  {
    SameValues(SubDimensions(AddDimensions(a, b), b), a);
  }

  /** Adding what was subtracted gives back the original vector. */
  lemma AddSubRoundTrip(a: Dim, b: Dim)
    requires ValidDim(a) && ValidDim(b) && !a.wild && !b.wild
    ensures AddDimensions(SubDimensions(a, b), b) == a
  {
    SameValues(AddDimensions(SubDimensions(a, b), b), a);
  }

  /** Addition of dimensions is commutative, wild operands included. */
  lemma AddCommutes(a: Dim, b: Dim)
    requires ValidDim(a) && ValidDim(b)
    ensures AddDimensions(a, b) == AddDimensions(b, a)
  {
    if !a.wild && !b.wild {
      SameValues(AddDimensions(a, b), AddDimensions(b, a));
    }
  }

  /** The cleared vector is the identity of AddDimensions on non-wild vectors. */
  lemma AddCleared(a: Dim)
    requires ValidDim(a) && !a.wild
    ensures AddDimensions(a, ClearDimensions()) == a
  {
    SameValues(AddDimensions(a, ClearDimensions()), a);
  }

  /** Scaling the cleared vector by any fraction leaves it cleared. */
  lemma ScaleCleared(f: Frac)
    requires Valid(f)
    ensures ScaleDimensions(ClearDimensions(), f) == ClearDimensions()
  {
    SameValues(ScaleDimensions(ClearDimensions(), f), ClearDimensions());
  }

  /** Scaling twice is scaling once by the product of the factors. */
  lemma ScaleScale(d: Dim, f: Frac, g: Frac)
    requires ValidDim(d) && Valid(f) && Valid(g)
    ensures ScaleDimensions(ScaleDimensions(d, f), g) == ScaleDimensions(d, MultF(g, f))
  {
    if !d.wild {
      var l := ScaleDimensions(ScaleDimensions(d, f), g);
      var r := ScaleDimensions(d, MultF(g, f));
      forall i | 0 <= i < NUM_DIMENS
        ensures l.exps[i] == r.exps[i]
      {
        ScaleAt(d, f, i);
        ScaleAt(ScaleDimensions(d, f), g, i);
        ScaleAt(d, MultF(g, f), i);
        MultAssociative(g, f, d.exps[i]);
      }
    }
  }

  /** Slot i of a scaled vector is the fraction product for that slot. */
  lemma ScaleAt(d: Dim, frac: Frac, i: nat)
    requires ValidDim(d) && Valid(frac) && !d.wild && i < NUM_DIMENS
    ensures ScaleDimensions(d, frac).exps[i] == MultF(frac, d.exps[i])
  {
  }

  /**
   * Helper for ScaleScale, about the fraction module rather than dimen.c:
   * reduced products are associative because reduced fractions of equal
   * value are identical.
   */
  lemma MultAssociative(a: Frac, b: Frac, c: Frac)
    requires Valid(a) && Valid(b) && Valid(c)
    ensures MultF(a, MultF(b, c)) == MultF(MultF(a, b), c)
  {
    assert Value(a) * (Value(b) * Value(c)) == (Value(a) * Value(b)) * Value(c);
    Canonical(MultF(a, MultF(b, c)), MultF(MultF(a, b), c));
  }
}

=== FILE: dimen_laws.dfy ===
/**
 * Laws of the interning store that relate several calls: FindOrAddDimen
 * is idempotent and canonicalises every wild vector to the wild
 * singleton, and the power operations invert each other on the vectors
 * their checks admit.
 */
module DimenLaws {
  import opened Options
  import opened Fractions
  import opened Dimen
  import opened DimenOrder
  import opened DimenStore
  import opened DimenAlgebra
  import opened DimenOps

  /** A vector equal to the record at h is found there, and the store does not change. */
  lemma FindExisting(s: Store, d: Dim, h: Handle)
    requires DimenStore.Valid(s) && ValidDim(d) && Interned(s, h)
    requires CmpDimen(s.heap[h], d) == 0
    ensures FindOrAddDimen(s, d) == (s, h)
  {
    var r := FindOrAddDimen(s, d);
    assert Present(s, d);
    CmpDimenZeroIsSame(s.heap[h], d);
    CmpDimenZeroIsSame(s.heap[r.1], d);
    CmpDimenZeroIsSame(s.heap[r.1], s.heap[h]);
    Canonicity(s, r.1, h);
  }

  /**
   * Interning the same vector twice, or two SameDimen vectors in turn,
   * yields one handle, and the second call leaves the store as it is.
   */
  lemma FindOrAddTwice(s: Store, d1: Dim, d2: Dim)
    requires DimenStore.Valid(s) && ValidDim(d1) && ValidDim(d2) && SameDimen(d1, d2)
    ensures var r := FindOrAddDimen(s, d1); FindOrAddDimen(r.0, d2) == r
  {
    var r := FindOrAddDimen(s, d1);
    CmpDimenZeroIsSame(r.0.heap[r.1], d1);
    CmpDimenZeroIsSame(r.0.heap[r.1], d2);
    FindExisting(r.0, d2, r.1);
  }

  /** Every wild vector, whatever its exponents, interns to the wild singleton. */
  lemma FindOrAddWild(s: Store, d: Dim)
    requires DimenStore.Valid(s) && ValidDim(d) && d.wild
    ensures FindOrAddDimen(s, d) == (s, s.wild)
  {
    CmpDimenZeroIsSame(s.heap[s.wild], d);
    FindExisting(s, d, s.wild);
  }

  /** The record at h scaled by frac, where frac undoes the factor k, interns back to p. */
  lemma ScaledBack(s: Store, p: Handle, h: Handle, k: real, frac: Frac)
    requires DimenStore.Valid(s) && Interned(s, p) && !s.heap[p].wild
    requires HoldsScaled(s, h, s.heap[p], k)
    requires Fractions.Valid(frac) && Value(frac) * k == 1.0
    ensures InternScaled(s, s.heap[h], frac) == Res(s, Some(p))
  {
    var d := s.heap[p];
    assert ValidDim(s.heap[h]);
    var e := ScaleDimensions(s.heap[h], frac);
    ScaledBackValues(s.heap[h], d, k, frac);
    CmpDimenReflexive(d);
    FindExisting(s, e, p);
  }

  /** Scaling k times d by the inverse of k gives d back. */
  lemma ScaledBackValues(c: Dim, d: Dim, k: real, frac: Frac)
    requires ValidDim(c) && ValidDim(d) && !c.wild && !d.wild
    requires forall i :: 0 <= i < NUM_DIMENS ==> Value(c.exps[i]) == k * Value(d.exps[i])
    requires Fractions.Valid(frac) && Value(frac) * k == 1.0
    ensures ScaleDimensions(c, frac) == d
  {
    var e := ScaleDimensions(c, frac);
    forall i | 0 <= i < NUM_DIMENS
      ensures e.exps[i] == d.exps[i]
    {
      ScaleAt(c, frac, i);
      BackAt(c.exps[i], d.exps[i], k, frac);
    }
  }

  /** frac times (k times y) is y when frac undoes k. */
  lemma BackAt(x: Frac, y: Frac, k: real, frac: Frac)
    requires Fractions.Valid(x) && Fractions.Valid(y) && Fractions.Valid(frac)
    requires Value(x) == k * Value(y) && Value(frac) * k == 1.0
    ensures MultF(frac, x) == y
  {
    Undo(Value(MultF(frac, x)), Value(x), Value(y), Value(frac), k);
    Canonical(MultF(frac, x), y);
  }


  /** x is f times y, y is k times z, and f undoes k. */
  predicate Undoes(x: real, y: real, z: real, f: real, k: real) {
    x == f * y && y == k * z && f * k == 1.0
  }

  lemma Undo(x: real, y: real, z: real, f: real, k: real)
    requires Undoes(x, y, z, f, k)
    ensures x == z
  {
    calc {
      x;
      f * (k * z);
      (f * k) * z;
    }
  }

  /** d has only integral exponents. */
  predicate Integral(d: Dim)
    requires ValidDim(d)
  {
    forall i :: 0 <= i < NUM_DIMENS ==> d.exps[i].den == 1
  }

  /** n times an integral vector has every exponent an integral multiple of n. */
  lemma ScaledMultiples(s: Store, h: Handle, d: Dim, n: int)
    requires DimenStore.Valid(s) && ValidDim(d) && Integral(d) && n > 0
    requires HoldsScaled(s, h, d, n as real)
    ensures forall i :: 0 <= i < NUM_DIMENS ==> IntMultiple(s.heap[h].exps[i], n)
  {
    assert ValidDim(s.heap[h]);
    forall i | 0 <= i < NUM_DIMENS
      ensures IntMultiple(s.heap[h].exps[i], n)
    {
      IntegerMultiple(s.heap[h].exps[i], d.exps[i], n);
    }
  }

  /** A fraction worth n times an integer is an integral multiple of n. */
  lemma IntegerMultiple(f: Frac, g: Frac, n: int)
    requires Fractions.Valid(f) && g.den == 1 && n > 0
    requires Value(f) == n as real * Value(g)
    ensures IntMultiple(f, n)
  {
    var m := g.num;
    assert Value(g) == m as real;
    RealMul(n, m);
    Canonical(f, Integer(n * m));
    MulDiv(n, m);
  }

  /** For an integral d, HalfDimension(SquareDimension(d)) is d's handle, whatever the checks. */
  lemma HalfOfSquare(s: Store, p: Handle, check1: bool, check2: bool)
    requires DimenStore.Valid(s) && Interned(s, p) && !s.heap[p].wild && Integral(s.heap[p])
    ensures var r := SquareDimension(s, Some(p), check1);
      && r.dim.Some?
      && HalfDimension(r.store, r.dim, check2) == Res(r.store, Some(p))
  {
    var r := SquareDimension(s, Some(p), check1);
    var d := s.heap[p];
    assert r.store.heap[p] == d;
    ScaledMultiples(r.store, r.dim.value, d, 2);
    ScaledBack(r.store, p, r.dim.value, 2.0, MakeFrac(1, 2));
  }

  /** For an integral d, ThirdDimension(CubeDimension(d)) is d's handle, whatever the checks. */
  lemma ThirdOfCube(s: Store, p: Handle, check1: bool, check2: bool)
    requires DimenStore.Valid(s) && Interned(s, p) && !s.heap[p].wild && Integral(s.heap[p])
    ensures var r := CubeDimension(s, Some(p), check1);
      && r.dim.Some?
      && ThirdDimension(r.store, r.dim, check2) == Res(r.store, Some(p))
  {
    var r := CubeDimension(s, Some(p), check1);
    var d := s.heap[p];
    assert r.store.heap[p] == d;
    ScaledMultiples(r.store, r.dim.value, d, 3);
    ScaledBack(r.store, p, r.dim.value, 3.0, MakeFrac(1, 3));
  }

  /** Squaring a square root that HalfDimension admitted gives back the original handle. */
  lemma SquareOfHalf(s: Store, p: Handle, check: bool)
    requires DimenStore.Valid(s) && Interned(s, p) && !s.heap[p].wild
    requires HalfDimension(s, Some(p), check).dim.Some?
    ensures var r := HalfDimension(s, Some(p), check);
      SquareDimension(r.store, r.dim, false) == Res(r.store, Some(p))
  {
    var r := HalfDimension(s, Some(p), check);
    assert r.store.heap[p] == s.heap[p];
    SquareBack(r.store, p, r.dim.value);
  }

  /** Squaring a handle that holds half of p's vector gives p back. */
  lemma SquareBack(s: Store, p: Handle, h: Handle)
    requires DimenStore.Valid(s) && Interned(s, p) && !s.heap[p].wild
    requires HoldsScaled(s, h, s.heap[p], 0.5)
    ensures SquareDimension(s, Some(h), false) == Res(s, Some(p))
  {
    ScaledBack(s, p, h, 0.5, Integer(2));
  }

  /** Cubing a cube root that ThirdDimension admitted gives back the original handle. */
  lemma CubeOfThird(s: Store, p: Handle, check: bool)
    requires DimenStore.Valid(s) && Interned(s, p) && !s.heap[p].wild
    requires ThirdDimension(s, Some(p), check).dim.Some?
    ensures var r := ThirdDimension(s, Some(p), check);
      CubeDimension(r.store, r.dim, false) == Res(r.store, Some(p))
  {
    var r := ThirdDimension(s, Some(p), check);
    assert r.store.heap[p] == s.heap[p];
    ScaledBack(r.store, p, r.dim.value, 1.0 / 3.0, Integer(3));
  }
  /** Taking d2 back off the interned sum of d1 and d2 returns d1's handle and adds nothing. */
  lemma DiffOfSum(s: Store, p1: Handle, p2: Handle)
    requires DimenStore.Valid(s) && Interned(s, p1) && Interned(s, p2)
    requires !s.heap[p1].wild && !s.heap[p2].wild
    ensures var r := SumDimensions(s, Some(p1), Some(p2), false);
      && r.dim.Some?
      && DiffDimensions(r.store, r.dim, Some(p2), false) == Res(r.store, Some(p1))
  {
    var r := SumDimensions(s, Some(p1), Some(p2), false);
    var a := s.heap[p1];
    var b := s.heap[p2];
    assert r.store.heap[p1] == a && r.store.heap[p2] == b;
    assert r.store.heap[r.dim.value] == AddDimensions(a, b);
    SubAddRoundTrip(a, b);
    CmpDimenReflexive(a);
    FindExisting(r.store, a, p1);
  }

  /** The interned sum does not depend on the order of the operands. */
  lemma SumCommutes(s: Store, p1: Option<Handle>, p2: Option<Handle>, check: bool)
    requires DimenStore.Valid(s) && Ptr(s, p1) && Ptr(s, p2)
    requires !check ==> p1.Some? && p2.Some?
    ensures SumDimensions(s, p1, p2, check) == SumDimensions(s, p2, p1, check)
  {
    if p1.Some? && p2.Some? {
      AddCommutes(s.heap[p1.value], s.heap[p2.value]);
    }
  }

  /**
   * PowDimension with multiplier 2 is SquareDimension, whatever the check,
   * when doubling keeps every numerator within FRACMAX.
   */
  lemma {:induction false} PowTwoIsSquare(s: Store, p: Handle, check: bool)
    requires DimenStore.Valid(s) && Interned(s, p) && !s.heap[p].wild
    requires 2 * TopMax(s.heap[p].exps) <= FRACMAX
    ensures PowDimension(s, 2, Some(p), check) == SquareDimension(s, Some(p), check)
  {
    var d := s.heap[p];
    if p == s.dimless {
      SquareOfDimless(s, check);
    } else if !(check && FractionalDimension(Some(d))) {
      PowScaled(s, p, 2, check);
    }
  }

  /** The square of the dimensionless handle is that handle, and nothing is interned. */
  lemma SquareOfDimless(s: Store, check: bool)
    requires DimenStore.Valid(s)
    ensures SquareDimension(s, Some(s.dimless), check) == Res(s, Some(s.dimless))
  {
    var d := s.heap[s.dimless];
    ScaleCleared(Integer(2));
    CmpDimenReflexive(d);
    FindExisting(s, d, s.dimless);
    ClearIntegral();
  }

  /**
   * Raising to the power n and then to the power m is raising to the
   * power m * n, when no numerator passes FRACMAX on the way.
   */
  lemma {:induction false} PowOfPow(s: Store, p: Handle, n: int, m: int)
    requires DimenStore.Valid(s) && Interned(s, p) && !s.heap[p].wild
    requires Abs(n) * TopMax(s.heap[p].exps) <= FRACMAX
    requires Abs(m) * (Abs(n) * TopMax(s.heap[p].exps)) <= FRACMAX
    ensures var r := PowDimension(s, n, Some(p), false);
      && r.dim.Some?
      && PowDimension(r.store, m, r.dim, false) == PowDimension(r.store, m * n, Some(p), false)
  {
    var d := s.heap[p];
    var r := PowDimension(s, n, Some(p), false);
    if p != s.dimless {
      PowScaled(s, p, n, false);
      var h := r.dim.value;
      var e := r.store.heap[h];
      var k := m * n;
      assert r.store.heap[p] == d;
      AbsProduct(m, n, TopMax(d.exps));
      PowScaled(r.store, p, k, false);
      IntegerProduct(m, n);
      ScaleScale(d, Integer(n), Integer(m));
      if h == s.dimless {
        ScaleCleared(Integer(m));
        CmpDimenReflexive(e);
        FindExisting(r.store, e, h);
      } else {
        ScaledTopMax(d, n);
        MulMonotone(Abs(m), TopMax(e.exps), Abs(n) * TopMax(d.exps));
        PowScaled(r.store, h, m, false);
      }
    }
  }

  /** Off the NULL, wild, dimensionless, fractional and overflow branches, PowDimension is InternScaled. */
  lemma PowScaled(s: Store, h: Handle, mult: int, check: bool)
    requires DimenStore.Valid(s) && Interned(s, h) && !s.heap[h].wild && h != s.dimless
    requires !(check && FractionalDimension(Some(s.heap[h])))
    requires Abs(mult) * TopMax(s.heap[h].exps) <= FRACMAX
    ensures PowDimension(s, mult, Some(h), check) == InternScaled(s, s.heap[h], Integer(mult))
  {
  }

  /** The cube of a square is the sixth power: PowDimension(3, SquareDimension(L)) is PowDimension(6, L). */
  lemma {:induction false} PowOfSquare(s: Store, p: Handle)
    requires DimenStore.Valid(s) && Interned(s, p) && !s.heap[p].wild
    requires 6 * TopMax(s.heap[p].exps) <= FRACMAX
    ensures var r := SquareDimension(s, Some(p), false);
      && r.dim.Some?
      && PowDimension(r.store, 3, r.dim, false) == PowDimension(r.store, 6, Some(p), false)
  {
    var t := TopMax(s.heap[p].exps);
    assert Abs(2) == 2 && Abs(3) == 3;
    assert 3 * (2 * t) == 6 * t;
    PowTwoIsSquare(s, p, false);
    PowOfPow(s, p, 2, 3);
  }

  /** The dimensionless vector has no fractional exponent. */
  lemma ClearIntegral()
    ensures !FractionalDimension(Some(ClearDimensions()))
  {
    var c := ClearDimensions();
    forall j | 0 <= j < NUM_DIMENS
      ensures c.exps[j].den == 1
    {
      assert c.exps[j] == Zero;
    }
  }

  /** |m * n| * t regrouped as |m| * (|n| * t). */
  lemma AbsProduct(m: int, n: int, t: nat)
    ensures Abs(m * n) * t == Abs(m) * (Abs(n) * t)
  {
    AbsMul(m, n);
  }

  /** The magnitude of a product is the product of the magnitudes. */
  lemma AbsMul(a: int, b: int)
    ensures Abs(a * b) == Abs(a) * Abs(b)
  {
    if a < 0 && b >= 0 {
      assert a * b == -((-a) * b);
    } else if a >= 0 && b < 0 {
      assert a * b == -(a * (-b));
    } else if a < 0 && b < 0 {
      assert a * b == (-a) * (-b);
    }
  }

  /** The product of two integral fractions is the integral fraction of the product. */
  lemma IntegerProduct(m: int, n: int)
    ensures MultF(Integer(m), Integer(n)) == Integer(m * n)
  {
    RealMul(m, n);
    Canonical(MultF(Integer(m), Integer(n)), Integer(m * n));
  }

  /** Scaling by the integer n multiplies the largest numerator by at most |n|. */
  lemma ScaledTopMax(d: Dim, n: int)
    requires ValidDim(d) && !d.wild
    ensures TopMax(ScaleDimensions(d, Integer(n)).exps) <= Abs(n) * TopMax(d.exps)
  {
    var e := ScaleDimensions(d, Integer(n));
    var t := TopMax(d.exps);
    forall i | 0 <= i < NUM_DIMENS
      ensures Abs(e.exps[i].num) <= Abs(n) * t
    {
      ScaleAt(d, Integer(n), i);
      AbsMul(n, d.exps[i].num);
      MulMonotone(Abs(n), Abs(d.exps[i].num), t);
    }
  }
}

=== FILE: dimen_ops.dfy ===
/**
 * The operations of ascend/compiler/dimen.c that return interned handles:
 * powers and roots, checked sum and difference, and unification. A
 * pointer argument is NULL (None) or a handle of the store.
 */
module DimenOps {
  import opened Options
  import opened Fractions
  import opened Dimen
  import opened DimenOrder
  import opened DimenStore

  /** Bound on fraction numerators; its value is fixed by a header outside this model. */
  const FRACMAX: nat

  /** The record a pointer refers to, or None for NULL. */
  function Deref(s: Store, p: Option<Handle>): (r: Option<Dim>)
    requires DimenStore.Valid(s) && Ptr(s, p)
    ensures r.Some? ==> ValidDim(r.value)
  {
    if p.None? then None else Some(s.heap[p.value])
  }

  /** h is a handle of s for a non-wild vector whose exponents are k times those of d. */
  ghost predicate HoldsScaled(s: Store, h: Handle, d: Dim, k: real)
    requires ValidDim(d)
  {
    && Interned(s, h) && |s.heap[h].exps| == NUM_DIMENS && !s.heap[h].wild
    && (forall i :: 0 <= i < NUM_DIMENS ==> s.heap[h].exps[i].den > 0)
    && forall i :: 0 <= i < NUM_DIMENS ==> Value(s.heap[h].exps[i]) == k * Value(d.exps[i])
  }

  /** The handle of `frac` times the non-wild vector d, interning it if new. */
  function InternScaled(s: Store, d: Dim, frac: Frac): (r: Res)
    requires DimenStore.Valid(s) && ValidDim(d) && !d.wild && Fractions.Valid(frac)
    ensures DimenStore.Valid(r.store) && Extends(s, r.store) && r.dim.Some?
    ensures HoldsScaled(r.store, r.dim.value, d, Value(frac))
    ensures r.store.heap[r.dim.value] == ScaleDimensions(d, frac)
    ensures (r.store, r.dim.value) == FindOrAddDimen(s, ScaleDimensions(d, frac))
  {
    var e := ScaleDimensions(d, frac);
    var p := FindOrAddDimen(s, e);
    CmpDimenZeroIsSame(p.0.heap[p.1], e);
    ScaledHeld(p.0, p.1, d, frac);
    Res(p.0, Some(p.1))
  }

  lemma ScaledHeld(s: Store, h: Handle, d: Dim, frac: Frac)
    requires ValidDim(d) && !d.wild && Fractions.Valid(frac)
    requires Interned(s, h) && s.heap[h] == ScaleDimensions(d, frac)
    ensures HoldsScaled(s, h, d, Value(frac))
  {
    var e := s.heap[h];
    forall i | 0 <= i < NUM_DIMENS
      ensures e.exps[i].den > 0
    {
      assert Fractions.Valid(e.exps[i]);
    }
  }

  /** SquareDimension: the interned square of *dim. */
  function SquareDimension(s: Store, dim: Option<Handle>, check: bool): (r: Res)
    requires DimenStore.Valid(s) && Ptr(s, dim)
    ensures DimenStore.Valid(r.store) && Extends(s, r.store) && Ptr(r.store, r.dim)
    ensures dim.None? ==> r == Res(s, None)
    ensures dim.Some? && s.heap[dim.value].wild ==> r == Res(s, Some(s.wild))
    ensures dim.Some? && !s.heap[dim.value].wild ==>
      (r.dim.None? <==> check && exists i :: 0 <= i < NUM_DIMENS && s.heap[dim.value].exps[i].den != 1)
    ensures r.dim.None? ==> r.store == s
    ensures |r.store.heap| <= |s.heap| + 1
    ensures dim.Some? && !s.heap[dim.value].wild && r.dim.Some? ==>
      (r.store, r.dim.value) == FindOrAddDimen(s, ScaleDimensions(s.heap[dim.value], Integer(2)))
    ensures dim.Some? && !s.heap[dim.value].wild && r.dim.Some? ==>
      HoldsScaled(r.store, r.dim.value, s.heap[dim.value], 2.0)
  {
    if dim.None? then Res(s, None)
    else
      var d := s.heap[dim.value];
      if d.wild then Res(s, Some(s.wild))
      else if check && FractionalDimension(Some(d)) then Res(s, None)
      else InternScaled(s, d, Integer(2))
  }

  /** HalfDimension: the interned square root of *dim. */
  function HalfDimension(s: Store, dim: Option<Handle>, check: bool): (r: Res)
    requires DimenStore.Valid(s) && Ptr(s, dim)
    ensures DimenStore.Valid(r.store) && Extends(s, r.store) && Ptr(r.store, r.dim)
    ensures dim.None? ==> r == Res(s, None)
    ensures dim.Some? && s.heap[dim.value].wild ==> r == Res(s, Some(s.wild))
    ensures dim.Some? && !s.heap[dim.value].wild ==>
      (r.dim.None? <==> check && exists i :: 0 <= i < NUM_DIMENS && !IntMultiple(s.heap[dim.value].exps[i], 2))
    ensures r.dim.None? ==> r.store == s
    ensures |r.store.heap| <= |s.heap| + 1
    ensures dim.Some? && !s.heap[dim.value].wild && r.dim.Some? ==>
      (r.store, r.dim.value) == FindOrAddDimen(s, ScaleDimensions(s.heap[dim.value], MakeFrac(1, 2)))
    ensures dim.Some? && !s.heap[dim.value].wild && r.dim.Some? ==>
      HoldsScaled(r.store, r.dim.value, s.heap[dim.value], 0.5)
  {
    if dim.None? then Res(s, None)
    else
      var d := s.heap[dim.value];
      if d.wild then Res(s, Some(s.wild))
      else if check && OddDimension(Some(d)) then Res(s, None)
      else
        var half := MakeFrac(1, 2);
        InternScaled(s, d, half)
  }

  /** CubeDimension: the interned cube of *dim. */
  function CubeDimension(s: Store, dim: Option<Handle>, check: bool): (r: Res)
    requires DimenStore.Valid(s) && Ptr(s, dim)
    ensures DimenStore.Valid(r.store) && Extends(s, r.store) && Ptr(r.store, r.dim)
    ensures dim.None? ==> r == Res(s, None)
    ensures dim.Some? && s.heap[dim.value].wild ==> r == Res(s, Some(s.wild))
    ensures dim.Some? && !s.heap[dim.value].wild ==>
      (r.dim.None? <==> check && exists i :: 0 <= i < NUM_DIMENS && s.heap[dim.value].exps[i].den != 1)
    ensures r.dim.None? ==> r.store == s
    ensures |r.store.heap| <= |s.heap| + 1
    ensures dim.Some? && !s.heap[dim.value].wild && r.dim.Some? ==>
      (r.store, r.dim.value) == FindOrAddDimen(s, ScaleDimensions(s.heap[dim.value], Integer(3)))
    ensures dim.Some? && !s.heap[dim.value].wild && r.dim.Some? ==>
      HoldsScaled(r.store, r.dim.value, s.heap[dim.value], 3.0)
  {
    if dim.None? then Res(s, None)
    else
      var d := s.heap[dim.value];
      if d.wild then Res(s, Some(s.wild))
      else if check && FractionalDimension(Some(d)) then Res(s, None)
      else InternScaled(s, d, Integer(3))
  }

  /** ThirdDimension: the interned cube root of *dim. */
  function ThirdDimension(s: Store, dim: Option<Handle>, check: bool): (r: Res)
    requires DimenStore.Valid(s) && Ptr(s, dim)
    ensures DimenStore.Valid(r.store) && Extends(s, r.store) && Ptr(r.store, r.dim)
    ensures dim.None? ==> r == Res(s, None)
    ensures dim.Some? && s.heap[dim.value].wild ==> r == Res(s, Some(s.wild))
    ensures dim.Some? && !s.heap[dim.value].wild ==>
      (r.dim.None? <==> check && exists i :: 0 <= i < NUM_DIMENS && !IntMultiple(s.heap[dim.value].exps[i], 3))
    ensures r.dim.None? ==> r.store == s
    ensures |r.store.heap| <= |s.heap| + 1
    ensures dim.Some? && !s.heap[dim.value].wild && r.dim.Some? ==>
      (r.store, r.dim.value) == FindOrAddDimen(s, ScaleDimensions(s.heap[dim.value], MakeFrac(1, 3)))
    ensures dim.Some? && !s.heap[dim.value].wild && r.dim.Some? ==>
      HoldsScaled(r.store, r.dim.value, s.heap[dim.value], 1.0 / 3.0)
  {
    if dim.None? then Res(s, None)
    else
      var d := s.heap[dim.value];
      if d.wild then Res(s, Some(s.wild))
      else if check && NonCubicDimension(Some(d)) then Res(s, None)
      else
        var third := MakeFrac(1, 3);
        InternScaled(s, d, third)
  }

  function Max(a: nat, b: nat): nat { if a < b then b else a }

  /** topmax: the largest numerator magnitude among the exponents. */
  function TopMax(e: seq<Frac>): (r: nat)
    ensures forall i :: 0 <= i < |e| ==> Abs(e[i].num) <= r
    ensures |e| == 0 ==> r == 0
    ensures |e| > 0 ==> exists i :: 0 <= i < |e| && r == Abs(e[i].num)
  {
    if |e| == 0 then 0
    else
      var rest := TopMax(e[1..]);
      assert forall i :: 1 <= i < |e| ==> e[i] == e[1..][i - 1];
      Max(Abs(e[0].num), rest)
  }

  /**
   * PowDimension, with the overflow guard on the magnitude of mult: NULL
   * for NULL, the argument itself when it is wild or the dimensionless
   * handle, NULL when check finds a fractional exponent or when some
   * exponent times mult would exceed FRACMAX, and otherwise the interned
   * vector with every exponent multiplied by mult.
   */
  function PowDimension(s: Store, mult: int, dim: Option<Handle>, check: bool): (r: Res)
    requires DimenStore.Valid(s) && Ptr(s, dim)
    ensures DimenStore.Valid(r.store) && Extends(s, r.store) && Ptr(r.store, r.dim)
    ensures dim.None? ==> r == Res(s, None)
    ensures dim.Some? && (s.heap[dim.value].wild || dim.value == s.dimless) ==> r == Res(s, dim)
    ensures r.dim.None? ==> r.store == s
    ensures |r.store.heap| <= |s.heap| + 1
    ensures dim.Some? && !s.heap[dim.value].wild && dim.value != s.dimless && r.dim.Some? ==>
      (r.store, r.dim.value) == FindOrAddDimen(s, ScaleDimensions(s.heap[dim.value], Integer(mult)))
    ensures dim.Some? && !s.heap[dim.value].wild && dim.value != s.dimless ==>
      (r.dim.None? <==>
        (check && exists i :: 0 <= i < NUM_DIMENS && s.heap[dim.value].exps[i].den != 1)
        || exists i :: 0 <= i < NUM_DIMENS && Abs(mult) * Abs(s.heap[dim.value].exps[i].num) > FRACMAX)
    ensures dim.Some? && !s.heap[dim.value].wild && dim.value != s.dimless && r.dim.Some? ==>
      && HoldsScaled(r.store, r.dim.value, s.heap[dim.value], mult as real)
      && forall i :: 0 <= i < NUM_DIMENS ==> Abs(r.store.heap[r.dim.value].exps[i].num) <= FRACMAX
  {
    if dim.None? then Res(s, None)
    else
      var d := s.heap[dim.value];
      if d.wild then Res(s, dim)
      else if dim.value == s.dimless then Res(s, dim)
      else if check && FractionalDimension(Some(d)) then Res(s, None)
      else if FRACMAX < Abs(mult) * TopMax(d.exps) then
        TopMaxExceeds(d.exps, mult);
        Res(s, None)
      else
        var r := InternScaled(s, d, Integer(mult));
        PowBound(d, mult, r.store.heap[r.dim.value]);
        Res(r.store, r.dim)
  }

  /**
   * PowDimension with the guard as the source writes it, comparing FRACMAX
   * with the signed product mult * topmax: a negative mult always passes.
   */
  function PowDimensionAsWritten(s: Store, mult: int, dim: Option<Handle>, check: bool): (r: Res)
    requires DimenStore.Valid(s) && Ptr(s, dim)
    ensures DimenStore.Valid(r.store) && Extends(s, r.store) && Ptr(r.store, r.dim)
    ensures dim.None? ==> r == Res(s, None)
    ensures dim.Some? && (s.heap[dim.value].wild || dim.value == s.dimless) ==> r == Res(s, dim)
    ensures dim.Some? && !s.heap[dim.value].wild && dim.value != s.dimless ==>
      (r.dim.None? <==>
        (check && exists i :: 0 <= i < NUM_DIMENS && s.heap[dim.value].exps[i].den != 1)
        || FRACMAX < mult * TopMax(s.heap[dim.value].exps))
    ensures dim.Some? && !s.heap[dim.value].wild && dim.value != s.dimless && r.dim.Some? ==>
      HoldsScaled(r.store, r.dim.value, s.heap[dim.value], mult as real)
  {
    if dim.None? then Res(s, None)
    else
      var d := s.heap[dim.value];
      if d.wild then Res(s, dim)
      else if dim.value == s.dimless then Res(s, dim)
      else if check && FractionalDimension(Some(d)) then Res(s, None)
      else if FRACMAX < mult * TopMax(d.exps) then Res(s, None)
      else InternScaled(s, d, Integer(mult))
  }

  /**
   * The signed guard lets mult = -(FRACMAX + 1) through on the trig
   * dimension and interns a plane-angle exponent of magnitude FRACMAX + 1.
   */
  lemma PowAsWrittenExceedsFracMax(s: Store)
    requires DimenStore.Valid(s)
    ensures OverflowedPlaneAngle(PowDimensionAsWritten(s, -(FRACMAX + 1), Some(s.trig), false))
  {
    var m := -(FRACMAX + 1);
    var r := PowDimensionAsWritten(s, m, Some(s.trig), false);
    TrigScaled(s, m, r);
    PlaneAngleOfScaled(r.store, r.dim.value, s.heap[s.trig], m);
  }

  lemma TrigScaled(s: Store, m: int, r: Res)
    requires DimenStore.Valid(s) && m < 0
    requires r == PowDimensionAsWritten(s, m, Some(s.trig), false)
    ensures DimenStore.Valid(r.store) && r.dim.Some?
    ensures s.heap[s.trig].exps[D_PLANE_ANGLE] == One
    ensures HoldsScaled(r.store, r.dim.value, s.heap[s.trig], m as real)
  {
    TrigFacts(s);
  }

  /** The result holds a handle whose plane-angle numerator has magnitude FRACMAX + 1. */
  predicate OverflowedPlaneAngle(r: Res) {
    && r.dim.Some? && Interned(r.store, r.dim.value)
    && |r.store.heap[r.dim.value].exps| == NUM_DIMENS
    && Abs(r.store.heap[r.dim.value].exps[D_PLANE_ANGLE].num) == FRACMAX + 1
  }

  lemma PlaneAngleOfScaled(s: Store, h: Handle, d: Dim, m: int)
    requires DimenStore.Valid(s) && ValidDim(d) && d.exps[D_PLANE_ANGLE] == One
    requires HoldsScaled(s, h, d, m as real)
    ensures s.heap[h].exps[D_PLANE_ANGLE] == Integer(m)
    ensures Abs(m) == FRACMAX + 1 ==> OverflowedPlaneAngle(Res(s, Some(h)))
  {
    var f := s.heap[h].exps[D_PLANE_ANGLE];
    assert ValidDim(s.heap[h]);
    assert Value(f) == m as real * Value(One);
    Canonical(f, Integer(m));
  }

  /** With the guard on |mult|, the same call, and any other multiplier beyond FRACMAX, is refused. */
  lemma PowRefusesOverflow(s: Store, mult: int)
    requires DimenStore.Valid(s) && Abs(mult) > FRACMAX
    ensures PowDimension(s, mult, Some(s.trig), false).dim.None?
  {
    TrigFacts(s);
    PowRefusesLarge(s, mult, s.trig, false);
  }

  /** A multiplier whose product with the largest numerator passes FRACMAX is refused. */
  lemma PowRefusesLarge(s: Store, mult: int, h: Handle, check: bool)
    requires DimenStore.Valid(s) && Interned(s, h) && !s.heap[h].wild && h != s.dimless
    requires FRACMAX < Abs(mult) * TopMax(s.heap[h].exps)
    ensures PowDimension(s, mult, Some(h), check).dim.None?
  {
  }

  /** The trig handle is neither wild nor dimensionless, and its largest numerator is 1. */
  lemma TrigFacts(s: Store)
    requires DimenStore.Valid(s)
    ensures !s.heap[s.trig].wild && s.trig != s.dimless
    ensures s.heap[s.trig].exps[D_PLANE_ANGLE] == One
    ensures TopMax(s.heap[s.trig].exps) == 1
  {
    var t := s.heap[s.trig];
    assert t == TrigVector();
    assert s.heap[s.dimless].exps[D_PLANE_ANGLE] == Zero;
    TopMaxOfUnit(t.exps, D_PLANE_ANGLE);
  }

  lemma TopMaxOfUnit(e: seq<Frac>, k: nat)
    requires k < |e| && e[k] == One
    requires forall i :: 0 <= i < |e| ==> e[i] == One || e[i] == Zero
    ensures TopMax(e) == 1
  {
    assert Abs(e[k].num) == 1;
    assert forall i :: 0 <= i < |e| ==> Abs(e[i].num) <= 1;
  }

  /**
   * SumDimensions: NULL when check finds a NULL, wild or fractional
   * operand; otherwise the wild handle if either operand is wild, else the
   * interned slot-wise sum. Without check the source dereferences both
   * operands, so they must be non-NULL.
   */
  function SumDimensions(s: Store, d1: Option<Handle>, d2: Option<Handle>, check: bool): (r: Res)
    requires DimenStore.Valid(s) && Ptr(s, d1) && Ptr(s, d2)
    requires !check ==> d1.Some? && d2.Some?
    ensures DimenStore.Valid(r.store) && Extends(s, r.store) && Ptr(r.store, r.dim)
    ensures r.dim.None? <==> check && (FractionalDimension(Deref(s, d1)) || FractionalDimension(Deref(s, d2)))
    ensures r.dim.None? ==> r.store == s
    ensures |r.store.heap| <= |s.heap| + 1
    ensures r.dim.Some? && !s.heap[d1.value].wild && !s.heap[d2.value].wild ==>
      (r.store, r.dim.value) == FindOrAddDimen(s, AddDimensions(s.heap[d1.value], s.heap[d2.value]))
    ensures r.dim.Some? && (s.heap[d1.value].wild || s.heap[d2.value].wild) ==> r == Res(s, Some(s.wild))
    ensures r.dim.Some? && !s.heap[d1.value].wild && !s.heap[d2.value].wild ==>
      var e := r.store.heap[r.dim.value];
      && !e.wild
      && forall i :: 0 <= i < NUM_DIMENS ==>
        Value(e.exps[i]) == Value(s.heap[d1.value].exps[i]) + Value(s.heap[d2.value].exps[i])
  {
    if check && (FractionalDimension(Deref(s, d1)) || FractionalDimension(Deref(s, d2))) then Res(s, None)
    else
      var a := s.heap[d1.value];
      var b := s.heap[d2.value];
      if a.wild || b.wild then Res(s, Some(s.wild))
      else InternExact(s, AddDimensions(a, b))
  }

  /** DiffDimensions: as SumDimensions, with the slot-wise difference. */
  function DiffDimensions(s: Store, d1: Option<Handle>, d2: Option<Handle>, check: bool): (r: Res)
    requires DimenStore.Valid(s) && Ptr(s, d1) && Ptr(s, d2)
    requires !check ==> d1.Some? && d2.Some?
    ensures DimenStore.Valid(r.store) && Extends(s, r.store) && Ptr(r.store, r.dim)
    ensures r.dim.None? <==> check && (FractionalDimension(Deref(s, d1)) || FractionalDimension(Deref(s, d2)))
    ensures r.dim.None? ==> r.store == s
    ensures |r.store.heap| <= |s.heap| + 1
    ensures r.dim.Some? && !s.heap[d1.value].wild && !s.heap[d2.value].wild ==>
      (r.store, r.dim.value) == FindOrAddDimen(s, SubDimensions(s.heap[d1.value], s.heap[d2.value]))
    ensures r.dim.Some? && (s.heap[d1.value].wild || s.heap[d2.value].wild) ==> r == Res(s, Some(s.wild))
    ensures r.dim.Some? && !s.heap[d1.value].wild && !s.heap[d2.value].wild ==>
      var e := r.store.heap[r.dim.value];
      && !e.wild
      && forall i :: 0 <= i < NUM_DIMENS ==>
        Value(e.exps[i]) == Value(s.heap[d1.value].exps[i]) - Value(s.heap[d2.value].exps[i])
  {
    if check && (FractionalDimension(Deref(s, d1)) || FractionalDimension(Deref(s, d2))) then Res(s, None)
    else
      var a := s.heap[d1.value];
      var b := s.heap[d2.value];
      if a.wild || b.wild then Res(s, Some(s.wild))
      else InternExact(s, SubDimensions(a, b))
  }

  /** The handle of the non-wild vector e, interning it if new. */
  function InternExact(s: Store, e: Dim): (r: Res)
    requires DimenStore.Valid(s) && ValidDim(e) && !e.wild
    ensures DimenStore.Valid(r.store) && Extends(s, r.store) && r.dim.Some?
    ensures Interned(r.store, r.dim.value) && r.store.heap[r.dim.value] == e
    ensures (r.store, r.dim.value) == FindOrAddDimen(s, e)
  {
    var p := FindOrAddDimen(s, e);
    CmpDimenZeroIsSame(p.0.heap[p.1], e);
    Res(p.0, Some(p.1))
  }

  /**
   * CheckDimensionsMatch: unification of two handles. A wild operand
   * yields the other one; equal handles yield themselves; different
   * non-wild handles yield NULL.
   */
  function CheckDimensionsMatch(s: Store, d1: Handle, d2: Handle): (r: Option<Handle>)
    requires DimenStore.Valid(s) && Interned(s, d1) && Interned(s, d2)
    ensures r.Some? <==> s.heap[d1].wild || s.heap[d2].wild || d1 == d2
    ensures s.heap[d1].wild ==> r == Some(d2)
    ensures !s.heap[d1].wild && s.heap[d2].wild ==> r == Some(d1)
    ensures r.Some? ==> r.value == d1 || r.value == d2
    ensures r.Some? && !s.heap[d1].wild && !s.heap[d2].wild ==> r == Some(d1) && d1 == d2
  {
    CmpDimenZeroIsSame(s.heap[d1], s.heap[d2]);
    SameDimenIsIdentity(s, d1, d2);
    if s.heap[d1].wild then Some(d2)
    else if s.heap[d2].wild || d1 == d2 || CmpDimen(s.heap[d1], s.heap[d2]) == 0 then Some(d1)
    else None
  }

  lemma TopMaxExceeds(e: seq<Frac>, mult: int)
    requires |e| > 0 && FRACMAX < Abs(mult) * TopMax(e)
    ensures exists i :: 0 <= i < |e| && Abs(mult) * Abs(e[i].num) > FRACMAX
  {
  }

  lemma PowBound(d: Dim, mult: int, e: Dim)
    requires ValidDim(d) && !d.wild && FRACMAX >= Abs(mult) * TopMax(d.exps)
    requires e == ScaleDimensions(d, Integer(mult))
    ensures forall i :: 0 <= i < NUM_DIMENS ==> Abs(mult) * Abs(d.exps[i].num) <= FRACMAX
    ensures forall i :: 0 <= i < NUM_DIMENS ==> Abs(e.exps[i].num) <= FRACMAX
  {
    var t := TopMax(d.exps);
    forall i | 0 <= i < NUM_DIMENS
      ensures Abs(mult) * Abs(d.exps[i].num) <= FRACMAX
      ensures Abs(e.exps[i].num) <= FRACMAX
    {
      MulMonotone(Abs(mult), Abs(d.exps[i].num), t);
      MulAbs(mult, d.exps[i].num);
    }
  }

  lemma MulMonotone(a: nat, b: nat, c: nat)
    requires b <= c
    ensures a * b <= a * c
  {
  }
}

=== FILE: dimen_order.dfy ===
/**
 * CmpDimen is the order the interning store is sorted by. This module
 * proves that it is a total order on dimensions up to SameDimen: two
 * wild vectors are equal to each other and below everything else, and
 * non-wild vectors are ordered lexicographically by exponent value.
 */
module DimenOrder {
  import opened Fractions
  import opened Dimen

  predicate ValidExps(e: seq<Frac>) {
    forall i :: 0 <= i < |e| ==> Valid(e[i])
  }

  /** Reference definition of the lexicographic order of two exponent vectors. */
  ghost predicate LexLess(e1: seq<Frac>, e2: seq<Frac>)
    requires |e1| == |e2| && PositiveDens(e1) && PositiveDens(e2)
  {
    exists k :: 0 <= k < |e1| && e1[..k] == e2[..k] && Value(e1[k]) < Value(e2[k])
  }

  lemma {:induction false} CmpExpsZero(e1: seq<Frac>, e2: seq<Frac>)
    requires |e1| == |e2| && ValidExps(e1) && ValidExps(e2)
    ensures CmpExps(e1, e2) == 0 <==> e1 == e2
    decreases |e1|
  {
    if |e1| > 0 {
      CmpExpsZero(e1[1..], e2[1..]);
      assert e1 == [e1[0]] + e1[1..];
      assert e2 == [e2[0]] + e2[1..];
      if CmpF(e1[0], e2[0]) == 0 {
        Canonical(e1[0], e2[0]);
      }
    }
  }

  lemma {:induction false} CmpExpsAntisymmetric(e1: seq<Frac>, e2: seq<Frac>)
    requires |e1| == |e2| && PositiveDens(e1) && PositiveDens(e2)
    ensures CmpExps(e1, e2) == -CmpExps(e2, e1)
    decreases |e1|
  {
    if |e1| > 0 {
      CmpExpsAntisymmetric(e1[1..], e2[1..]);
    }
  }

  lemma {:induction false} CmpExpsTransitive(e1: seq<Frac>, e2: seq<Frac>, e3: seq<Frac>)
    requires |e1| == |e2| == |e3| && PositiveDens(e1) && PositiveDens(e2) && PositiveDens(e3)
    requires CmpExps(e1, e2) < 0 && CmpExps(e2, e3) < 0
    ensures CmpExps(e1, e3) < 0
    decreases |e1|
  {
    if CmpF(e1[0], e2[0]) == 0 && CmpF(e2[0], e3[0]) == 0 {
      CmpExpsTransitive(e1[1..], e2[1..], e3[1..]);
    }
  }

  /** LexLess of two vectors with equal heads is LexLess of their tails. */
  lemma LexLessTail(e1: seq<Frac>, e2: seq<Frac>)
    requires |e1| == |e2| > 0 && PositiveDens(e1) && PositiveDens(e2) && e1[0] == e2[0]
    ensures LexLess(e1, e2) <==> LexLess(e1[1..], e2[1..])
  {
    var t1, t2 := e1[1..], e2[1..];
    if LexLess(e1, e2) {
      var k :| 0 <= k < |e1| && e1[..k] == e2[..k] && Value(e1[k]) < Value(e2[k]);
      assert k != 0;
      assert t1[..k - 1] == e1[1..k] == e2[1..k] == t2[..k - 1];
      assert t1[k - 1] == e1[k];
    }
    if LexLess(t1, t2) {
      var k :| 0 <= k < |t1| && t1[..k] == t2[..k] && Value(t1[k]) < Value(t2[k]);
      assert e1[..k + 1] == [e1[0]] + t1[..k];
      assert e2[..k + 1] == [e2[0]] + t2[..k];
      assert e1[k + 1] == t1[k];
    }
  }

  /** Vectors with a common non-empty prefix have the same first slot. */
  lemma HeadOfPrefix(e1: seq<Frac>, e2: seq<Frac>)
    requires |e1| == |e2|
    ensures forall k :: 0 < k <= |e1| && e1[..k] == e2[..k] ==> e1[0] == e2[0]
  {
    forall k | 0 < k <= |e1| && e1[..k] == e2[..k]
      ensures e1[0] == e2[0]
    {
      assert e1[0] == e1[..k][0];
      assert e2[0] == e2[..k][0];
    }
  }

  /** A vector whose first slot is larger is not lexicographically smaller. */
  lemma NotLexLessHead(e1: seq<Frac>, e2: seq<Frac>)
    requires |e1| == |e2| > 0 && PositiveDens(e1) && PositiveDens(e2)
    requires Value(e1[0]) > Value(e2[0])
    ensures !LexLess(e1, e2)
  {
    HeadOfPrefix(e1, e2);
  }

  lemma {:induction false} CmpExpsLex(e1: seq<Frac>, e2: seq<Frac>)
    requires |e1| == |e2| && ValidExps(e1) && ValidExps(e2)
    ensures CmpExps(e1, e2) < 0 <==> LexLess(e1, e2)
    decreases |e1|
  {
    if |e1| > 0 {
      var i := CmpF(e1[0], e2[0]);
      if i < 0 {
        assert e1[..0] == e2[..0];
      } else if i > 0 {
        NotLexLessHead(e1, e2);
      } else {
        Canonical(e1[0], e2[0]);
        LexLessTail(e1, e2);
        CmpExpsLex(e1[1..], e2[1..]);
      }
    }
  }

  /** Every dimension is equal to itself. */
  lemma CmpDimenReflexive(d: Dim)
    requires ValidDim(d)
    ensures CmpDimen(d, d) == 0
  {
    CmpExpsZero(d.exps, d.exps);
  }

  /** Swapping the arguments negates the comparison. */
  lemma CmpDimenAntisymmetric(d1: Dim, d2: Dim)
    requires ValidDim(d1) && ValidDim(d2)
    ensures CmpDimen(d1, d2) == -CmpDimen(d2, d1)
  {
    CmpExpsAntisymmetric(d1.exps, d2.exps);
  }

  /** The strict order is transitive. */
  lemma CmpDimenTransitive(d1: Dim, d2: Dim, d3: Dim)
    requires ValidDim(d1) && ValidDim(d2) && ValidDim(d3)
    requires CmpDimen(d1, d2) < 0 && CmpDimen(d2, d3) < 0
    ensures CmpDimen(d1, d3) < 0
  {
    if !d1.wild {
      CmpExpsTransitive(d1.exps, d2.exps, d3.exps);
    }
  }

  /**
   * CmpDimen returns 0 exactly for the pairs SameDimen accepts; for two
   * non-wild vectors that means the vectors are identical.
   */
  lemma CmpDimenZeroIsSame(d1: Dim, d2: Dim)
    requires ValidDim(d1) && ValidDim(d2)
    ensures CmpDimen(d1, d2) == 0 <==> SameDimen(d1, d2)
    ensures CmpDimen(d1, d2) == 0 && !d1.wild ==> d1 == d2
  {
    CmpExpsZero(d1.exps, d2.exps);
  }

  /** Comparing equal dimensions with a third gives the same answer. */
  lemma CmpDimenSubstitute(d1: Dim, d2: Dim, d3: Dim)
    requires ValidDim(d1) && ValidDim(d2) && ValidDim(d3)
    requires CmpDimen(d1, d2) == 0
    ensures CmpDimen(d1, d3) == CmpDimen(d2, d3)
    ensures CmpDimen(d3, d1) == CmpDimen(d3, d2)
  {
    CmpDimenZeroIsSame(d1, d2);
  }

  /**
   * CmpDimen against the reference order: d1 sorts before d2 exactly when
   * d1 alone is wild, or both are non-wild and d1's exponents are
   * lexicographically smaller.
   */
  lemma CmpDimenIsLexicographic(d1: Dim, d2: Dim)
    requires ValidDim(d1) && ValidDim(d2)
    ensures CmpDimen(d1, d2) < 0 <==>
      (d1.wild && !d2.wild) || (!d1.wild && !d2.wild && LexLess(d1.exps, d2.exps))
  {
    CmpExpsLex(d1.exps, d2.exps);
  }
}

=== FILE: dimen_store.dfy ===
/**
 * The dimension interning store of ascend/compiler/dimen.c.
 *
 * The C store is a heap of dim_type records plus g_dimen_list, a list of
 * pointers to them kept sorted by CmpDimen. Here a handle is the index of
 * a record in an append-only `heap` (so handles stay valid as the store
 * grows, as pointers do), and `list` holds the handles in sorted order.
 * The store is explicit state: every operation that may intern a vector
 * takes a store and returns the new one.
 */
module DimenStore {
  import opened Options
  import opened Fractions
  import opened Dimen
  import opened DimenOrder

  type Handle = nat

  datatype Store = Store(heap: seq<Dim>, list: seq<Handle>, wild: Handle, trig: Handle, dimless: Handle)

  /** Result of an operation returning a (possibly NULL) interned dimension. */
  datatype Res = Res(store: Store, dim: Option<Handle>)

  predicate AllValid(heap: seq<Dim>) {
    forall h :: 0 <= h < |heap| ==> ValidDim(heap[h])
  }

  predicate InRange(heap: seq<Dim>, list: seq<Handle>) {
    forall i :: 0 <= i < |list| ==> list[i] < |heap|
  }

  /** The handles of `list` refer to strictly increasing dimensions. */
  predicate StrictlySorted(heap: seq<Dim>, list: seq<Handle>)
    requires AllValid(heap) && InRange(heap, list)
  {
    forall i, j :: 0 <= i < j < |list| ==> CmpDimen(heap[list[i]], heap[list[j]]) < 0
  }

  /** Every record of the heap is on the sorted list. */
  predicate Covers(heap: seq<Dim>, list: seq<Handle>) {
    forall h :: 0 <= h < |heap| ==> h in list
  }

  /** The store invariant: sorted without duplicates, all records listed, singletons in place. */
  predicate Valid(s: Store) {
    && AllValid(s.heap) && InRange(s.heap, s.list)
    && StrictlySorted(s.heap, s.list) && Covers(s.heap, s.list)
    && s.wild < |s.heap| && s.heap[s.wild] == WildCleared()
    && s.trig < |s.heap| && s.heap[s.trig] == TrigVector()
    && s.dimless < |s.heap| && s.heap[s.dimless] == ClearDimensions()
  }

  /** `h` is a handle of the store (a pointer the store handed out). */
  predicate Interned(s: Store, h: Handle) {
    h < |s.heap|
  }

  /** `p` is NULL or a handle of the store. */
  predicate Ptr(s: Store, p: Option<Handle>) {
    p.Some? ==> Interned(s, p.value)
  }

  /** s2 is s after zero or more insertions: old handles keep their records. */
  predicate Extends(s: Store, s2: Store) {
    && |s.heap| <= |s2.heap| && s2.heap[..|s.heap|] == s.heap
    && s2.wild == s.wild && s2.trig == s.trig && s2.dimless == s.dimless
  }

  /** InitDimenList: the store seeded with the wild, trig and dimensionless singletons. */
  function InitDimenList(): (s: Store)
    ensures Valid(s)
    ensures |s.heap| == 3 && |s.list| == 3
    ensures s.wild != s.trig && s.wild != s.dimless && s.trig != s.dimless
  {
    var s := Store([WildCleared(), TrigVector(), ClearDimensions()], [0, 2, 1], 0, 1, 2);
    InitValid(s);
    s
  }

  lemma InitValid(s: Store)
    requires s == Store([WildCleared(), TrigVector(), ClearDimensions()], [0, 2, 1], 0, 1, 2)
    ensures Valid(s)
  {
    InitSorted(s.heap);
    assert Covers(s.heap, s.list) by {
      assert s.list[0] == 0 && s.list[2] == 1 && s.list[1] == 2;
    }
  }

  lemma InitSorted(heap: seq<Dim>)
    requires heap == [WildCleared(), TrigVector(), ClearDimensions()]
    ensures AllValid(heap) && InRange(heap, [0, 2, 1]) && StrictlySorted(heap, [0, 2, 1])
  {
    var list: seq<Handle> := [0, 2, 1];
    assert AllValid(heap) by {
      assert ValidDim(heap[0]) && ValidDim(heap[1]) && ValidDim(heap[2]);
    }
    WildFirst(ClearDimensions());
    WildFirst(TrigVector());
    ClearBeforeTrig();
    forall i, j | 0 <= i < j < |list|
      ensures CmpDimen(heap[list[i]], heap[list[j]]) < 0
    {
      if i == 0 && j == 1 {
        assert heap[list[i]] == WildCleared() && heap[list[j]] == ClearDimensions();
      } else if i == 0 {
        assert heap[list[i]] == WildCleared() && heap[list[j]] == TrigVector();
      } else {
        assert heap[list[i]] == ClearDimensions() && heap[list[j]] == TrigVector();
      }
    }
  }

  /** The wild record sorts before every non-wild one. */
  lemma WildFirst(d: Dim)
    requires ValidDim(d) && !d.wild
    ensures CmpDimen(WildCleared(), d) < 0
  {
    CmpDimenIsLexicographic(WildCleared(), d);
  }

  /** The dimensionless record sorts before the trig one: they first differ on the plane angle. */
  lemma ClearBeforeTrig()
    ensures CmpDimen(ClearDimensions(), TrigVector()) < 0
  {
    var t := TrigVector();
    var z := ClearDimensions();
    var k := D_PLANE_ANGLE;
    assert z.exps[..k] == t.exps[..k] by {
      assert forall i :: 0 <= i < k ==> t.exps[i] == Zero;
      assert forall i :: 0 <= i < k ==> z.exps[i] == Zeros[i] == Zero;
    }
    assert Value(z.exps[k]) < Value(t.exps[k]);
    assert LexLess(z.exps, t.exps);
    CmpDimenIsLexicographic(z, t);
  }

  /** Two handles of a valid store whose records compare equal are the same handle. */
  lemma Canonicity(s: Store, h1: Handle, h2: Handle)
    requires Valid(s) && Interned(s, h1) && Interned(s, h2)
    requires CmpDimen(s.heap[h1], s.heap[h2]) == 0
    ensures h1 == h2
  {
    assert h1 in s.list && h2 in s.list;
    var i :| 0 <= i < |s.list| && s.list[i] == h1;
    var j :| 0 <= j < |s.list| && s.list[j] == h2;
    SortedDistinct(s, i, j);
  }

  /** Distinct positions of the sorted list hold records that compare unequal. */
  lemma SortedDistinct(s: Store, i: nat, j: nat)
    requires Valid(s) && i < |s.list| && j < |s.list|
    ensures i != j ==> CmpDimen(s.heap[s.list[i]], s.heap[s.list[j]]) != 0
  {
    if j < i {
      CmpDimenAntisymmetric(s.heap[s.list[i]], s.heap[s.list[j]]);
    }
  }

  /**
   * Handle identity is dimension equality: in a valid store SameDimen holds
   * of two handles' records exactly when the handles are equal.
   */
  lemma SameDimenIsIdentity(s: Store, h1: Handle, h2: Handle)
    requires Valid(s) && Interned(s, h1) && Interned(s, h2)
    ensures SameDimen(s.heap[h1], s.heap[h2]) <==> h1 == h2
  {
    CmpDimenZeroIsSame(s.heap[h1], s.heap[h2]);
    if SameDimen(s.heap[h1], s.heap[h2]) {
      Canonicity(s, h1, h2);
    } else if h1 == h2 {
      CmpDimenReflexive(s.heap[h1]);
    }
  }

  /** IsWild holds of an interned record exactly at the wild singleton, since every wild vector interns there. */
  lemma WildIsSingleton(s: Store, h: Handle)
    requires Valid(s) && Interned(s, h)
    ensures IsWild(Some(s.heap[h])) <==> h == s.wild
  {
    SameDimenIsIdentity(s, h, s.wild);
  }

  /** First position of the sorted list, at or after i, whose record is not below d. */
  function LowerBound(s: Store, d: Dim, i: nat): (pos: nat)
    requires Valid(s) && ValidDim(d) && i <= |s.list|
    requires forall j :: 0 <= j < i ==> CmpDimen(s.heap[s.list[j]], d) < 0
    ensures i <= pos <= |s.list|
    ensures forall j :: 0 <= j < pos ==> CmpDimen(s.heap[s.list[j]], d) < 0
    ensures pos < |s.list| ==> CmpDimen(s.heap[s.list[pos]], d) >= 0
    decreases |s.list| - i
  {
    if i == |s.list| || CmpDimen(s.heap[s.list[i]], d) >= 0 then i
    else LowerBound(s, d, i + 1)
  }

  /** Everything after the lower bound is above d, unless it is the equal record itself. */
  lemma AboveLowerBound(s: Store, d: Dim, pos: nat)
    requires Valid(s) && ValidDim(d) && pos < |s.list|
    requires CmpDimen(s.heap[s.list[pos]], d) >= 0
    ensures forall j :: pos < j < |s.list| ==> CmpDimen(d, s.heap[s.list[j]]) < 0
  {
    var a := s.heap[s.list[pos]];
    forall j | pos < j < |s.list|
      ensures CmpDimen(d, s.heap[s.list[j]]) < 0
    {
      var b := s.heap[s.list[j]];
      assert CmpDimen(a, b) < 0;
      CmpDimenAntisymmetric(d, a);
      if CmpDimen(a, d) == 0 {
        CmpDimenSubstitute(a, d, b);
      } else {
        CmpDimenTransitive(d, a, b);
      }
    }
  }

  /** d equals some record of the store. */
  ghost predicate Present(s: Store, d: Dim)
    requires Valid(s) && ValidDim(d)
  {
    exists h :: 0 <= h < |s.heap| && CmpDimen(s.heap[h], d) == 0
  }

  /**
   * FindOrAddDimen: the handle of the store's record equal to d; when there
   * is none, a copy of d is appended and its handle inserted in sorted position.
   */
  function FindOrAddDimen(s: Store, d: Dim): (r: (Store, Handle))
    requires Valid(s) && ValidDim(d)
    ensures Valid(r.0) && Extends(s, r.0)
    ensures Interned(r.0, r.1) && CmpDimen(r.0.heap[r.1], d) == 0
    ensures Present(s, d) ==> r.0 == s && Interned(s, r.1)
    ensures !Present(s, d) ==>
      && r.0.heap == s.heap + [d] && r.1 == |s.heap|
      && |r.0.list| == |s.list| + 1
  {
    var pos := LowerBound(s, d, 0);
    if pos < |s.list| && CmpDimen(s.heap[s.list[pos]], d) == 0 then
      FoundFacts(s, d, pos);
      (s, s.list[pos])
    else
      var s2 := Insert(s, d, pos);
      (s2, |s.heap|)
  }

  /** The store with d appended to the heap and its handle placed at position pos of the list. */
  function Insert(s: Store, d: Dim, pos: nat): (s2: Store)
    requires Valid(s) && ValidDim(d) && pos <= |s.list|
    requires forall j :: 0 <= j < pos ==> CmpDimen(s.heap[s.list[j]], d) < 0
    requires pos < |s.list| ==> CmpDimen(s.heap[s.list[pos]], d) >= 0
    requires pos < |s.list| ==> CmpDimen(s.heap[s.list[pos]], d) != 0
    ensures Valid(s2) && Extends(s, s2) && !Present(s, d)
    ensures s2.heap == s.heap + [d] && |s2.list| == |s.list| + 1
    ensures Interned(s2, |s.heap|) && CmpDimen(s2.heap[|s.heap|], d) == 0
  {
    var h := |s.heap|;
    var s2 := Store(s.heap + [d], s.list[..pos] + [h] + s.list[pos..], s.wild, s.trig, s.dimless);
    NotPresent(s, d, pos);
    InsertValid(s, d, pos, s2);
    CmpDimenReflexive(d);
    s2
  }

  lemma FoundFacts(s: Store, d: Dim, pos: nat)
    requires Valid(s) && ValidDim(d) && pos < |s.list| && CmpDimen(s.heap[s.list[pos]], d) == 0
    ensures Present(s, d) && Extends(s, s)
  {
    assert s.heap[..|s.heap|] == s.heap;
  }

  lemma NotPresent(s: Store, d: Dim, pos: nat)
    requires Valid(s) && ValidDim(d) && pos <= |s.list|
    requires forall j :: 0 <= j < pos ==> CmpDimen(s.heap[s.list[j]], d) < 0
    requires pos < |s.list| ==> CmpDimen(s.heap[s.list[pos]], d) > 0
    ensures !Present(s, d)
  {
    if pos < |s.list| {
      AboveLowerBound(s, d, pos);
    }
    forall h | 0 <= h < |s.heap|
      ensures CmpDimen(s.heap[h], d) != 0
    {
      assert h in s.list;
      var i :| 0 <= i < |s.list| && s.list[i] == h;
      if i > pos {
        CmpDimenAntisymmetric(d, s.heap[h]);
      }
    }
  }

  lemma InsertValid(s: Store, d: Dim, pos: nat, s2: Store)
    requires Valid(s) && ValidDim(d) && pos <= |s.list|
    requires forall j :: 0 <= j < pos ==> CmpDimen(s.heap[s.list[j]], d) < 0
    requires pos < |s.list| ==> CmpDimen(s.heap[s.list[pos]], d) > 0
    requires s2 == Store(s.heap + [d], s.list[..pos] + [|s.heap|] + s.list[pos..], s.wild, s.trig, s.dimless)
    ensures Valid(s2) && Extends(s, s2)
  {
    if pos < |s.list| {
      AboveLowerBound(s, d, pos);
      CmpDimenAntisymmetric(d, s.heap[s.list[pos]]);
    }
    InsertSorted(s, d, pos, s2.heap, s2.list);
    InsertCovers(s, d, pos, s2.heap, s2.list);
    assert s2.heap[..|s.heap|] == s.heap;
  }

  /** Entry k of the list once d's handle is inserted at pos. */
  lemma InsertedEntry(s: Store, d: Dim, pos: nat, heap: seq<Dim>, list: seq<Handle>, k: nat)
    requires Valid(s) && pos <= |s.list| && k < |list|
    requires heap == s.heap + [d] && list == s.list[..pos] + [|s.heap|] + s.list[pos..]
    ensures list[k] < |heap|
    ensures heap[list[k]] == (if k < pos then s.heap[s.list[k]] else if k == pos then d else s.heap[s.list[k - 1]])
  {
    if k < pos {
      assert list[k] == s.list[k];
    } else if k == pos {
      assert list[k] == |s.heap|;
    } else {
      assert list[k] == s.list[k - 1];
    }
  }

  lemma InsertSorted(s: Store, d: Dim, pos: nat, heap: seq<Dim>, list: seq<Handle>)
    requires Valid(s) && ValidDim(d) && pos <= |s.list|
    requires forall j :: 0 <= j < pos ==> CmpDimen(s.heap[s.list[j]], d) < 0
    requires forall j :: pos <= j < |s.list| ==> CmpDimen(d, s.heap[s.list[j]]) < 0
    requires heap == s.heap + [d] && list == s.list[..pos] + [|s.heap|] + s.list[pos..]
    ensures AllValid(heap) && InRange(heap, list) && StrictlySorted(heap, list)
  {
    assert AllValid(heap) by {
      forall h | 0 <= h < |heap|
        ensures ValidDim(heap[h])
      {
        if h < |s.heap| { assert heap[h] == s.heap[h]; }
      }
    }
    assert InRange(heap, list) by {
      forall k | 0 <= k < |list|
        ensures list[k] < |heap|
      {
        InsertedEntry(s, d, pos, heap, list, k);
      }
    }
    forall i, j | 0 <= i < j < |list|
      ensures CmpDimen(heap[list[i]], heap[list[j]]) < 0
    {
      InsertedEntry(s, d, pos, heap, list, i);
      InsertedEntry(s, d, pos, heap, list, j);
      if i < pos && j > pos {
        CmpDimenTransitive(s.heap[s.list[i]], d, s.heap[s.list[j - 1]]);
      }
    }
  }

  lemma InsertCovers(s: Store, d: Dim, pos: nat, heap: seq<Dim>, list: seq<Handle>)
    requires Valid(s) && pos <= |s.list|
    requires heap == s.heap + [d] && list == s.list[..pos] + [|s.heap|] + s.list[pos..]
    ensures Covers(heap, list)
  {
    forall k | 0 <= k < |heap|
      ensures k in list
    {
      if k < |s.heap| {
        assert k in s.list;
        var i :| 0 <= i < |s.list| && s.list[i] == k;
        if i < pos { assert list[i] == k; } else { assert list[i + 1] == k; }
      } else {
        assert list[pos] == k;
      }
    }
  }
}

=== FILE: dimen_text.dfy ===
/**
 * PrintDimen as a string, and a reader for its output. The reader is the
 * printer's partner: every vector's text reads back to the same vector.
 */
module DimenText {
  import opened Options
  import opened Fractions
  import opened Dimen

  predicate IsDigit(c: char) {
    '0' <= c <= '9'
  }

  predicate AllDigits(s: string) {
    forall i :: 0 <= i < |s| ==> IsDigit(s[i])
  }

  function DigitChar(d: nat): (c: char)
    requires d < 10
    ensures IsDigit(c) && c as int - '0' as int == d
  {
    ('0' as int + d) as char
  }

  /** Decimal text of n, most significant digit first, as printf's %d writes it. */
  function NatToString(n: nat): (r: string)
    ensures |r| > 0 && AllDigits(r)
  {
    if n < 10 then [DigitChar(n)] else NatToString(n / 10) + [DigitChar(n % 10)]
  }

  /** %d of a signed value: a minus sign for negatives. */
  function IntToString(n: int): (r: string)
    ensures |r| > 0 && (IsDigit(r[0]) || r[0] == '-')
  {
    if n < 0 then "-" + NatToString(-n) else NatToString(n)
  }

  /** One "%d/%d%s " token of PrintDimen: numerator, slash, denominator, short code, space. */
  function Token(f: Frac, name: string): string
    requires f.den >= 0
  {
    IntToString(f.num) + "/" + NatToString(f.den) + name + " "
  }

  /** Exponents whose denominators print as %d of a non-negative value. */
  predicate Printable(exps: seq<Frac>) {
    forall i :: 0 <= i < |exps| ==> exps[i].den >= 0
  }

  /** One token per exponent with a non-zero numerator, named by the matching short code, in order. */
  function Tokens(exps: seq<Frac>, names: seq<string>): string
    requires |exps| == |names| && Printable(exps)
  {
    if |exps| == 0 then ""
    else (if exps[0].num != 0 then Token(exps[0], names[0]) else "") + Tokens(exps[1..], names[1..])
  }

  /**
   * PrintDimen: "wild" for a wild vector; otherwise one token per non-zero
   * slot, or "dimensionless" when there is none.
   */
  function PrintDimen(d: Dim): (r: string)
    requires ValidDim(d)
    ensures d.wild ==> r == "wild"
    ensures !d.wild ==> (r == "dimensionless" <==> forall i :: 0 <= i < NUM_DIMENS ==> d.exps[i].num == 0)
    ensures !d.wild && r != "dimensionless" ==> r == Tokens(d.exps, DimNames)
  {
    if d.wild then "wild"
    else
      var t := Tokens(d.exps, DimNames);
      TokensShape(d.exps, DimNames);
      if t == "" then "dimensionless" else t
  }

  /** The token text is empty exactly when every numerator is 0, and otherwise starts a number. */
  lemma {:induction false} TokensShape(exps: seq<Frac>, names: seq<string>)
    requires |exps| == |names| && Printable(exps)
    ensures Tokens(exps, names) == "" <==> forall j :: 0 <= j < |exps| ==> exps[j].num == 0
    ensures Tokens(exps, names) != "" ==> IsDigit(Tokens(exps, names)[0]) || Tokens(exps, names)[0] == '-'
  {
    if |exps| > 0 {
      TokensShape(exps[1..], names[1..]);
      assert forall j :: 1 <= j < |exps| ==> exps[j] == exps[1..][j - 1];
    }
  }

  // The reader.

  function DigitsValue(ds: string): nat
    requires AllDigits(ds)
  {
    if |ds| == 0 then 0
    else DigitsValue(ds[..|ds| - 1]) * 10 + (ds[|ds| - 1] as int - '0' as int)
  }

  /** Length of the longest all-digit prefix. */
  function DigitSpan(s: string): (k: nat)
    ensures k <= |s| && AllDigits(s[..k])
    ensures k < |s| ==> !IsDigit(s[k])
  {
    if |s| > 0 && IsDigit(s[0]) then
      var k := 1 + DigitSpan(s[1..]);
      assert s[..k] == [s[0]] + s[1..][..k - 1];
      k
    else 0
  }

  /** Length of the prefix before the first space. */
  function NameSpan(s: string): (k: nat)
    ensures k <= |s| && ' ' !in s[..k]
    ensures k < |s| ==> s[k] == ' '
  {
    if |s| > 0 && s[0] != ' ' then
      var k := 1 + NameSpan(s[1..]);
      assert s[..k] == [s[0]] + s[1..][..k - 1];
      k
    else 0
  }

  function ReadNat(s: string): (r: Option<(nat, string)>)
    ensures r.Some? ==> |r.value.1| < |s|
  {
    var k := DigitSpan(s);
    if k == 0 then None else Some((DigitsValue(s[..k]), s[k..]))
  }

  function ReadInt(s: string): (r: Option<(int, string)>)
    ensures r.Some? ==> |r.value.1| < |s|
  {
    var neg := |s| > 0 && s[0] == '-';
    var p := ReadNat(if neg then s[1..] else s);
    if p.None? then None
    else
      var v: int := if neg then -(p.value.0 as int) else p.value.0;
      Some((v, p.value.1))
  }

  /** One token: the slot it names, its fraction, and the text after its space. */
  function ReadToken(s: string): (r: Option<(Slot, Frac, string)>)
    ensures r.Some? ==> |r.value.2| < |s|
  {
    match ReadInt(s)
    case None => None
    case Some((n, r1)) =>
      if |r1| == 0 || r1[0] != '/' then None
      else
        match ReadNat(r1[1..])
        case None => None
        case Some((dn, r2)) =>
          var k := NameSpan(r2);
          if k == |r2| then None
          else
            match NameIndexFrom(r2[..k], 0)
            case None => None
            case Some(i) => Some((i, Frac(n, dn), r2[k + 1..]))
  }

  /** Read tokens in turn, each setting the slot it names in e. */
  function ReadTokens(s: string, e: seq<Frac>): (r: Option<seq<Frac>>)
    requires |e| == NUM_DIMENS
    ensures r.Some? ==> |r.value| == NUM_DIMENS
    decreases |s|
  {
    if s == "" then Some(e)
    else
      match ReadToken(s)
      case None => None
      case Some((i, f, rest)) => ReadTokens(rest, e[i := f])
  }

  /** Read PrintDimen's text back into a vector. */
  function ReadDimen(s: string): (r: Option<Dim>)
    ensures r.Some? ==> |r.value.exps| == NUM_DIMENS
  {
    if s == "wild" then Some(WildCleared())
    else if s == "dimensionless" then Some(ClearDimensions())
    else
      match ReadTokens(s, Zeros)
      case None => None
      case Some(e) => Some(Dim(e, false))
  }

  // The round trip.

  lemma {:induction false} DigitsOfNat(n: nat)
    ensures DigitsValue(NatToString(n)) == n
  {
    if n >= 10 {
      var p := NatToString(n / 10);
      var t := p + [DigitChar(n % 10)];
      assert t[..|t| - 1] == p;
      DigitsOfNat(n / 10);
    }
  }

  lemma {:induction false} DigitSpanOf(p: string, rest: string)
    requires AllDigits(p) && (|rest| == 0 || !IsDigit(rest[0]))
    ensures DigitSpan(p + rest) == |p|
  {
    if |p| > 0 {
      assert (p + rest)[1..] == p[1..] + rest;
      DigitSpanOf(p[1..], rest);
    }
  }

  lemma {:induction false} NameSpanOf(p: string, rest: string)
    requires ' ' !in p
    ensures NameSpan(p + [' '] + rest) == |p|
  {
    if |p| > 0 {
      assert (p + [' '] + rest)[1..] == p[1..] + [' '] + rest;
      assert p[0] in p;
      NameSpanOf(p[1..], rest);
    }
  }

  lemma ReadNatOf(n: nat, rest: string)
    requires |rest| == 0 || !IsDigit(rest[0])
    ensures ReadNat(NatToString(n) + rest) == Some((n, rest))
  {
    var p := NatToString(n);
    DigitSpanOf(p, rest);
    assert (p + rest)[..|p|] == p;
    assert (p + rest)[|p|..] == rest;
    DigitsOfNat(n);
  }

  lemma ReadIntOf(n: int, rest: string)
    requires |rest| == 0 || !IsDigit(rest[0])
    ensures ReadInt(IntToString(n) + rest) == Some((n, rest))
  {
    if n < 0 {
      ReadNegativeOf(n, rest);
    } else {
      ReadNonNegativeOf(n, rest);
    }
  }

  lemma ReadNegativeOf(n: int, rest: string)
    requires n < 0 && (|rest| == 0 || !IsDigit(rest[0]))
    ensures ReadInt(IntToString(n) + rest) == Some((n, rest))
  {
    var t := IntToString(n) + rest;
    MinusText(n, rest);
    ReadNatOf(-n, rest);
    ReadIntMinus(t, -n, rest);
  }

  lemma ReadIntMinus(s: string, m: nat, rest: string)
    requires |s| > 0 && s[0] == '-' && ReadNat(s[1..]) == Some((m, rest))
    ensures var v := 0 - m as int; ReadInt(s) == Some((v, rest))
  {
  }

  lemma ReadNonNegativeOf(n: nat, rest: string)
    requires |rest| == 0 || !IsDigit(rest[0])
    ensures ReadInt(IntToString(n) + rest) == Some((n, rest))
  {
    assert IntToString(n) == NatToString(n);
    ReadNatOf(n, rest);
  }

  lemma MinusText(n: int, rest: string)
    requires n < 0
    ensures var t := IntToString(n) + rest;
      |t| > 0 && t[0] == '-' && t[1..] == NatToString(-n) + rest
  {
    assert IntToString(n) + rest == "-" + (NatToString(-n) + rest);
  }

  /** The short codes: non-empty, starting with a letter, without spaces. */
  lemma NameShape(i: Slot)
    ensures |DimNames[i]| > 0 && !IsDigit(DimNames[i][0]) && ' ' !in DimNames[i]
  {
  }

  lemma NameIndexOf(i: Slot)
    ensures NameIndexFrom(DimNames[i], 0) == Some(i)
  {
    NamesDistinct();
  }

  lemma ReadTokenOf(f: Frac, i: Slot, rest: string)
    requires f.den >= 0
    ensures ReadToken(Token(f, DimNames[i]) + rest) == Some((i, f, rest))
  {
    var name := DimNames[i];
    NameShape(i);
    var r2 := name + " " + rest;
    var tail := NatToString(f.den) + r2;
    ReadNumerator(f, name, rest);
    assert ("/" + tail)[1..] == tail;
    ReadDenominator(f.den, name, rest);
    ReadName(name, rest);
    NameIndexOf(i);
  }

  lemma ReadNumerator(f: Frac, name: string, rest: string)
    requires f.den >= 0
    ensures ReadInt(Token(f, name) + rest) == Some((f.num, "/" + (NatToString(f.den) + (name + " " + rest))))
  {
    var r1 := "/" + (NatToString(f.den) + (name + " " + rest));
    assert Token(f, name) + rest == IntToString(f.num) + r1;
    ReadIntOf(f.num, r1);
  }

  lemma ReadDenominator(n: nat, name: string, rest: string)
    requires |name| > 0 && !IsDigit(name[0])
    ensures ReadNat(NatToString(n) + (name + " " + rest)) == Some((n, name + " " + rest))
  {
    ReadNatOf(n, name + " " + rest);
  }

  lemma ReadName(name: string, rest: string)
    requires ' ' !in name
    ensures var r2 := name + " " + rest;
      && NameSpan(r2) == |name| && |name| < |r2|
      && r2[..|name|] == name && r2[|name| + 1..] == rest
  {
    assert name + " " + rest == name + [' '] + rest;
    NameSpanOf(name, rest);
  }

  /** A valid fraction with numerator 0 is Zero. */
  lemma ZeroNumerator(f: Frac)
    requires Fractions.Valid(f) && f.num == 0
    ensures f == Zero
  {
    Canonical(f, Zero);
  }

  lemma {:induction false} ReadTokensOf(d: Dim, i: nat, e: seq<Frac>)
    requires ValidDim(d) && i <= NUM_DIMENS && |e| == NUM_DIMENS
    requires forall j :: i <= j < NUM_DIMENS ==> e[j] == Zero
    ensures ReadTokens(Tokens(d.exps[i..], DimNames[i..]), e) == Some(e[..i] + d.exps[i..])
    decreases NUM_DIMENS - i
  {
    if i == NUM_DIMENS {
      assert e[..i] + d.exps[i..] == e;
    } else {
      var f := d.exps[i];
      var e2 := if f.num != 0 then e[i := f] else e;
      ReadOneToken(d, i, e);
      ReadTokensOf(d, i + 1, e2);
      assert e2[..i + 1] + d.exps[i + 1..] == e[..i] + d.exps[i..] by {
        assert Fractions.Valid(f);
        if f.num == 0 { ZeroNumerator(f); }
        Splice(e, e2, d.exps, i);
      }
    }
  }

  /** Reading the first token of slots i.. sets slot i; a zero slot contributes no text. */
  lemma ReadOneToken(d: Dim, i: nat, e: seq<Frac>)
    requires ValidDim(d) && i < NUM_DIMENS && |e| == NUM_DIMENS
    ensures var f := d.exps[i];
      ReadTokens(Tokens(d.exps[i..], DimNames[i..]), e)
        == ReadTokens(Tokens(d.exps[i + 1..], DimNames[i + 1..]), if f.num != 0 then e[i := f] else e)
  {
    var f := d.exps[i];
    var rest := Tokens(d.exps[i + 1..], DimNames[i + 1..]);
    assert Fractions.Valid(f);
    TokensStep(d.exps, DimNames, i);
    if f.num != 0 {
      ReadTokensCons(f, i, rest, e);
    } else {
      assert "" + rest == rest;
    }
  }

  lemma ReadTokensCons(f: Frac, i: Slot, rest: string, e: seq<Frac>)
    requires f.den >= 0 && |e| == NUM_DIMENS
    ensures ReadTokens(Token(f, DimNames[i]) + rest, e) == ReadTokens(rest, e[i := f])
  {
    ReadTokenOf(f, i, rest);
    assert Token(f, DimNames[i]) + rest != "";
  }

  lemma Splice(e: seq<Frac>, e2: seq<Frac>, x: seq<Frac>, i: nat)
    requires |e| == |e2| == |x| && i < |e|
    requires e2 == e[i := x[i]]
    ensures e2[..i + 1] + x[i + 1..] == e[..i] + x[i..]
  {
    assert e2[..i + 1] == e[..i] + [x[i]];
    assert x[i..] == [x[i]] + x[i + 1..];
  }

  /**
   * Reading PrintDimen's text recovers the vector: exactly for a non-wild
   * vector, and as the cleared wild vector (SameDimen to it) for a wild one.
   */
  lemma PrintReadRoundTrip(d: Dim)
    requires ValidDim(d)
    ensures ReadDimen(PrintDimen(d)).Some?
    ensures SameDimen(ReadDimen(PrintDimen(d)).value, d)
    ensures !d.wild ==> ReadDimen(PrintDimen(d)) == Some(d)
  {
    if !d.wild {
      if PrintDimen(d) == "dimensionless" {
        ReadDimensionless(d);
      } else {
        ReadTokensBack(d);
      }
    }
  }

  lemma ReadDimensionless(d: Dim)
    requires ValidDim(d) && !d.wild && PrintDimen(d) == "dimensionless"
    ensures ReadDimen(PrintDimen(d)) == Some(d)
  {
    forall j | 0 <= j < NUM_DIMENS
      ensures d.exps[j] == Zero
    {
      ZeroNumerator(d.exps[j]);
    }
    assert d.exps == Zeros;
  }

  lemma ReadTokensBack(d: Dim)
    requires ValidDim(d) && !d.wild && PrintDimen(d) != "dimensionless"
    ensures ReadDimen(PrintDimen(d)) == Some(d)
  {
    var t := PrintDimen(d);
    TokensShape(d.exps, DimNames);
    assert t != "wild";
    ZerosAreZero();
    ReadTokensOf(d, 0, Zeros);
    assert d.exps[0..] == d.exps && DimNames[0..] == DimNames;
    assert Zeros[..0] + d.exps[0..] == d.exps;
  }

  lemma ZerosAreZero()
    ensures forall j :: 0 <= j < NUM_DIMENS ==> Zeros[j] == Zero
  {
  }

  /** A single base unit prints as one token, e.g. "1/1L " for length. */
  lemma PrintBaseUnit(i: Slot)
    ensures PrintDimen(ParseDim(DimNames[i])) == "1/1" + DimNames[i] + " "
  {
    var d := ParseDim(DimNames[i]);
    NamesDistinct();
    assert forall j :: 0 <= j < NUM_DIMENS ==> (d.exps[j].num != 0 <==> j == i);
    TokensSingle(d.exps, DimNames, i, 0);
    assert d.exps[0..] == d.exps && DimNames[0..] == DimNames;
  }

  lemma {:induction false} TokensSingle(exps: seq<Frac>, names: seq<string>, k: nat, i: nat)
    requires |exps| == |names| && Printable(exps) && k < |exps| && i <= |exps|
    requires forall j :: 0 <= j < |exps| ==> (exps[j].num != 0 <==> j == k)
    requires exps[k] == One
    ensures Tokens(exps[i..], names[i..]) == (if i <= k then "1/1" + names[k] + " " else "")
    decreases |exps| - i
  {
    if i < |exps| {
      TokensSingle(exps, names, k, i + 1);
      if i == k {
        TokensLast(exps, names, i);
      } else {
        TokensSkip(exps, names, i);
      }
    }
  }

  /** A slot with numerator 0 adds no text. */
  lemma TokensSkip(exps: seq<Frac>, names: seq<string>, i: nat)
    requires |exps| == |names| && Printable(exps) && i < |exps| && exps[i].num == 0
    ensures Tokens(exps[i..], names[i..]) == Tokens(exps[i + 1..], names[i + 1..])
  {
    TokensStep(exps, names, i);
    assert "" + Tokens(exps[i + 1..], names[i + 1..]) == Tokens(exps[i + 1..], names[i + 1..]);
  }

  /** A last non-zero slot holding One prints as "1/1" and its code. */
  lemma TokensLast(exps: seq<Frac>, names: seq<string>, i: nat)
    requires |exps| == |names| && Printable(exps) && i < |exps| && exps[i] == One
    requires Tokens(exps[i + 1..], names[i + 1..]) == ""
    ensures Tokens(exps[i..], names[i..]) == "1/1" + names[i] + " "
  {
    TokensStep(exps, names, i);
    OneToken(names[i]);
    assert Token(One, names[i]) + "" == Token(One, names[i]);
  }

  /** The tokens of slots i.. are slot i's token (if any) before those of slots i+1... */
  lemma TokensStep(exps: seq<Frac>, names: seq<string>, i: nat)
    requires |exps| == |names| && Printable(exps) && i < |exps|
    ensures Tokens(exps[i..], names[i..])
      == (if exps[i].num != 0 then Token(exps[i], names[i]) else "") + Tokens(exps[i + 1..], names[i + 1..])
  {
    assert exps[i..][1..] == exps[i + 1..] && names[i..][1..] == names[i + 1..];
  }

  lemma OneToken(name: string)
    ensures Token(One, name) == "1/1" + name + " "
  {
    assert IntToString(1) == "1" && NatToString(1) == "1";
  }
}

=== FILE: env_laws.dfy ===
/**
 * Laws of the environment store: splitting inverts joining, reading a
 * variable back returns what was written, Asc_PutEnv agrees with
 * Asc_SetPathList, and concrete inputs on which the code as written
 * leaves its buffers.
 */
module EnvLaws {
  import opened Options
  import opened EnvStore
  import opened EnvPaths

  predicate AllElements(elems: seq<string>) {
    forall i :: 0 <= i < |elems| ==> Element(elems[i])
  }

  lemma {:induction false} SepIndexAfter(e: string, tail: string)
    requires ':' !in e && (tail == "" || tail[0] == ':')
    ensures SepIndex(e + tail) == |e|
  {
    if |e| > 0 {
      assert (e + tail)[1..] == e[1..] + tail;
      assert e[0] in e;
      SepIndexAfter(e[1..], tail);
    }
  }

  lemma JoinStarts(elems: seq<string>)
    requires AllElements(elems) && |elems| > 0
    ensures Join(elems) != "" && Join(elems)[0] == elems[0][0]
  {
    JoinCons(elems);
  }

  lemma SkipAtStart(s: string)
    requires Starts(s)
    ensures SkipSeps(s) == s
  {
  }

  /** A single element is cut as itself. */
  lemma ElementsOne(e: string)
    requires Element(e)
    ensures Starts(e) && Elements(e) == [e]
  {
    SepIndexAfter(e, "");
    assert e + "" == e;
    assert e[..|e|] == e;
    assert e[|e|..] == "";
  }

  /** An element followed by ':' and a list is cut into the element and that list. */
  lemma ElementsCons(e: string, rest: string)
    requires Element(e) && rest != "" && Starts(rest)
    ensures Starts(e + ":" + rest)
    ensures Elements(e + ":" + rest) == [e] + Elements(rest)
  {
    CutAtColon(e, rest);
    SkipColon(rest);
  }

  /** Where the copy loop cuts an element followed by ':'. */
  lemma CutAtColon(e: string, rest: string)
    requires Element(e)
    ensures SepIndex(e + ":" + rest) == |e|
    ensures (e + ":" + rest)[..|e|] == e && (e + ":" + rest)[|e|..] == ":" + rest
  {
    var p := e + (":" + rest);
    assert p == e + ":" + rest;
    SepIndexAfter(e, ":" + rest);
    assert p[..|e|] == e;
    assert p[|e|..] == ":" + rest;
  }

  lemma SkipColon(rest: string)
    requires Starts(rest)
    ensures SkipSeps(":" + rest) == rest
  {
    assert (":" + rest)[1..] == rest;
    SkipAtStart(rest);
  }

  lemma HeadTail(elems: seq<string>)
    requires |elems| > 0
    ensures [elems[0]] + elems[1..] == elems
  {
  }

  /** Cutting a joined list of elements gives the elements back. */
  lemma {:induction false} ElementsOfJoin(elems: seq<string>)
    requires AllElements(elems)
    ensures Starts(Join(elems))
    ensures Elements(Join(elems)) == elems
  {
    JoinCons(elems);
    if |elems| == 1 {
      ElementsOne(elems[0]);
    } else if |elems| >= 2 {
      assert AllElements(elems[1..]) by {
        assert forall i :: 1 <= i < |elems| ==> elems[1..][i - 1] == elems[i];
      }
      JoinStarts(elems[1..]);
      ElementsOfJoin(elems[1..]);
      ElementsCons(elems[0], Join(elems[1..]));
      HeadTail(elems);
    }
  }

  /** Split inverts Join on element lists: what Asc_GetEnv prints, Asc_SetPathList reads back. */
  lemma SplitJoin(elems: seq<string>)
    requires AllElements(elems)
    ensures Split(Join(elems)) == elems
  {
    ElementsOfJoin(elems);
    SkipAtStart(Join(elems));
  }

  /** Splitting is a normal form: joining and splitting again changes nothing. */
  lemma SplitIdempotent(s: string)
    ensures Split(Join(Split(s))) == Split(s)
  {
    SplitJoin(Split(s));
  }

  /** After Asc_SetPathList succeeds, both readers return the split list. */
  lemma ReadAfterSetPathList(env: Env, envvar: string, pathstring: string)
    requires ValidEnv(env) && SetPathList(env, Some(envvar), Some(pathstring)).0 == 0
    ensures ParseName(envvar).NameOk?
    ensures
      var after := SetPathList(env, Some(envvar), Some(pathstring)).1;
      var name := ParseName(envvar).name;
      && GetPathList(after, Some(name)) == (|Split(pathstring)|, Some(Split(pathstring)))
      && GetEnv(after, Some(name)) == Some(Join(Split(pathstring)))
  {
    var after := SetPathList(env, Some(envvar), Some(pathstring)).1;
    var name := ParseName(envvar).name;
    assert DataOf(after.value, name) == Split(pathstring);
  }

  /** Setting a variable to a joined element list and reading it back is the identity. */
  lemma SetThenGet(env: Env, name: string, elems: seq<string>)
    requires ValidEnv(env) && env.Some?
    requires name != "" && NoSpace(name)
    requires AllElements(elems) && |elems| > 0
    ensures
      var after := SetPathList(env, Some(name), Some(Join(elems))).1;
      && GetPathList(after, Some(name)) == (|elems|, Some(elems))
      && GetEnv(after, Some(name)) == Some(Join(elems))
  {
    ParsePlainName(name);
    JoinStarts(elems);
    SplitJoin(elems);
    ReadAfterSetPathList(env, name, Join(elems));
  }

  /** Asc_PutEnv("name=value") does what Asc_SetPathList(name, value) does. */
  lemma PutEnvIsSetPathList(env: Env, name: string, value: string)
    requires ValidEnv(env)
    requires '=' !in name && value != ""
    ensures PutEnv(env, Some(name + "=" + value)) == SetPathList(env, Some(name), Some(value))
  {
    SplitAssignmentOf(name, value);
    if name == "" {
      assert AllSpace(name);
    }
  }

  /** Asc_PutEnv("name=") leaves the variable present with no elements. */
  lemma PutEnvEmptyValue(env: Env, name: string)
    requires ValidEnv(env) && env.Some?
    requires name != "" && NoSpace(name) && '=' !in name
    ensures
      var after := PutEnv(env, Some(name + "=")).1;
      && PutEnv(env, Some(name + "=")).0 == 0
      && GetPathList(after, Some(name)) == (0, Some([]))
      && GetEnv(after, Some(name)) == Some("")
  {
    SplitAssignmentOf(name, "");
    assert name + "=" + "" == name + "=";
    ParsePlainName(name);
    SplitEmpty();
    PutEnvInstalls(env, name + "=", name, "");
  }

  /** A successful Asc_PutEnv stores the split value under the parsed name. */
  lemma PutEnvInstalls(env: Env, s: string, name: string, value: string)
    requires ValidEnv(env) && env.Some?
    requires SplitAssignment(s) == Some((name, value)) && ParseName(name) == NameOk(name)
    ensures PutEnv(env, Some(s)).0 == 0
    ensures DataOf(PutEnv(env, Some(s)).1.value, name) == Split(value)
    ensures GetPathList(PutEnv(env, Some(s)).1, Some(name)) == (|Split(value)|, Some(Split(value)))
    ensures GetEnv(PutEnv(env, Some(s)).1, Some(name)) == Some(Join(Split(value)))
  {
    var r := PutEnv(env, Some(s));
    assert r.0 == 0;
    assert FindEnvVar(r.1.value, name) == Some(EnvVar(name, Split(value)));
  }

  lemma SplitEmpty()
    ensures Split("") == []
  {
    assert SkipSeps("") == "";
  }

  /** A name of blanks: the corrected Asc_SetPathList refuses it; the code as written reads out of bounds. */
  lemma SetPathListBlankName()
    ensures SetPathListAsWritten(Some([]), Some(" "), Some("a")) == OutOfBounds
    ensures SetPathList(Some([]), Some(" "), Some("a")) == (1, Some([]))
  {
    assert AllSpace(" ");
  }

  /** The same for Asc_PutEnv when '=' is the first non-blank. */
  lemma PutEnvBlankName()
    ensures PutEnvAsWritten(Some([]), Some("=a")) == OutOfBounds
    ensures PutEnv(Some([]), Some("=a")) == (1, Some([]))
  {
    SplitAssignmentOf("", "a");
    assert "" + "=" + "a" == "=a";
  }

  /**
   * A list opening with ':' (":a", say): the corrected writer skips the
   * separator; the code as written reads out of bounds.
   */
  lemma SetPathListLeadingSeparator(e: string)
    requires Element(e)
    ensures SetPathListAsWritten(Some([]), Some("X"), Some(":" + e)) == OutOfBounds
    ensures GetPathList(SetPathList(Some([]), Some("X"), Some(":" + e)).1, Some("X")) == (1, Some([e]))
  {
    NameX();
    LeadColon(e);
    SplitColonElement(e);
    SetThenRead(Some([]), "X", ":" + e, [e]);
  }

  lemma SetThenRead(env: Env, name: string, value: string, elems: seq<string>)
    requires ValidEnv(env) && env.Some? && ParseName(name) == NameOk(name) && value != ""
    requires Split(value) == elems
    ensures GetPathList(SetPathList(env, Some(name), Some(value)).1, Some(name)) == (|elems|, Some(elems))
  {
    ReadAfterSetPathList(env, name, value);
  }

  /** A lone element behind ':' is split into that element. */
  lemma SplitColonElement(e: string)
    requires Element(e)
    ensures Split(":" + e) == [e]
  {
    SkipColon(e);
    ElementsOne(e);
  }

  /** The same for the value of Asc_PutEnv ("X=:a", say). */
  lemma PutEnvLeadingSeparator(e: string)
    requires Element(e)
    ensures PutEnvAsWritten(Some([]), Some("X=:" + e)) == OutOfBounds
    ensures GetPathList(PutEnv(Some([]), Some("X=:" + e)).1, Some("X")) == (1, Some([e]))
  {
    AssignmentX(":" + e);
    assert "X=" + (":" + e) == "X=:" + e;
    NameX();
    LeadColon(e);
    PutEnvStrays(Some([]), "X=:" + e, "X", ":" + e);
    SplitColonElement(e);
    PutEnvInstalls(Some([]), "X=:" + e, "X", ":" + e);
  }

  lemma NameX()
    ensures ParseName("X") == NameOk("X")
  {
    ParsePlainName("X");
  }

  lemma LeadColon(e: string)
    ensures LeadsWithSeparator(":" + e)
  {
    assert TrimLeft(":" + e) == ":" + e;
  }

  lemma AssignmentX(value: string)
    ensures SplitAssignment("X=" + value) == Some(("X", value))
  {
    SplitAssignmentOf("X", value);
    assert "X" + "=" + value == "X=" + value;
  }

  /** Asc_PutEnv as written leaves its buffer whenever the value opens with ':'. */
  lemma PutEnvStrays(env: Env, s: string, name: string, value: string)
    requires ValidEnv(env) && env.Some?
    requires SplitAssignment(s) == Some((name, value)) && ParseName(name) == NameOk(name)
    requires LeadsWithSeparator(value)
    ensures PutEnvAsWritten(env, Some(s)) == OutOfBounds
  {
  }

  /** A variable with no elements: the corrected Asc_GetEnv returns ""; the code as written writes out of bounds. */
  lemma GetEnvOfEmptyVariable()
    ensures
      var env := PutEnv(Some([]), Some("X=")).1;
      && GetEnvAsWritten(env, Some("X")) == OutOfBounds
      && GetEnv(env, Some("X")) == Some("")
  {
    AssignmentX("");
    assert "X=" + "" == "X=";
    PutEnvEmptyValue(Some([]), "X");
  }
}

=== FILE: env_paths.dfy ===
/**
 * The two writers of ascend4/utilities/ascEnvVar.c that parse text:
 * Asc_SetPathList (a name and a ':'-separated list) and Asc_PutEnv
 * (one "name=list" string). Both strip blanks around the name, refuse a
 * name with an inner blank, replace the variable, and split the list into
 * elements with surrounding blanks removed and empty elements skipped.
 * The separator is PATHDIV of the non-Windows build, ':'.
 */
module EnvPaths {
  import opened Options
  import opened StrOrder
  import opened EnvStore

  /** isspace in the C locale. */
  predicate IsSpace(c: char) {
    c == ' ' || c == '\t' || c == '\n' || c == '\U{000B}' || c == '\U{000C}' || c == '\r'
  }

  predicate AllSpace(s: string) {
    forall i :: 0 <= i < |s| ==> IsSpace(s[i])
  }

  predicate NoSpace(s: string) {
    forall i :: 0 <= i < |s| ==> !IsSpace(s[i])
  }

  /** Leading blanks removed. */
  function TrimLeft(s: string): (r: string)
    ensures |r| <= |s| && r == s[|s| - |r|..]
    ensures AllSpace(s[..|s| - |r|])
    ensures r == "" || !IsSpace(r[0])
  {
    if |s| > 0 && IsSpace(s[0]) then
      var t := s[1..];
      var r := TrimLeft(t);
      assert s[..|s| - |r|] == [s[0]] + t[..|t| - |r|];
      assert s[|s| - |r|..] == t[|t| - |r|..];
      r
    else s
  }

  /** Trailing blanks removed. */
  function TrimRight(s: string): (r: string)
    ensures |r| <= |s| && r == s[..|r|]
    ensures AllSpace(s[|r|..])
    ensures r == "" || !IsSpace(r[|r| - 1])
  {
    if |s| > 0 && IsSpace(s[|s| - 1]) then
      var r := TrimRight(s[..|s| - 1]);
      assert s[|r|..] == s[..|s| - 1][|r|..] + [s[|s| - 1]];
      r
    else s
  }

  lemma {:induction false} TrimRightKeepsHead(s: string)
    requires |s| > 0 && !IsSpace(s[0])
    ensures |TrimRight(s)| > 0 && TrimRight(s)[0] == s[0]
    decreases |s|
  {
    if |s| > 1 && IsSpace(s[|s| - 1]) {
      TrimRightKeepsHead(s[..|s| - 1]);
    }
  }

  lemma TrimLeftEmpty(s: string)
    ensures TrimLeft(s) == "" <==> AllSpace(s)
  {
    var r := TrimLeft(s);
    assert r == "" ==> s[..|s| - |r|] == s;
    assert r != "" ==> r[0] == s[|s| - |r|];
  }

  lemma TrimBothEmpty(s: string)
    ensures TrimRight(TrimLeft(s)) == "" <==> AllSpace(s)
  {
    TrimLeftEmpty(s);
    if TrimLeft(s) != "" {
      TrimRightKeepsHead(TrimLeft(s));
    }
  }

  datatype NameParse = NameOk(name: string) | NameSpaced | NameBlank

  /**
   * The variable-name handling Asc_SetPathList and Asc_PutEnv share:
   * blanks around the name are stripped and a blank inside it is refused.
   */
  function ParseName(raw: string): (r: NameParse)
    ensures r.NameBlank? <==> AllSpace(raw)
    ensures r.NameOk? <==> !AllSpace(raw) && NoSpace(TrimRight(TrimLeft(raw)))
    ensures r.NameOk? ==> r.name == TrimRight(TrimLeft(raw)) && r.name != ""
  {
    TrimBothEmpty(raw);
    var t := TrimRight(TrimLeft(raw));
    if t == "" then NameBlank else if NoSpace(t) then NameOk(t) else NameSpaced
  }

  /** A name with no blanks parses to itself. */
  lemma ParsePlainName(name: string)
    requires name != "" && NoSpace(name)
    ensures ParseName(name) == NameOk(name)
  {
    assert !AllSpace(name) by { assert !IsSpace(name[0]); }
    assert TrimLeft(name) == name;
    assert TrimRight(name) == name;
  }

  /** Where a list may start an element: at its end, or at neither a blank nor ':'. */
  predicate Starts(p: string) {
    p == "" || (!IsSpace(p[0]) && p[0] != ':')
  }

  /** One stored element: non-empty, without ':', no blank at either end. */
  predicate Element(e: string) {
    e != "" && !IsSpace(e[0]) && !IsSpace(e[|e| - 1]) && ':' !in e
  }

  /** Index of the first ':' of p, or |p|. */
  function SepIndex(p: string): (k: nat)
    ensures k <= |p| && ':' !in p[..k]
    ensures k < |p| ==> p[k] == ':'
  {
    if |p| == 0 || p[0] == ':' then 0
    else
      var k := SepIndex(p[1..]);
      assert p[..k + 1] == [p[0]] + p[1..][..k];
      k + 1
  }

  /** The separator run after an element: blanks and ':' are skipped. */
  function SkipSeps(s: string): (r: string)
    ensures |r| <= |s| && r == s[|s| - |r|..]
    ensures Starts(r)
    ensures forall i :: 0 <= i < |s| - |r| ==> IsSpace(s[i]) || s[i] == ':'
  {
    if |s| > 0 && (IsSpace(s[0]) || s[0] == ':') then SkipSeps(s[1..]) else s
  }

  /** The elements of a list that starts at an element, as the copy loop cuts them. */
  function Elements(p: string): seq<string>
    requires Starts(p)
    decreases |p|
  {
    if p == "" then []
    else
      var k := SepIndex(p);
      CutAdvances(p, k);
      [TrimRight(p[..k])] + Elements(SkipSeps(p[k..]))
  }

  lemma CutAdvances(p: string, k: nat)
    requires p != "" && Starts(p) && k == SepIndex(p)
    ensures 0 < k
  {
    assert p[0] != ':';
  }

  lemma CutIsElement(p: string, k: nat)
    requires p != "" && Starts(p) && k == SepIndex(p)
    ensures Element(TrimRight(p[..k]))
  {
    CutAdvances(p, k);
    var e := TrimRight(p[..k]);
    TrimRightKeepsHead(p[..k]);
    assert forall j :: 0 <= j < |e| ==> e[j] == p[..k][j];
  }

  /** Every piece the copy loop cuts is a well-formed element. */
  lemma {:induction false} ElementsAreElements(p: string)
    requires Starts(p)
    ensures forall i :: 0 <= i < |Elements(p)| ==> Element(Elements(p)[i])
    decreases |p|
  {
    if p != "" {
      var k := SepIndex(p);
      CutIsElement(p, k);
      CutAdvances(p, k);
      ElementsAreElements(SkipSeps(p[k..]));
      ConsElements(TrimRight(p[..k]), Elements(SkipSeps(p[k..])));
    }
  }

  lemma ConsElements(e: string, es: seq<string>)
    requires Element(e) && forall i :: 0 <= i < |es| ==> Element(es[i])
    ensures forall i :: 0 <= i < |[e] + es| ==> Element(([e] + es)[i])
  {
  }

  /** The element list of a value: a leading ':' is skipped like any separator. */
  function Split(s: string): (r: seq<string>)
    ensures forall i :: 0 <= i < |r| ==> Element(r[i])
  {
    ElementsAreElements(SkipSeps(s));
    Elements(SkipSeps(s))
  }

  /** The source's copy loop reads out of bounds when the list opens with ':'. */
  predicate LeadsWithSeparator(s: string) {
    TrimLeft(s) != "" && TrimLeft(s)[0] == ':'
  }

  /** Without a leading ':', skipping separators is skipping blanks. */
  lemma {:induction false} SkipIsTrim(s: string)
    requires !LeadsWithSeparator(s)
    ensures SkipSeps(s) == TrimLeft(s)
  {
    if |s| > 0 && IsSpace(s[0]) {
      assert TrimLeft(s) == TrimLeft(s[1..]);
      SkipIsTrim(s[1..]);
    }
  }

  /** The element list as the source computes it. */
  function SplitAsWritten(s: string): (r: Outcome<seq<string>>)
    ensures r.OutOfBounds? <==> LeadsWithSeparator(s)
    ensures r.Done? ==> r.value == Split(s)
  {
    var p := TrimLeft(s);
    if p != "" && p[0] == ':' then OutOfBounds
    else
      SkipIsTrim(s);
      Done(Elements(p))
  }

  /** The store after a variable has been set to exactly these elements. */
  ghost predicate Installed(before: seq<EnvVar>, after: seq<EnvVar>, name: string, elems: seq<string>) {
    && WellFormed(after)
    && FindEnvVar(after, name) == Some(EnvVar(name, elems))
    && forall m :: m != name ==> FindEnvVar(after, m) == FindEnvVar(before, m)
  }

  /** The Asc_AppendPath loop over the elements of a variable that exists. */
  function AppendAll(list: seq<EnvVar>, name: string, elems: seq<string>): (r: seq<EnvVar>)
    requires WellFormed(list) && name != "" && FindEnvVar(list, name).Some?
    requires forall i :: 0 <= i < |elems| ==> elems[i] != ""
    ensures Installed(list, r, name, DataOf(list, name) + elems)
    decreases |elems|
  {
    if |elems| == 0 then
      assert DataOf(list, name) + elems == DataOf(list, name);
      list
    else
      var next := AppendPath(Some(list), Some(name), Some(elems[0])).1.value;
      AppendStep(list, name, elems, next);
      AppendAll(next, name, elems[1..])
  }

  lemma AppendStep(list: seq<EnvVar>, name: string, elems: seq<string>, next: seq<EnvVar>)
    requires WellFormed(list) && name != "" && |elems| > 0 && elems[0] != ""
    requires next == AppendPath(Some(list), Some(name), Some(elems[0])).1.value
    ensures WellFormed(next) && FindEnvVar(next, name).Some?
    ensures DataOf(next, name) + elems[1..] == DataOf(list, name) + elems
    ensures forall m :: m != name ==> FindEnvVar(next, m) == FindEnvVar(list, m)
  {
    AppendOne(list, name, elems[0], next);
    Reassociate(DataOf(list, name), elems);
  }

  lemma AppendOne(list: seq<EnvVar>, name: string, e: string, next: seq<EnvVar>)
    requires WellFormed(list) && name != "" && e != ""
    requires next == AppendPath(Some(list), Some(name), Some(e)).1.value
    ensures WellFormed(next)
    ensures FindEnvVar(next, name) == Some(EnvVar(name, DataOf(list, name) + [e]))
    ensures forall m :: m != name ==> FindEnvVar(next, m) == FindEnvVar(list, m)
  {
    var r := AppendPath(Some(list), Some(name), Some(e));
    assert r.0 == 0;
  }

  lemma Reassociate(d: seq<string>, elems: seq<string>)
    requires |elems| > 0
    ensures (d + [elems[0]]) + elems[1..] == d + elems
  {
    assert elems == [elems[0]] + elems[1..];
  }

  /** The variable dropped if present; every other variable kept. */
  function Cleared(list: seq<EnvVar>, name: string): (r: seq<EnvVar>)
    requires WellFormed(list)
    ensures WellFormed(r) && FindEnvVar(r, name).None?
    ensures forall m :: m != name ==> FindEnvVar(r, m) == FindEnvVar(list, m)
  {
    if FindEnvVar(list, name).Some? then DeleteEnvVar(Some(list), Some(name)).value else list
  }

  /** The variable recreated with no elements; every other variable kept. */
  function Created(list: seq<EnvVar>, name: string): (r: seq<EnvVar>)
    requires WellFormed(list) && name != ""
    ensures WellFormed(r) && FindEnvVar(r, name) == Some(EnvVar(name, []))
    ensures forall m :: m != name ==> FindEnvVar(r, m) == FindEnvVar(list, m)
  {
    var cleared := Cleared(list, name);
    InsertFacts(cleared, EnvVar(name, []));
    AppendEnvVar(cleared, EnvVar(name, []))
  }

  /** The shared tail of both writers: drop the variable if present, recreate it empty, append. */
  function Install(list: seq<EnvVar>, name: string, elems: seq<string>): (r: seq<EnvVar>)
    requires WellFormed(list) && name != ""
    requires forall i :: 0 <= i < |elems| ==> elems[i] != ""
    ensures Installed(list, r, name, elems)
  {
    var created := Created(list, name);
    assert DataOf(created, name) + elems == elems;
    AppendAll(created, name, elems)
  }

  /**
   * Asc_SetPathList with a blank name refused and a leading ':' skipped.
   * Returns 1 and leaves the store alone when the store, the name or the
   * list is missing or empty, or the name is blank or holds a blank.
   */
  function SetPathList(env: Env, envvar: Option<string>, pathstring: Option<string>): (r: (int, Env))
    requires ValidEnv(env)
    ensures ValidEnv(r.1)
    ensures r.0 == 0 <==>
      && env.Some? && envvar.Some? && envvar.value != ""
      && pathstring.Some? && pathstring.value != ""
      && ParseName(envvar.value).NameOk?
    ensures r.0 != 0 ==> r.0 == 1 && r.1 == env
    ensures r.0 == 0 ==>
      r.1.Some? && Installed(env.value, r.1.value, ParseName(envvar.value).name, Split(pathstring.value))
  {
    if env.None? || envvar.None? || envvar.value == "" || pathstring.None? || pathstring.value == "" then
      (1, env)
    else
      match ParseName(envvar.value)
      case NameOk(name) => (0, Some(Install(env.value, name, Split(pathstring.value))))
      case _ => (1, env)
  }

  /**
   * Asc_SetPathList as written: a name of blanks only leaves the index c
   * at 0 and the unsigned c-1 reads far outside the buffer; a list whose
   * first non-blank is ':' does the same with length-1.
   */
  function SetPathListAsWritten(env: Env, envvar: Option<string>, pathstring: Option<string>): (r: Outcome<(int, Env)>)
    requires ValidEnv(env)
    ensures r.OutOfBounds? <==>
      && env.Some? && envvar.Some? && envvar.value != ""
      && pathstring.Some? && pathstring.value != ""
      && (ParseName(envvar.value).NameBlank?
          || (ParseName(envvar.value).NameOk? && LeadsWithSeparator(pathstring.value)))
    ensures r.Done? ==> r.value == SetPathList(env, envvar, pathstring)
  {
    if env.None? || envvar.None? || envvar.value == "" || pathstring.None? || pathstring.value == "" then
      Done((1, env))
    else
      match ParseName(envvar.value)
      case NameBlank => OutOfBounds
      case NameSpaced => Done((1, env))
      case NameOk(name) =>
        match SplitAsWritten(pathstring.value)
        case OutOfBounds => OutOfBounds
        case Done(elems) => Done((0, Some(Install(env.value, name, elems))))
  }

  /** A "name=value" string cut at its first '='; None when there is none. */
  function SplitAssignment(s: string): (r: Option<(string, string)>)
    ensures r.None? <==> '=' !in s
    ensures r.Some? ==> s == r.value.0 + "=" + r.value.1 && '=' !in r.value.0
  {
    if |s| == 0 then None
    else if s[0] == '=' then Some(("", s[1..]))
    else
      match SplitAssignment(s[1..])
      case None => None
      case Some(lr) =>
        assert s == [s[0]] + lr.0 + "=" + lr.1;
        Some(([s[0]] + lr.0, lr.1))
  }

  /** A name without '=' followed by "=" and a value is cut back into the two. */
  lemma {:induction false} SplitAssignmentOf(name: string, value: string)
    requires '=' !in name
    ensures SplitAssignment(name + "=" + value) == Some((name, value))
  {
    var s := name + "=" + value;
    if |name| > 0 {
      assert s[1..] == name[1..] + "=" + value;
      assert name[0] in name;
      SplitAssignmentOf(name[1..], value);
      assert [s[0]] + name[1..] == name;
    }
  }

  /**
   * Asc_PutEnv with a blank name refused and a leading ':' skipped. The
   * source skips blanks before the name first; ParseName strips them too.
   * An empty value sets the variable to no elements.
   */
  function PutEnv(env: Env, envstring: Option<string>): (r: (int, Env))
    requires ValidEnv(env)
    ensures ValidEnv(r.1)
    ensures r.0 == 0 <==>
      && env.Some? && envstring.Some? && SplitAssignment(envstring.value).Some?
      && ParseName(SplitAssignment(envstring.value).value.0).NameOk?
    ensures r.0 != 0 ==> r.0 == 1 && r.1 == env
    ensures r.0 == 0 ==>
      var lr := SplitAssignment(envstring.value).value;
      r.1.Some? && Installed(env.value, r.1.value, ParseName(lr.0).name, Split(lr.1))
  {
    if env.None? || envstring.None? then (1, env)
    else
      match SplitAssignment(envstring.value)
      case None => (1, env)
      case Some(lr) =>
        match ParseName(lr.0)
        case NameOk(name) => (0, Some(Install(env.value, name, Split(lr.1))))
        case _ => (1, env)
  }

  /** Asc_PutEnv as written: the same two out-of-bounds reads as Asc_SetPathList. */
  function PutEnvAsWritten(env: Env, envstring: Option<string>): (r: Outcome<(int, Env)>)
    requires ValidEnv(env)
    ensures r.OutOfBounds? <==>
      && env.Some? && envstring.Some? && SplitAssignment(envstring.value).Some?
      && var lr := SplitAssignment(envstring.value).value;
         (ParseName(lr.0).NameBlank? || (ParseName(lr.0).NameOk? && LeadsWithSeparator(lr.1)))
    ensures r.Done? ==> r.value == PutEnv(env, envstring)
  {
    if env.None? || envstring.None? then Done((1, env))
    else
      match SplitAssignment(envstring.value)
      case None => Done((1, env))
      case Some(lr) =>
        match ParseName(lr.0)
        case NameBlank => OutOfBounds
        case NameSpaced => Done((1, env))
        case NameOk(name) =>
          match SplitAsWritten(lr.1)
          case OutOfBounds => OutOfBounds
          case Done(elems) => Done((0, Some(Install(env.value, name, elems))))
  }
}

=== FILE: env_store.dfy ===
/**
 * The environment store of ascend4/utilities/ascEnvVar.c: a list of
 * variables kept sorted by strcmp of their names, each owning an ordered
 * list of path elements, and the entry points that look variables up,
 * append elements and read them back. The list is absent (NULL) until
 * Asc_InitEnvironment; a NULL string argument is None.
 */
module EnvStore {
  import opened Options
  import opened StrOrder

  /** struct asc_env_t: a variable name and its path elements in insertion order. */
  datatype EnvVar = EnvVar(name: string, data: seq<string>)

  /** g_env_list: None before Asc_InitEnvironment and after Asc_DestroyEnvironment. */
  type Env = Option<seq<EnvVar>>

  /** Result of a step whose source reads or writes outside its buffer on some input. */
  datatype Outcome<T> = Done(value: T) | OutOfBounds

  predicate Sorted(list: seq<EnvVar>) {
    forall i, j :: 0 <= i < j < |list| ==> StrCmp(list[i].name, list[j].name) < 0
  }

  /** Names are non-empty and strictly sorted; every stored element is non-empty. */
  predicate WellFormed(list: seq<EnvVar>) {
    && Sorted(list)
    && (forall i :: 0 <= i < |list| ==> list[i].name != "")
    && (forall i, k :: 0 <= i < |list| && 0 <= k < |list[i].data| ==> list[i].data[k] != "")
  }

  predicate ValidEnv(env: Env) {
    env.Some? ==> WellFormed(env.value)
  }

  /**
   * CmpEV: records compared by name with strcmp; a NULL record (None)
   * sorts after every named one, and two NULL records are the same pointer.
   */
  function CmpEV(a: Option<string>, b: Option<string>): (r: int)
    ensures -1 <= r <= 1
    ensures r == 0 <==> a == b
    ensures a.None? && b.Some? ==> r == 1
    ensures a.Some? && b.None? ==> r == -1
    ensures a.Some? && b.Some? ==> (r < 0 <==> StrCmp(a.value, b.value) < 0)
  {
    if a == b then
      (if a.Some? then StrCmpZero(a.value, a.value); 0 else 0)
    else if a.None? then 1
    else if b.None? then -1
    else
      StrCmpZero(a.value, b.value);
      StrCmp(a.value, b.value)
  }

  /** CmpEV is antisymmetric. */
  lemma CmpEVAntisymmetric(a: Option<string>, b: Option<string>)
    ensures CmpEV(a, b) == -CmpEV(b, a)
  {
    if a.Some? && b.Some? {
      StrCmpAntisymmetric(a.value, b.value);
      StrCmpZero(a.value, b.value);
      StrCmpZero(b.value, a.value);
    }
  }

  /** FindEnvVar: the variable with this name, or NULL. */
  function FindEnvVar(list: seq<EnvVar>, name: string): (r: Option<EnvVar>)
    ensures r.Some? ==> r.value in list && r.value.name == name
    ensures r.None? <==> forall i :: 0 <= i < |list| ==> list[i].name != name
  {
    if |list| == 0 then None
    else if list[0].name == name then Some(list[0])
    else
      assert forall i :: 1 <= i < |list| ==> list[i] == list[1..][i - 1];
      FindEnvVar(list[1..], name)
  }

  /** In a sorted list, the entry at i is the one FindEnvVar returns for its name. */
  lemma FindAt(list: seq<EnvVar>, i: nat)
    requires Sorted(list) && i < |list|
    ensures FindEnvVar(list, list[i].name) == Some(list[i])
  {
    var r := FindEnvVar(list, list[i].name);
    var j :| 0 <= j < |list| && list[j] == r.value;
    if j != i {
      if j < i { StrCmpZero(list[j].name, list[i].name); }
      else { StrCmpZero(list[i].name, list[j].name); }
    }
  }

  /** AppendEnvVar: gl_insert_sorted of a variable whose name is not yet present. */
  function AppendEnvVar(list: seq<EnvVar>, ev: EnvVar): (r: seq<EnvVar>)
    requires Sorted(list) && FindEnvVar(list, ev.name).None?
    ensures Sorted(r) && |r| == |list| + 1
    ensures exists k :: 0 <= k <= |list| && r == list[..k] + [ev] + list[k..]
  {
    if |list| == 0 then
      assert [ev] == list[..0] + [ev] + list[0..];
      [ev]
    else if StrCmp(ev.name, list[0].name) < 0 then
      InsertFront(list, ev);
      assert [ev] + list == list[..0] + [ev] + list[0..];
      [ev] + list
    else
      SortedTail(list);
      var rest := AppendEnvVar(list[1..], ev);
      var k :| 0 <= k <= |list[1..]| && rest == list[1..][..k] + [ev] + list[1..][k..];
      InsertAfterHead(list, ev, rest, k);
      [list[0]] + rest
  }

  lemma SortedTail(list: seq<EnvVar>)
    requires Sorted(list) && |list| > 0
    ensures Sorted(list[1..])
  {
    assert forall i :: 1 <= i < |list| ==> list[i] == list[1..][i - 1];
  }

  lemma InsertAfterHead(list: seq<EnvVar>, ev: EnvVar, rest: seq<EnvVar>, k: nat)
    requires Sorted(list) && |list| > 0 && ev.name != list[0].name
    requires !(StrCmp(ev.name, list[0].name) < 0)
    requires k <= |list| - 1 && rest == list[1..][..k] + [ev] + list[1..][k..] && Sorted(rest)
    ensures Sorted([list[0]] + rest)
    ensures [list[0]] + rest == list[..k + 1] + [ev] + list[k + 1..]
  {
    StrCmpAntisymmetric(ev.name, list[0].name);
    StrCmpZero(ev.name, list[0].name);
    forall i | 0 <= i < |rest|
      ensures StrCmp(list[0].name, rest[i].name) < 0
    {
      if i != k {
        var j := if i < k then i + 1 else i;
        assert rest[i] == list[j];
      }
    }
    InsertBehind(list[0], rest);
  }

  lemma InsertFront(list: seq<EnvVar>, ev: EnvVar)
    requires Sorted(list) && |list| > 0 && StrCmp(ev.name, list[0].name) < 0
    ensures Sorted([ev] + list)
  {
    forall j | 1 <= j < |list|
      ensures StrCmp(ev.name, list[j].name) < 0
    {
      StrCmpTransitive(ev.name, list[0].name, list[j].name);
    }
  }

  lemma InsertBehind(head: EnvVar, rest: seq<EnvVar>)
    requires Sorted(rest)
    requires forall i :: 0 <= i < |rest| ==> StrCmp(head.name, rest[i].name) < 0
    ensures Sorted([head] + rest)
  {
  }

  /** Position of the first variable with this name: what gl_search yields for a present name. */
  function IndexOf(list: seq<EnvVar>, name: string): (i: nat)
    requires FindEnvVar(list, name).Some?
    ensures i < |list| && list[i].name == name
    ensures forall j :: 0 <= j < i ==> list[j].name != name
  {
    if list[0].name == name then 0
    else
      assert forall j :: 1 <= j < |list| ==> list[j] == list[1..][j - 1];
      1 + IndexOf(list[1..], name)
  }

  /**
   * DeleteEnvVar: removes the named variable. The source fetches the
   * position gl_search returns without testing it for 0, so it must only be
   * called on a present name, as both of its callers do.
   */
  function DeleteEnvVar(env: Env, name: Option<string>): (r: Env)
    requires ValidEnv(env)
    requires env.Some? && name.Some? ==> FindEnvVar(env.value, name.value).Some?
    ensures ValidEnv(r)
    ensures name.None? || env.None? ==> r == env
    ensures env.Some? && name.Some? ==>
      && r.Some? && |r.value| == |env.value| - 1
      && FindEnvVar(r.value, name.value).None?
      && forall m :: m != name.value ==> FindEnvVar(r.value, m) == FindEnvVar(env.value, m)
  {
    if name.None? || env.None? then env
    else
      var list := env.value;
      var i := IndexOf(list, name.value);
      DropFacts(list, i);
      Some(list[..i] + list[i + 1..])
  }

  /** Dropping the entry at i keeps the store well formed and every other lookup. */
  lemma DropFacts(list: seq<EnvVar>, i: nat)
    requires WellFormed(list) && i < |list|
    ensures WellFormed(list[..i] + list[i + 1..])
    ensures FindEnvVar(list[..i] + list[i + 1..], list[i].name).None?
    ensures forall m :: m != list[i].name ==>
      FindEnvVar(list[..i] + list[i + 1..], m) == FindEnvVar(list, m)
  {
    var r := list[..i] + list[i + 1..];
    DropSorted(list, i);
    forall j | 0 <= j < |r|
      ensures r[j] == list[Skip(i, j)]
    {
      DropIndex(list, i, j);
    }
    forall j | 0 <= j < |r|
      ensures r[j].name != list[i].name
    {
      DropIndex(list, i, j);
      var j' := Skip(i, j);
      if j' < i { StrCmpZero(list[j'].name, list[i].name); }
      else { StrCmpZero(list[i].name, list[j'].name); }
    }
    forall m | m != list[i].name
      ensures FindEnvVar(r, m) == FindEnvVar(list, m)
    {
      DropKeeps(list, i, m);
    }
  }

  /** Index into list of entry j of the list with entry i dropped. */
  function Skip(i: nat, j: nat): (k: nat)
    ensures k != i && (k < i <==> j < i)
    ensures j < i ==> k == j
    ensures j >= i ==> k == j + 1
  {
    if j < i then j else j + 1
  }

  lemma DropIndex(list: seq<EnvVar>, i: nat, j: nat)
    requires i < |list| && j < |list| - 1
    ensures (list[..i] + list[i + 1..])[j] == list[Skip(i, j)]
  {
  }

  lemma DropSorted(list: seq<EnvVar>, i: nat)
    requires Sorted(list) && i < |list|
    ensures Sorted(list[..i] + list[i + 1..])
  {
    var r := list[..i] + list[i + 1..];
    forall a, b | 0 <= a < b < |r|
      ensures StrCmp(r[a].name, r[b].name) < 0
    {
      DropIndex(list, i, a);
      DropIndex(list, i, b);
    }
  }

  lemma DropKeeps(list: seq<EnvVar>, i: nat, m: string)
    requires Sorted(list) && i < |list| && m != list[i].name
    ensures FindEnvVar(list[..i] + list[i + 1..], m) == FindEnvVar(list, m)
  {
    var r := list[..i] + list[i + 1..];
    DropSorted(list, i);
    var f := FindEnvVar(list, m);
    if f.Some? {
      var j :| 0 <= j < |list| && list[j] == f.value;
      var k := if j < i then j else j - 1;
      assert Skip(i, k) == j;
      DropIndex(list, i, k);
      FindAt(r, k);
    } else {
      forall j | 0 <= j < |r|
        ensures r[j].name != m
      {
        DropIndex(list, i, j);
      }
    }
  }

  /** Inserting a variable under a new name: found under its name, every other lookup kept. */
  lemma InsertFacts(list: seq<EnvVar>, ev: EnvVar)
    requires WellFormed(list) && FindEnvVar(list, ev.name).None?
    requires ev.name != "" && forall k :: 0 <= k < |ev.data| ==> ev.data[k] != ""
    ensures WellFormed(AppendEnvVar(list, ev))
    ensures FindEnvVar(AppendEnvVar(list, ev), ev.name) == Some(ev)
    ensures forall m :: m != ev.name ==> FindEnvVar(AppendEnvVar(list, ev), m) == FindEnvVar(list, m)
  {
    var r := AppendEnvVar(list, ev);
    var k :| 0 <= k <= |list| && r == list[..k] + [ev] + list[k..];
    InsertWellFormed(list, ev, k);
    assert r[k] == ev;
    FindAt(r, k);
    forall m | m != ev.name
      ensures FindEnvVar(r, m) == FindEnvVar(list, m)
    {
      InsertKeeps(list, ev, k, m);
    }
  }

  lemma InsertWellFormed(list: seq<EnvVar>, ev: EnvVar, k: nat)
    requires WellFormed(list) && k <= |list| && Sorted(list[..k] + [ev] + list[k..])
    requires ev.name != "" && forall j :: 0 <= j < |ev.data| ==> ev.data[j] != ""
    ensures WellFormed(list[..k] + [ev] + list[k..])
  {
    var r := list[..k] + [ev] + list[k..];
    forall j | 0 <= j < |r|
      ensures r[j] == ev || r[j] in list
    {
      if j < k { assert r[j] == list[j]; }
      else if j > k { assert r[j] == list[j - 1]; }
    }
  }

  /** Where entry j of list sits once ev is inserted at k. */
  lemma InsertIndex(list: seq<EnvVar>, ev: EnvVar, k: nat, j: nat)
    requires k <= |list| && j < |list|
    ensures (list[..k] + [ev] + list[k..])[if j < k then j else j + 1] == list[j]
  {
  }

  /** A sorted list with one entry inserted was sorted without it. */
  lemma InsertedSorted(list: seq<EnvVar>, ev: EnvVar, k: nat)
    requires k <= |list| && Sorted(list[..k] + [ev] + list[k..])
    ensures Sorted(list)
  {
    forall a, b | 0 <= a < b < |list|
      ensures StrCmp(list[a].name, list[b].name) < 0
    {
      InsertIndex(list, ev, k, a);
      InsertIndex(list, ev, k, b);
    }
  }

  lemma InsertKeeps(list: seq<EnvVar>, ev: EnvVar, k: nat, m: string)
    requires k <= |list| && Sorted(list[..k] + [ev] + list[k..]) && m != ev.name
    ensures FindEnvVar(list[..k] + [ev] + list[k..], m) == FindEnvVar(list, m)
  {
    var r := list[..k] + [ev] + list[k..];
    InsertedSorted(list, ev, k);
    var f := FindEnvVar(list, m);
    if f.Some? {
      var j :| 0 <= j < |list| && list[j] == f.value;
      FindAt(list, j);
      InsertIndex(list, ev, k, j);
      FindAt(r, if j < k then j else j + 1);
    } else {
      forall j | 0 <= j < |r|
        ensures r[j].name != m
      {
        if j < k { InsertIndex(list, ev, k, j); }
        else if j > k { InsertIndex(list, ev, k, j - 1); }
      }
    }
  }

  /** Replacing the elements of the entry at i: found with the new elements, every other lookup kept. */
  lemma UpdateFacts(list: seq<EnvVar>, i: nat, data: seq<string>)
    requires WellFormed(list) && i < |list|
    requires forall k :: 0 <= k < |data| ==> data[k] != ""
    ensures WellFormed(list[i := EnvVar(list[i].name, data)])
    ensures FindEnvVar(list[i := EnvVar(list[i].name, data)], list[i].name) == Some(EnvVar(list[i].name, data))
    ensures forall m :: m != list[i].name ==>
      FindEnvVar(list[i := EnvVar(list[i].name, data)], m) == FindEnvVar(list, m)
  {
    var r := list[i := EnvVar(list[i].name, data)];
    UpdateWellFormed(list, i, data);
    FindAt(r, i);
    forall m | m != list[i].name
      ensures FindEnvVar(r, m) == FindEnvVar(list, m)
    {
      UpdateKeeps(list, i, data, m);
    }
  }

  lemma UpdateWellFormed(list: seq<EnvVar>, i: nat, data: seq<string>)
    requires WellFormed(list) && i < |list|
    requires forall k :: 0 <= k < |data| ==> data[k] != ""
    ensures WellFormed(list[i := EnvVar(list[i].name, data)])
  {
    var r := list[i := EnvVar(list[i].name, data)];
    assert forall j :: 0 <= j < |r| ==> r[j].name == list[j].name;
  }

  lemma UpdateKeeps(list: seq<EnvVar>, i: nat, data: seq<string>, m: string)
    requires Sorted(list) && i < |list| && m != list[i].name
    ensures FindEnvVar(list[i := EnvVar(list[i].name, data)], m) == FindEnvVar(list, m)
  {
    var r := list[i := EnvVar(list[i].name, data)];
    assert forall j :: 0 <= j < |r| ==> r[j].name == list[j].name;
    assert Sorted(r);
    var f := FindEnvVar(list, m);
    if f.Some? {
      var j :| 0 <= j < |list| && list[j] == f.value;
      FindAt(list, j);
      FindAt(r, j);
    }
  }

  /** The elements stored under a name, empty when the name is absent. */
  function DataOf(list: seq<EnvVar>, name: string): seq<string> {
    match FindEnvVar(list, name)
    case None => []
    case Some(ev) => ev.data
  }

  /** Asc_InitEnvironment: creates the empty store, or reports 1 when one exists. */
  function InitEnvironment(env: Env): (r: (int, Env))
    ensures r.0 == 0 <==> env.None?
    ensures r.0 != 0 ==> r.0 == 1 && r.1 == env
    ensures r.1.Some? && (env.None? ==> |r.1.value| == 0)
  {
    if env.Some? then (1, env) else (0, Some([]))
  }

  /** Asc_DestroyEnvironment: the store is gone. */
  function DestroyEnvironment(env: Env): (r: Env)
    ensures r.None?
  {
    None
  }

  /**
   * Asc_AppendPath: appends one element to a variable, creating the
   * variable when absent. The name is used verbatim (no trimming).
   */
  function AppendPath(env: Env, envvar: Option<string>, elem: Option<string>): (r: (int, Env))
    requires ValidEnv(env)
    ensures ValidEnv(r.1)
    ensures r.0 == 0 <==>
      env.Some? && envvar.Some? && elem.Some? && envvar.value != "" && elem.value != ""
    ensures r.0 != 0 ==> r.0 == 1 && r.1 == env
    ensures r.0 == 0 ==>
      && r.1.Some?
      && FindEnvVar(r.1.value, envvar.value)
         == Some(EnvVar(envvar.value, DataOf(env.value, envvar.value) + [elem.value]))
      && forall m :: m != envvar.value ==> FindEnvVar(r.1.value, m) == FindEnvVar(env.value, m)
  {
    if env.None? || envvar.None? || elem.None? || envvar.value == "" || elem.value == "" then
      (1, env)
    else
      var list, name, e := env.value, envvar.value, elem.value;
      match FindEnvVar(list, name)
      case None =>
        InsertFacts(list, EnvVar(name, [e]));
        assert DataOf(list, name) + [e] == [e];
        (0, Some(AppendEnvVar(list, EnvVar(name, [e]))))
      case Some(ev) =>
        var i := IndexOf(list, name);
        FindAt(list, i);
        UpdateFacts(list, i, ev.data + [e]);
        (0, Some(list[i := EnvVar(name, ev.data + [e])]))
  }

  /**
   * Asc_GetPathList: the count and the elements of a variable; -1 without
   * a store or a name, 0 and NULL for the empty name or an unknown variable.
   */
  function GetPathList(env: Env, envvar: Option<string>): (r: (int, Option<seq<string>>))
    ensures r.0 == -1 <==> env.None? || envvar.None?
    ensures r.1.Some? <==>
      env.Some? && envvar.Some? && envvar.value != "" && FindEnvVar(env.value, envvar.value).Some?
    ensures r.1.Some? ==> r.0 == |r.1.value| && r.1.value == DataOf(env.value, envvar.value)
    ensures r.0 != -1 && r.1.None? ==> r.0 == 0
  {
    if env.None? || envvar.None? then (-1, None)
    else if envvar.value == "" then (0, None)
    else
      match FindEnvVar(env.value, envvar.value)
      case None => (0, None)
      case Some(ev) => (|ev.data|, Some(ev.data))
  }

  /** Each element followed by the separator ':', as Asc_GetEnv writes them. */
  function Terminated(elems: seq<string>): (t: string)
    ensures |t| >= |elems|
    ensures |t| == BufferLength(elems)
  {
    if |elems| == 0 then "" else elems[0] + ":" + Terminated(elems[1..])
  }

  /** slen of Asc_GetEnv, counted in characters: each element's length plus one for its separator or terminator. */
  function BufferLength(elems: seq<string>): nat {
    if |elems| == 0 then 0 else |elems[0]| + 1 + BufferLength(elems[1..])
  }

  /**
   * The elements separated by ':': the terminated text without its last
   * separator, which is where Asc_GetEnv writes the terminating NUL.
   */
  function Join(elems: seq<string>): (r: string)
    ensures |elems| == 0 ==> r == ""
    ensures |elems| > 0 ==> |r| == BufferLength(elems) - 1
  {
    var t := Terminated(elems);
    if |t| == 0 then "" else t[..|t| - 1]
  }

  /** Join as the usual separated list, independently of Terminated. */
  lemma {:induction false} JoinCons(elems: seq<string>)
    ensures |elems| == 0 ==> Join(elems) == ""
    ensures |elems| == 1 ==> Join(elems) == elems[0]
    ensures |elems| >= 2 ==> Join(elems) == elems[0] + ":" + Join(elems[1..])
  {
    if |elems| == 1 {
      assert Terminated(elems) == elems[0] + ":" + "";
    } else if |elems| >= 2 {
      var t := Terminated(elems[1..]);
      assert Terminated(elems) == elems[0] + ":" + t;
      assert |t| > 0;
      assert (elems[0] + ":" + t)[..|elems[0] + ":" + t| - 1] == elems[0] + ":" + t[..|t| - 1];
    }
  }

  /** Asc_GetEnv with the zero-element case returning the empty string. */
  function GetEnv(env: Env, envvar: Option<string>): (r: Option<string>)
    ensures r.Some? <==>
      env.Some? && envvar.Some? && envvar.value != "" && FindEnvVar(env.value, envvar.value).Some?
    ensures r.Some? ==> r.value == Join(DataOf(env.value, envvar.value))
  {
    if env.None? || envvar.None? || envvar.value == "" then None
    else
      match FindEnvVar(env.value, envvar.value)
      case None => None
      case Some(ev) => Some(Join(ev.data))
  }

  /**
   * Asc_GetEnv as written: the buffer holds slen+1 bytes and the final
   * separator at slen-1 is overwritten; slen is unsigned, so a variable
   * with no elements writes at index 2^32-1.
   */
  function GetEnvAsWritten(env: Env, envvar: Option<string>): (r: Outcome<Option<string>>)
    ensures r.OutOfBounds? <==> GetEnv(env, envvar) == Some("") && |DataOf(env.value, envvar.value)| == 0
    ensures r.Done? ==> r.value == GetEnv(env, envvar)
  {
    if env.None? || envvar.None? || envvar.value == "" then Done(None)
    else
      match FindEnvVar(env.value, envvar.value)
      case None => Done(None)
      case Some(ev) =>
        var t := Terminated(ev.data);
        if |t| == 0 then OutOfBounds else Done(Some(t[..|t| - 1]))
  }

  /** Asc_EnvNames: the number of variables and their names, -1 without a store. */
  function EnvNames(env: Env): (r: (int, Option<seq<string>>))
    requires ValidEnv(env)
    ensures r.0 == -1 <==> env.None?
    ensures r.1.Some? <==> env.Some?
    ensures r.1.Some? ==>
      && r.0 == |r.1.value| == |env.value|
      && (forall n :: n in r.1.value <==> FindEnvVar(env.value, n).Some?)
      && (forall i, j :: 0 <= i < j < |r.1.value| ==> StrCmp(r.1.value[i], r.1.value[j]) < 0)
  {
    if env.None? then (-1, None)
    else
      var list := env.value;
      var names := Names(list);
      NamesFacts(list);
      (|list|, Some(names))
  }

  function Names(list: seq<EnvVar>): (names: seq<string>)
    ensures |names| == |list| && forall i :: 0 <= i < |list| ==> names[i] == list[i].name
  {
    seq(|list|, i requires 0 <= i < |list| => list[i].name)
  }

  lemma NamesFacts(list: seq<EnvVar>)
    ensures forall n :: n in Names(list) <==> FindEnvVar(list, n).Some?
  {
    var names := Names(list);
    forall n | FindEnvVar(list, n).Some?
      ensures n in names
    {
      var ev := FindEnvVar(list, n).value;
      var j :| 0 <= j < |list| && list[j] == ev;
      assert names[j] == n;
    }
  }
}

=== FILE: flag_words.dfy ===
/**
 * Word-level operations on the 32-bit flag word of a solver variable
 * (base/generic/solver/var.c), each with its meaning stated bit-wise
 * through masks, and the laws the accessors inherit from them.
 */
module FlagWords {
  /** The bits of one that are set in flags. */
  function MaskedBits(flags: bv32, one: bv32): bv32 {
    flags & one
  }

  /** MaskedBits reports no bit outside one, and every bit of one that flags has. */
  lemma MaskedBitsMeaning(flags: bv32, one: bv32)
    ensures MaskedBits(flags, one) & !one == 0
    ensures MaskedBits(flags, one) & one == flags & one
  {
  }

  /** flags with the bits of field set (one != 0) or cleared (one == 0). */
  function SetBits(flags: bv32, field: bv32, one: bv32): bv32 {
    if one != 0 then flags | field else flags & !field
  }

  /** SetBits makes the bits of field all one or all zero. */
  lemma SetBitsField(flags: bv32, field: bv32, one: bv32)
    ensures SetBits(flags, field, one) & field == (if one != 0 then field else 0)
  {
  }

  /** SetBits keeps every bit outside field. */
  lemma SetBitsRest(flags: bv32, field: bv32, one: bv32)
    ensures SetBits(flags, field, one) & !field == flags & !field
  {
  }

  /** The comparison var_apply_filter makes: flags and matchvalue masked by matchbits. */
  function Matches(flags: bv32, matchbits: bv32, matchvalue: bv32): bool {
    matchbits & flags == matchbits & matchvalue
  }

  /** A matching word agrees with matchvalue on every mask inside matchbits. */
  lemma MatchesAgree(flags: bv32, matchbits: bv32, matchvalue: bv32, b: bv32)
    requires Matches(flags, matchbits, matchvalue) && b & matchbits == b
    ensures flags & b == matchvalue & b
  {
  }

  /** A word that disagrees with matchvalue on some mask inside matchbits does not match. */
  lemma DisagreeRejects(flags: bv32, matchbits: bv32, matchvalue: bv32, b: bv32)
    requires b & matchbits == b && flags & b != matchvalue & b
    ensures !Matches(flags, matchbits, matchvalue)
  {
  }

  /** A word that does not match disagrees on the selected bits where the two differ. */
  lemma MismatchWitness(flags: bv32, matchbits: bv32, matchvalue: bv32)
    requires !Matches(flags, matchbits, matchvalue)
    ensures var b := (flags ^ matchvalue) & matchbits;
      b != 0 && b & matchbits == b && flags & b != matchvalue & b
  {
  }

  /** Setting then clearing a field clears it and keeps every other bit. */
  lemma ClearAfterSet(flags: bv32, field: bv32)
    ensures SetBits(SetBits(flags, field, 1), field, 0) == flags & !field
  {
  }

  /**
   * After a field is set (or cleared), a filter that looks only inside that
   * field matches exactly when it asks for those bits set (or clear).
   */
  lemma MatchesAfterSetBits(flags: bv32, field: bv32, one: bv32, mb: bv32, mv: bv32)
    requires mb & !field == 0
    ensures Matches(SetBits(flags, field, one), mb, mv) <==> mv & mb == (if one != 0 then mb else 0)
  {
  }
}

=== FILE: fractions.dfy ===
/**
 * Exact rational exponents, as the dimension engine uses them.
 *
 * The fraction module of the system is not part of this model: a fraction
 * is an (unbounded) numerator and a positive denominator in lowest terms,
 * and AddF/SubF/MultF/CmpF are the exact rational operations on them.
 * `Value` gives the rational a fraction denotes, so that contracts can be
 * stated in ordinary arithmetic.
 */
module Fractions {

  datatype Frac = Frac(num: int, den: int)

  /** Greatest common divisor by Euclid's algorithm. */
  function Gcd(a: nat, b: nat): nat
    decreases b
  {
    if b == 0 then a else Gcd(b, a % b)
  }

  /** Coefficients of Bezout's identity for `Gcd(a, b)` (extended Euclid). */
  function Bezout(a: nat, b: nat): (r: (int, int))
    ensures r.0 * a + r.1 * b == Gcd(a, b)
    decreases b
  {
    if b == 0 then (1, 0)
    else
      var (x, y) := Bezout(b, a % b);
      BezoutStep(a, b, a / b, a % b, x, y, Gcd(b, a % b));
      (y, x - y * (a / b))
  }

  /** One step of extended Euclid: coefficients for (b, a % b) give coefficients for (a, b). */
  lemma BezoutStep(a: int, b: int, q: int, r: int, x: int, y: int, g: int)
    requires a == q * b + r && x * b + y * r == g
    ensures y * a + (x - y * q) * b == g
  {
    assert y * a == y * (q * b) + y * r;
    assert (x - y * q) * b == x * b - (y * q) * b;
    assert y * (q * b) == (y * q) * b;
  }

  function Abs(n: int): nat { if n < 0 then -n else n }

  /** A fraction in the normal form the fraction module keeps: positive denominator, lowest terms. */
  predicate Valid(f: Frac) {
    f.den > 0 && Gcd(Abs(f.num), f.den) == 1
  }

  /** The rational number a fraction denotes. */
  ghost function Value(f: Frac): real
    requires f.den > 0
  {
    f.num as real / f.den as real
  }

  /** `a` is `m` times `b`, for `m` of either sign. */
  lemma MulAbs(m: int, b: int)
    ensures Abs(m * b) == Abs(m) * Abs(b)
  {
    if m < 0 && b < 0 { assert m * b == (-m) * (-b); }
    else if m < 0 { assert -(m * b) == (-m) * b; }
    else if b < 0 { assert -(m * b) == m * (-b); }
  }

  /** Euclid's gcd divides both of its arguments. */
  lemma {:induction false} GcdDivides(a: nat, b: nat)
    requires a > 0 || b > 0
    ensures Gcd(a, b) > 0
    ensures a == Gcd(a, b) * (a / Gcd(a, b))
    ensures b == Gcd(a, b) * (b / Gcd(a, b))
    decreases b
  {
    if b != 0 {
      var g := Gcd(b, a % b);
      GcdDivides(b, a % b);
      CombineMultiples(a, b, g, b / g, (a % b) / g);
    }
  }

  /** If g divides b and a % b, it divides a. */
  lemma CombineMultiples(a: nat, b: nat, g: int, k1: int, k2: int)
    requires b > 0 && g > 0 && b == g * k1 && a % b == g * k2
    ensures a == g * (a / g)
  {
    var q := a / b;
    assert a == q * b + a % b;
    assert q * b == g * (q * k1) by {
      assert q * (g * k1) == g * (q * k1);
    }
    var m := q * k1 + k2;
    assert a == g * m;
    MulDiv(g, m);
  }

  /** Exact division undoes multiplication. */
  lemma MulDiv(g: int, m: int)
    requires g > 0
    ensures (g * m) / g == m
  {
    var n := g * m;
    var q := n / g;
    assert n == g * q + n % g && 0 <= n % g < g;
    assert g * (m - q) == n % g;
    OnlyZeroIsSmallMultiple(g, m - q);
  }

  /** The only multiple of a positive g in [0, g) is 0. */
  lemma OnlyZeroIsSmallMultiple(g: int, k: int)
    requires g > 0 && 0 <= g * k < g
    ensures k == 0
  {
    MulSign(g, k);
  }

  /** Multiplying by a positive g keeps k's side of 0 and does not shrink it. */
  lemma MulSign(g: int, k: int)
    requires g > 0
    ensures k >= 1 ==> g * k >= g
    ensures k <= -1 ==> g * k <= -g
  {
    if k >= 1 {
      assert g * k == g * (k - 1) + g;
    }
    if k <= -1 {
      assert g * k == g * (k + 1) - g;
    }
  }

  /** A positive number that is a multiple of a positive `d` is at least `d`. */
  lemma MultipleAtLeast(d: int, k: int)
    requires d > 0 && d * k > 0
    ensures d * k >= d
  {
    MulSign(d, k);
  }

  /** A positive factor cancels from both sides of an equation. */
  lemma Cancel(c: int, x: int, y: int)
    requires c > 0 && c * x == c * y
    ensures x == y
  {
    MulDiv(c, x);
    MulDiv(c, y);
  }

  /**
   * CreateFraction: the normal form of n/d. Every fraction the model
   * stores is built here.
   */
  function MakeFrac(n: int, d: int): (r: Frac)
    requires d > 0
    ensures Valid(r)
    ensures Value(r) == n as real / d as real
    ensures Abs(r.num) <= Abs(n)
  {
    var g := Gcd(Abs(n), d);
    GcdDivides(Abs(n), d);
    var p := n / g;
    var q := d / g;
    MakeFracFacts(n, d, g, p, q);
    Frac(p, q)
  }

  lemma MakeFracFacts(n: int, d: int, g: int, p: int, q: int)
    requires d > 0 && g == Gcd(Abs(n), d) && g > 0
    requires Abs(n) == g * (Abs(n) / g) && d == g * (d / g)
    requires p == n / g && q == d / g
    ensures q > 0 && Gcd(Abs(p), q) == 1
    ensures p as real / q as real == n as real / d as real
    ensures Abs(p) <= Abs(n)
  {
    QuotientFacts(n, g, p);
    QuotientFacts(d, g, q);
    PositiveFactor(g, q);
    QuotientValue(n, d, g, p, q);
    MultipleAtLeastAbs(g, Abs(p));
    QuotientCoprime(n, d, g, p, q);
  }

  lemma PositiveFactor(g: int, q: int)
    requires g > 0 && g * q > 0
    ensures q > 0
  {
    MulSign(g, q);
  }

  lemma QuotientValue(n: int, d: int, g: int, p: int, q: int)
    requires g > 0 && q > 0 && n == g * p && d == g * q
    ensures p as real / q as real == n as real / d as real
  {
    RealMul(g, p);
    RealMul(g, q);
    RealCancel(g as real, p as real, q as real);
  }

  /** Dividing n by one of its divisors g gives p with n == g * p. */
  lemma QuotientFacts(n: int, g: int, p: int)
    requires g > 0 && Abs(n) == g * (Abs(n) / g) && p == n / g
    ensures n == g * p && Abs(n) == g * Abs(p)
  {
    var a := Abs(n) / g;
    if n < 0 {
      assert n == g * (-a);
      MulDiv(g, -a);
    } else {
      MulDiv(g, a);
    }
    MulAbs(g, p);
  }

  /** Dividing out the gcd leaves coprime parts. */
  lemma QuotientCoprime(n: int, d: int, g: int, p: int, q: int)
    requires d > 0 && g == Gcd(Abs(n), d) && g > 0 && q > 0
    requires Abs(n) == g * Abs(p) && d == g * q
    ensures Gcd(Abs(p), q) == 1
  {
    var xy := Bezout(Abs(n), d);
    var P := Abs(p);
    ScaledCombination(xy.0, xy.1, g, P, q);
    CoprimeFromBezout(P, q, xy.0, xy.1);
  }

  lemma ScaledCombination(x: int, y: int, g: int, P: int, q: int)
    requires g > 0 && x * (g * P) + y * (g * q) == g
    ensures x * P + y * q == 1
  {
    assert x * (g * P) + y * (g * q) == g * (x * P + y * q);
    Cancel(g, x * P + y * q, 1);
  }

  lemma MultipleAtLeastAbs(g: int, a: nat)
    requires g > 0
    ensures a <= g * a
  {
    assert g * a == (g - 1) * a + a;
    assert (g - 1) * a >= 0;
  }

  lemma RealMul(a: int, b: int)
    ensures (a * b) as real == a as real * b as real
  {
  }

  lemma RealCancel(g: real, p: real, q: real)
    requires g > 0.0 && q > 0.0
    ensures (g * p) / (g * q) == p / q
  {
  }

  /** If some combination of a and b is 1, their gcd is 1. */
  lemma CoprimeFromBezout(a: nat, b: nat, x: int, y: int)
    requires b > 0 && x * a + y * b == 1
    ensures Gcd(a, b) == 1
  {
    var g := Gcd(a, b);
    GcdDivides(a, b);
    var ka := a / g;
    var kb := b / g;
    FactorCombination(g, ka, kb, x, y);
    MultipleAtLeast(g, x * ka + y * kb);
  }

  lemma FactorCombination(g: int, ka: int, kb: int, x: int, y: int)
    ensures x * (g * ka) + y * (g * kb) == g * (x * ka + y * kb)
  {
    assert x * (g * ka) == g * (x * ka);
    assert y * (g * kb) == g * (y * kb);
  }

  /** Two fractions in normal form that denote the same rational are the same fraction. */
  lemma {:induction false} Canonical(a: Frac, b: Frac)
    requires Valid(a) && Valid(b) && Value(a) == Value(b)
    ensures a == b
  {
    CrossEqual(a, b);
    DenDivides(a, b);
    DenDivides(b, a);
    assert a.den == b.den;
    assert a.den * a.num == a.den * b.num;
    Cancel(a.den, a.num, b.num);
  }

  lemma CrossEqual(a: Frac, b: Frac)
    requires a.den > 0 && b.den > 0 && Value(a) == Value(b)
    ensures a.num * b.den == b.num * a.den
  {
    var va := a.num as real / a.den as real;
    assert a.num as real == va * a.den as real;
    assert b.num as real == va * b.den as real;
    assert (a.num * b.den) as real == a.num as real * b.den as real;
    assert (b.num * a.den) as real == b.num as real * a.den as real;
  }

  /** From cross-multiplied equality and coprimality of `a`: a.den <= b.den. */
  lemma DenDivides(a: Frac, b: Frac)
    requires Valid(a) && b.den > 0 && a.num * b.den == b.num * a.den
    ensures a.den <= b.den
  {
    var (x, y) := Bezout(Abs(a.num), a.den);
    assert x * Abs(a.num) + y * a.den == 1;
    MulAbs(a.num, b.den);
    MulAbs(b.num, a.den);
    assert Abs(a.num) * b.den == Abs(b.num) * a.den;
    ScaleBezout(Abs(a.num), a.den, Abs(b.num), b.den, x, y);
    MultipleAtLeast(a.den, x * Abs(b.num) + y * b.den);
  }

  /** If x*A + y*D == 1 and A*E == B*D, then D divides E. */
  lemma ScaleBezout(A: int, D: int, B: int, E: int, x: int, y: int)
    requires x * A + y * D == 1 && A * E == B * D
    ensures E == D * (x * B + y * E)
  {
    calc {
      E;
      (x * A + y * D) * E;
      { assert (x * A + y * D) * E == x * (A * E) + (y * D) * E; }
      x * (A * E) + (y * D) * E;
      x * (B * D) + (y * D) * E;
      { assert x * (B * D) == D * (x * B) && (y * D) * E == D * (y * E); }
      D * (x * B) + D * (y * E);
    }
  }

  /** AddF: the normal form of a + b. */
  function AddF(a: Frac, b: Frac): (r: Frac)
    requires Valid(a) && Valid(b)
    ensures Valid(r) && Value(r) == Value(a) + Value(b)
  {
    var r := MakeFrac(a.num * b.den + b.num * a.den, a.den * b.den);
    SumValue(a, b);
    r
  }

  /** SubF: the normal form of a - b. */
  function SubF(a: Frac, b: Frac): (r: Frac)
    requires Valid(a) && Valid(b)
    ensures Valid(r) && Value(r) == Value(a) - Value(b)
  {
    var r := MakeFrac(a.num * b.den - b.num * a.den, a.den * b.den);
    DiffValue(a, b);
    r
  }

  /** MultF: the normal form of a * b. */
  function MultF(a: Frac, b: Frac): (r: Frac)
    requires Valid(a) && Valid(b)
    ensures Valid(r) && Value(r) == Value(a) * Value(b)
    ensures Abs(r.num) <= Abs(a.num * b.num)
  {
    var r := MakeFrac(a.num * b.num, a.den * b.den);
    ProductValue(a, b);
    r
  }

  lemma SumValue(a: Frac, b: Frac)
    requires a.den > 0 && b.den > 0
    ensures (a.num * b.den + b.num * a.den) as real / (a.den * b.den) as real == Value(a) + Value(b)
  {
    var A, B, C, D := a.num as real, a.den as real, b.num as real, b.den as real;
    assert (a.num * b.den + b.num * a.den) as real == A * D + C * B;
    assert (a.den * b.den) as real == B * D;
    assert (A * D + C * B) / (B * D) == A / B + C / D;
  }

  lemma DiffValue(a: Frac, b: Frac)
    requires a.den > 0 && b.den > 0
    ensures (a.num * b.den - b.num * a.den) as real / (a.den * b.den) as real == Value(a) - Value(b)
  {
    var A, B, C, D := a.num as real, a.den as real, b.num as real, b.den as real;
    assert (a.num * b.den - b.num * a.den) as real == A * D - C * B;
    assert (a.den * b.den) as real == B * D;
    assert (A * D - C * B) / (B * D) == A / B - C / D;
  }

  lemma ProductValue(a: Frac, b: Frac)
    requires a.den > 0 && b.den > 0
    ensures (a.num * b.num) as real / (a.den * b.den) as real == Value(a) * Value(b)
  {
    var A, B, C, D := a.num as real, a.den as real, b.num as real, b.den as real;
    assert (a.num * b.num) as real == A * C;
    assert (a.den * b.den) as real == B * D;
    assert (A * C) / (B * D) == (A / B) * (C / D);
  }

  /** CmpF: -1, 0 or 1 as a is less than, equal to or greater than b. */
  function CmpF(a: Frac, b: Frac): (r: int)
    requires a.den > 0 && b.den > 0
    ensures r == -1 || r == 0 || r == 1
    ensures r < 0 <==> Value(a) < Value(b)
    ensures r == 0 <==> Value(a) == Value(b)
  {
    var l := a.num * b.den;
    var h := b.num * a.den;
    CrossOrder(a, b);
    if l < h then -1 else if l == h then 0 else 1
  }

  lemma CrossOrder(a: Frac, b: Frac)
    requires a.den > 0 && b.den > 0
    ensures a.num * b.den < b.num * a.den <==> Value(a) < Value(b)
    ensures a.num * b.den == b.num * a.den <==> Value(a) == Value(b)
  {
    var A, B, C, D := a.num as real, a.den as real, b.num as real, b.den as real;
    assert (a.num * b.den) as real == A * D;
    assert (b.num * a.den) as real == C * B;
    assert A / B - C / D == (A * D - C * B) / (B * D);
  }

  /** The fraction 0/1, the exponent of an absent base dimension. */
  const Zero := Frac(0, 1)
  /** The fraction 1/1. */
  const One := Frac(1, 1)

  /** A fraction whose denominator is 1, i.e. an integral exponent. */
  function Integer(n: int): (r: Frac)
    ensures Valid(r) && Value(r) == n as real && r.num == n && r.den == 1
  {
    assert Gcd(Abs(n), 1) == 1 by { assert Abs(n) % 1 == 0; }
    Frac(n, 1)
  }
}

=== FILE: func_registry.dfy ===
/**
 * The registry of intrinsic real functions of ascend/compiler/func.c: a
 * fixed table of descriptors, lookup by name and by id, field accessors,
 * and the dimension each function demands of its argument. The
 * evaluators and their derivatives are floating point and are not part
 * of a descriptor here; `haveErf` stands for the HAVE_ERF build switch.
 */
module FuncRegistry {
  import opened Options
  import opened Dimen
  import opened DimenStore

  /** The ids of enum Func_enum that the registry uses. */
  datatype FuncKind =
    | Log10 | Ln | Exp | Sin | Cos | Tan | Sqr | Sqrt | ArcSin | ArcCos | ArcTan
    | Erf | Lnm | Sinh | Cosh | Tanh | ArcSinh | ArcCosh | ArcTanh | Cube | Cbrt | Abs | Hold

  /** A descriptor: ASCEND name, C name, Yacas name, first and second derivative C names, id. */
  datatype Func = Func(name: string, cname: string, yname: string,
                       deriv1cname: string, deriv2cname: string, id: FuncKind)

  const ExpF := Func("exp", "exp", "Exp", "exp", "exp", Exp)
  const LnF := Func("ln", "log", "Ln", "dln", "dln2", Ln)
  const LnmF := Func("lnm", "lnm", "Lnm", "dlnm", "dlnm2", Lnm)
  const Log10F := Func("log10", "log10", "Log10", "dlog10", "dlog102", Log10)
  const SinF := Func("sin", "sin", "Sin", "cos", "dcos", Sin)
  const CosF := Func("cos", "cos", "Cos", "dcos", "dcos2", Cos)
  const TanF := Func("tan", "tan", "Tan", "dtan", "dtan2", Tan)
  const SqrF := Func("sqr", "sqr", "Sqr", "dsqr", "dsqr2", Sqr)
  const SqrtF := Func("sqrt", "sqrt", "Sqrt", "dsqrt", "dsqrt2", Sqrt)
  const AbsF := Func("abs", "fabs", "Abs", "dfabs", "dfabs2", Abs)
  const HoldF := Func("hold", "hold", "Hold", "dhold", "dhold2", Hold)
  const ArcSinF := Func("arcsin", "asin", "ArcSin", "dasin", "dasin2", ArcSin)
  const ArcCosF := Func("arccos", "acos", "ArcCos", "dacos", "dacos2", ArcCos)
  const ArcTanF := Func("arctan", "atan", "ArcTan", "datan", "datan2", ArcTan)
  const ErfF := Func("erf", "erf", "Erf", "derf", "derf2", Erf)
  const SinhF := Func("sinh", "sinh", "Sinh", "cosh", "sinh", Sinh)
  const CoshF := Func("cosh", "cosh", "Cosh", "sinh", "cosh", Cosh)
  const TanhF := Func("tanh", "tanh", "Tanh", "dtanh", "dtanh2", Tanh)
  const ArcSinhF := Func("arcsinh", "arcsinh", "ArcSinh", "darcsinh", "darcsinh2", ArcSinh)
  const ArcCoshF := Func("arccosh", "arccosh", "ArcCosh", "darccosh", "darccosh2", ArcCosh)
  const ArcTanhF := Func("arctanh", "arctanh", "ArcTanh", "darctanh", "darctanh2", ArcTanh)
  const CubeF := Func("cube", "cube", "Cube", "dcube", "dcube2", Cube)
  const CbrtF := Func("cbrt", "cbrt", "Cbrt", "dcbrt", "dcbrt2", Cbrt)

  /** The entries of g_func_list before erf, in two runs, and the entries after it, in two runs. */
  const Front1 := [Log10F, LnF, ExpF, SinF, CosF, TanF]
  const Front2 := [SqrF, SqrtF, ArcSinF, ArcCosF, ArcTanF]
  const Back1 := [LnmF, SinhF, CoshF, TanhF, ArcSinhF, ArcCoshF]
  const Back2 := [ArcTanhF, CubeF, CbrtF, AbsF, HoldF]

  /** g_func_list without its NULL terminator; erf is listed only when the build has it. */
  function FuncList(haveErf: bool): seq<Func> {
    Front1 + Front2 + (if haveErf then [ErfF] else []) + Back1 + Back2
  }

  /** The first descriptor of `list` with the given name, or None once the list is exhausted. */
  function LookupIn(list: seq<Func>, name: string): (r: Option<Func>)
    ensures r.Some? ==> exists k :: (0 <= k < |list| && list[k] == r.value && r.value.name == name
      && forall j :: 0 <= j < k ==> list[j].name != name)
    ensures r.None? <==> forall k :: 0 <= k < |list| ==> list[k].name != name
  {
    if |list| == 0 then None
    else if list[0].name == name then Some(list[0])
    else
      var r := LookupIn(list[1..], name);
      assert forall k :: 1 <= k < |list| ==> list[k] == list[1..][k - 1];
      if r.Some? then
        var k :| 0 <= k < |list[1..]| && list[1..][k] == r.value && r.value.name == name
          && forall j :: 0 <= j < k ==> list[1..][j].name != name;
        assert list[k + 1] == r.value;
        r
      else r
  }

  /** The first descriptor of `list` with the given id, or None. */
  function LookupIdIn(list: seq<Func>, id: FuncKind): (r: Option<Func>)
    ensures r.Some? ==> exists k :: (0 <= k < |list| && list[k] == r.value && r.value.id == id
      && forall j :: 0 <= j < k ==> list[j].id != id)
    ensures r.None? <==> forall k :: 0 <= k < |list| ==> list[k].id != id
  {
    if |list| == 0 then None
    else if list[0].id == id then Some(list[0])
    else
      var r := LookupIdIn(list[1..], id);
      assert forall k :: 1 <= k < |list| ==> list[k] == list[1..][k - 1];
      if r.Some? then
        var k :| 0 <= k < |list[1..]| && list[1..][k] == r.value && r.value.id == id
          && forall j :: 0 <= j < k ==> list[1..][j].id != id;
        assert list[k + 1] == r.value;
        r
      else r
  }

  /** LookupFunc: the registry entry with this name, or NULL. */
  function LookupFunc(haveErf: bool, name: string): (r: Option<Func>)
    ensures r.Some? ==> r.value in FuncList(haveErf) && r.value.name == name
    ensures r.None? <==> forall k :: 0 <= k < |FuncList(haveErf)| ==> FuncList(haveErf)[k].name != name
  {
    LookupIn(FuncList(haveErf), name)
  }

  /** LookupFuncById: the registry entry with this id, or NULL. */
  function LookupFuncById(haveErf: bool, id: FuncKind): (r: Option<Func>)
    ensures r.Some? ==> r.value in FuncList(haveErf) && r.value.id == id
    ensures r.None? <==> forall k :: 0 <= k < |FuncList(haveErf)| ==> FuncList(haveErf)[k].id != id
  {
    LookupIdIn(FuncList(haveErf), id)
  }

  /** No two entries share a name or an id. */
  predicate Distinct(l: seq<Func>) {
    forall i, j :: 0 <= i < j < |l| ==> l[i].name != l[j].name && l[i].id != l[j].id
  }

  /** No entry of a shares a name or an id with an entry of b. */
  predicate Apart(a: seq<Func>, b: seq<Func>) {
    forall i, j :: 0 <= i < |a| && 0 <= j < |b| ==> a[i].name != b[j].name && a[i].id != b[j].id
  }

  lemma DistinctConcat(a: seq<Func>, b: seq<Func>)
    requires Distinct(a) && Distinct(b) && Apart(a, b)
    ensures Distinct(a + b)
  {
    var l := a + b;
    forall i, j | 0 <= i < j < |l|
      ensures l[i].name != l[j].name && l[i].id != l[j].id
    {
      if j < |a| {
        assert l[i] == a[i] && l[j] == a[j];
      } else if i < |a| {
        assert l[i] == a[i] && l[j] == b[j - |a|];
      } else {
        assert l[i] == b[i - |a|] && l[j] == b[j - |a|];
      }
    }
  }

  lemma ApartConcat(a: seq<Func>, b: seq<Func>, c: seq<Func>)
    requires Apart(a, c) && Apart(b, c)
    ensures Apart(a + b, c)
  {
    forall i, j | 0 <= i < |a + b| && 0 <= j < |c|
      ensures (a + b)[i].name != c[j].name && (a + b)[i].id != c[j].id
    {
      if i < |a| { assert (a + b)[i] == a[i]; } else { assert (a + b)[i] == b[i - |a|]; }
    }
  }

  lemma ApartSwap(a: seq<Func>, b: seq<Func>)
    requires Apart(a, b)
    ensures Apart(b, a)
  {
  }

  lemma RunsDistinct()
    ensures Distinct(Front1) && Distinct(Front2) && Distinct(Back1) && Distinct(Back2)
  {
    Front1Distinct();
    Front2Distinct();
    Back1Distinct();
    Back2Distinct();
  }

  lemma Front1Distinct() ensures Distinct(Front1) {}
  lemma Front2Distinct() ensures Distinct(Front2) {}
  lemma Back1Distinct() ensures Distinct(Back1) {}
  lemma Back2Distinct() ensures Distinct(Back2) {}

  lemma FrontApart()
    ensures Apart(Front1, Front2)
  {
  }

  lemma BackApart()
    ensures Apart(Back1, Back2)
  {
  }

  lemma Front1Back()
    ensures Apart(Front1, Back1) && Apart(Front1, Back2)
  {
  }

  lemma Front2Back()
    ensures Apart(Front2, Back1) && Apart(Front2, Back2)
  {
  }

  lemma ErfApart()
    ensures Apart([ErfF], Front1) && Apart([ErfF], Front2) && Apart([ErfF], Back1) && Apart([ErfF], Back2)
  {
  }

  /** The runs before erf are distinct from each other, from erf, and from the runs after it. */
  lemma FrontFacts()
    ensures Distinct(Front1 + Front2)
    ensures Apart(Front1 + Front2, Back1 + Back2) && Apart(Front1 + Front2, [ErfF])
  {
    RunsDistinct();
    FrontApart();
    DistinctConcat(Front1, Front2);
    Front1Back();
    Front2Back();
    ApartSwap(Front1, Back1);
    ApartSwap(Front1, Back2);
    ApartSwap(Front2, Back1);
    ApartSwap(Front2, Back2);
    ApartConcat(Back1, Back2, Front1);
    ApartConcat(Back1, Back2, Front2);
    ApartSwap(Back1 + Back2, Front1);
    ApartSwap(Back1 + Back2, Front2);
    ApartConcat(Front1, Front2, Back1 + Back2);
    ErfApart();
    ApartSwap([ErfF], Front1);
    ApartSwap([ErfF], Front2);
    ApartConcat(Front1, Front2, [ErfF]);
  }

  lemma BackFacts()
    ensures Distinct(Back1 + Back2) && Apart([ErfF], Back1 + Back2)
  {
    RunsDistinct();
    BackApart();
    DistinctConcat(Back1, Back2);
    ErfApart();
    ApartSwap([ErfF], Back1);
    ApartSwap([ErfF], Back2);
    ApartConcat(Back1, Back2, [ErfF]);
    ApartSwap(Back1 + Back2, [ErfF]);
  }

  /** No two entries of the registry share a name or an id. */
  lemma RegistryDistinct(haveErf: bool)
    ensures var l := FuncList(haveErf);
      forall i, j :: 0 <= i < j < |l| ==> l[i].name != l[j].name && l[i].id != l[j].id
  {
    var f := Front1 + Front2;
    var e: seq<Func> := if haveErf then [ErfF] else [];
    var b := Back1 + Back2;
    FrontFacts();
    BackFacts();
    assert Distinct(e) && Apart(e, b);
    DistinctConcat(e, b);
    ApartConcat(e, b, f) by {
      ApartSwap(f, b);
      ApartSwap(f, [ErfF]);
    }
    ApartSwap(e + b, f);
    DistinctConcat(f, e + b);
    assert FuncList(haveErf) == f + (e + b);
  }

  /** In a list with distinct names, looking up an entry's name finds that entry. */
  lemma {:induction false} LookupOwnName(list: seq<Func>, k: nat)
    requires k < |list|
    requires forall i, j :: 0 <= i < j < |list| ==> list[i].name != list[j].name
    ensures LookupIn(list, list[k].name) == Some(list[k])
  {
    var r := LookupIn(list, list[k].name);
    assert r.Some?;
    var m :| 0 <= m < |list| && list[m] == r.value && r.value.name == list[k].name
      && forall j :: 0 <= j < m ==> list[j].name != list[k].name;
    assert m == k;
  }

  /** In a list with distinct ids, looking up an entry's id finds that entry. */
  lemma {:induction false} LookupOwnId(list: seq<Func>, k: nat)
    requires k < |list|
    requires forall i, j :: 0 <= i < j < |list| ==> list[i].id != list[j].id
    ensures LookupIdIn(list, list[k].id) == Some(list[k])
  {
    var r := LookupIdIn(list, list[k].id);
    assert r.Some?;
    var m :| 0 <= m < |list| && list[m] == r.value && r.value.id == list[k].id
      && forall j :: 0 <= j < m ==> list[j].id != list[k].id;
    assert m == k;
  }

  /** Every registered function is found again by its own name and by its own id. */
  lemma LookupRoundTrip(haveErf: bool, f: Func)
    requires f in FuncList(haveErf)
    ensures LookupFunc(haveErf, f.name) == Some(f)
    ensures LookupFuncById(haveErf, f.id) == Some(f)
  {
    var l := FuncList(haveErf);
    RegistryDistinct(haveErf);
    var k :| 0 <= k < |l| && l[k] == f;
    LookupOwnName(l, k);
    LookupOwnId(l, k);
  }

  /** Without HAVE_ERF, neither the name "erf" nor its id is registered. */
  lemma ErfAbsent()
    ensures LookupFunc(false, "erf") == None
    ensures LookupFuncById(false, Erf) == None
  {
    NoErfEntry();
  }

  lemma NoErfEntry()
    ensures forall k :: 0 <= k < |FuncList(false)| ==> FuncList(false)[k].name != "erf" && FuncList(false)[k].id != Erf
  {
    FrontFacts();
    BackFacts();
    ApartSwap(Front1 + Front2, [ErfF]);
    ApartConcat(Front1 + Front2, Back1 + Back2, [ErfF]) by {
      ApartSwap([ErfF], Back1 + Back2);
    }
    assert FuncList(false) == (Front1 + Front2) + (Back1 + Back2);
    assert forall k :: 0 <= k < |FuncList(false)| ==> FuncList(false)[k].name != [ErfF][0].name;
  }

  /** With HAVE_ERF, "erf" finds the erf descriptor. */
  lemma ErfPresent()
    ensures LookupFunc(true, "erf") == Some(ErfF)
  {
    LookupRoundTrip(true, ErfF);
  }

  /** FuncName: a registered descriptor's name is the key LookupFunc finds it by. */
  function FuncName(f: Func): (r: string)
    ensures f in FuncList(false) ==> LookupFunc(false, r) == Some(f)
    ensures f in FuncList(true) ==> LookupFunc(true, r) == Some(f)
  {
    RegisteredKeys(f);
    f.name
  }

  function FuncCName(f: Func): string { f.cname }
  function FuncYName(f: Func): string { f.yname }
  function FuncDeriv1CName(f: Func): string { f.deriv1cname }
  function FuncDeriv2CName(f: Func): string { f.deriv2cname }

  /** FuncId: a registered descriptor's id is the key LookupFuncById finds it by. */
  function FuncId(f: Func): (r: FuncKind)
    ensures f in FuncList(false) ==> LookupFuncById(false, r) == Some(f)
    ensures f in FuncList(true) ==> LookupFuncById(true, r) == Some(f)
  {
    RegisteredKeys(f);
    f.id
  }

  lemma RegisteredKeys(f: Func)
    ensures f in FuncList(false) ==> LookupFunc(false, f.name) == Some(f) && LookupFuncById(false, f.id) == Some(f)
    ensures f in FuncList(true) ==> LookupFunc(true, f.name) == Some(f) && LookupFuncById(true, f.id) == Some(f)
  {
    if f in FuncList(false) {
      LookupRoundTrip(false, f);
    }
    if f in FuncList(true) {
      LookupRoundTrip(true, f);
    }
  }

  /** Fields of the descriptors found under "sin" and "ln". */
  lemma DescriptorFields(haveErf: bool)
    ensures LookupFunc(haveErf, "sin").Some?
    ensures FuncDeriv1CName(LookupFunc(haveErf, "sin").value) == "cos"
    ensures FuncDeriv2CName(LookupFunc(haveErf, "sin").value) == "dcos"
    ensures LookupFunc(haveErf, "ln").Some?
    ensures FuncCName(LookupFunc(haveErf, "ln").value) == "log"
    ensures FuncYName(LookupFunc(haveErf, "ln").value) == "Ln"
  {
    LookupRoundTrip(haveErf, SinF);
    LookupRoundTrip(haveErf, LnF);
  }

  /** Functions of a plane angle. */
  predicate IsTrig(id: FuncKind) {
    id == Sin || id == Cos || id == Tan
  }

  /** Functions that accept an argument of any dimension. */
  predicate AcceptsAny(id: FuncKind) {
    id == Sqr || id == Sqrt || id == Cube || id == Cbrt || id == Abs || id == Hold
  }

  /**
   * FuncDimens: the dimension demanded of the argument, as one of the
   * store's singletons: trig for sin/cos/tan, wild for the power, root,
   * abs and hold functions, dimensionless for every other function and
   * for NULL.
   */
  function FuncDimens(s: Store, f: Option<Func>): (r: Handle)
    requires DimenStore.Valid(s)
    ensures Interned(s, r)
    ensures f.None? ==> r == s.dimless
    ensures f.Some? ==> (s.heap[r].wild <==> AcceptsAny(f.value.id))
    ensures f.Some? ==> (s.heap[r] == TrigVector() <==> IsTrig(f.value.id))
    ensures f.Some? && !AcceptsAny(f.value.id) && !IsTrig(f.value.id) ==> s.heap[r] == ClearDimensions()
  {
    assert TrigVector() != ClearDimensions() by {
      assert TrigVector().exps[D_PLANE_ANGLE] != ClearDimensions().exps[D_PLANE_ANGLE];
    }
    if f.None? then s.dimless
    else
      match FuncId(f.value)
      case Log10 | Ln | Exp | Erf | Lnm | ArcSin | ArcCos | ArcTan
        | Sinh | Cosh | Tanh | ArcSinh | ArcCosh | ArcTanh => s.dimless
      case Sqr | Sqrt | Cube | Cbrt | Abs | Hold => s.wild
      case Sin | Cos | Tan => s.trig
  }
}

=== FILE: options.dfy ===
/** The "pointer or NULL" shape used by every C entry point in the model. */
module Options {

  /** `None` stands for a NULL pointer or a failed lookup, `Some(v)` for a present value. */
  datatype Option<+T> = None | Some(value: T)
}

=== FILE: solver_var.dfy ===
/**
 * The bookkeeping fields of a solver variable (base/generic/solver/var.c):
 * its master and solver indices, its 32-bit flag word, and its incidence
 * list, with the guards the accessors apply to a bad variable. A NULL
 * variable pointer is None; the instance a variable stands for is an
 * opaque handle, and a NULL one makes the variable "bad".
 */
module SolverVar {
  import opened Options
  import opened FlagWords

  newtype int32 = x: int | -0x8000_0000 <= x < 0x8000_0000

  /** Handle of the compiler instance (ratom) a variable stands for. */
  type Instance = nat

  /** Handle of a relation in an incidence list. */
  type Relation = nat

  /** The fields of struct var_variable this part of var.c reads and writes. */
  datatype Var = Var(
    ratom: Option<Instance>,
    mindex: int32,
    sindex: int32,
    flags: bv32,
    nIncidences: int32,
    incidence: Option<seq<Relation>>)

  /** var_filter_t: which flag bits matter, and the values they must have. */
  datatype Filter = Filter(matchbits: bv32, matchvalue: bv32)

  /** The index and flag accessors refuse a NULL variable or one without an instance. */
  predicate Good(v: Option<Var>) {
    v.Some? && v.value.ratom.Some?
  }

  /** var_mindexF: the master index, -1 for a bad variable. */
  function MIndex(v: Option<Var>): (r: int32)
    ensures !Good(v) ==> r == -1
  {
    if !Good(v) then -1 else v.value.mindex
  }

  /** var_set_mindexF: stores the master index of a good variable; a bad one is left alone. */
  function SetMIndex(v: Option<Var>, index: int32): (r: Option<Var>)
    ensures !Good(v) ==> r == v
    ensures Good(r) == Good(v)
    ensures Good(v) ==> MIndex(r) == index
    ensures r.Some? ==> r.value.(mindex := 0) == v.value.(mindex := 0)
  {
    if !Good(v) then v else Some(v.value.(mindex := index))
  }

  /** var_sindexF: the solver index, -1 for a bad variable. */
  function SIndex(v: Option<Var>): (r: int32)
    ensures !Good(v) ==> r == -1
  {
    if !Good(v) then -1 else v.value.sindex
  }

  /** var_set_sindexF: stores the solver index of a good variable; a bad one is left alone. */
  function SetSIndex(v: Option<Var>, index: int32): (r: Option<Var>)
    ensures !Good(v) ==> r == v
    ensures Good(r) == Good(v)
    ensures Good(v) ==> SIndex(r) == index
    ensures r.Some? ==> r.value.(sindex := 0) == v.value.(sindex := 0)
  {
    if !Good(v) then v else Some(v.value.(sindex := index))
  }

  /** var_flagsF: the flag word; the source dereferences without a guard. */
  function Flags(v: Var): (r: bv32)
    ensures v.(flags := r) == v
  {
    v.flags
  }

  /** var_set_flagsF: replaces the flag word and nothing else. */
  function SetFlags(v: Var, flags: bv32): (r: Var)
    ensures Flags(r) == flags
    ensures r.(flags := 0) == v.(flags := 0)
  {
    v.(flags := flags)
  }

  /** var_flagbit: the bits of one that are set in the flag word; 0 for a bad variable. */
  function FlagBit(v: Option<Var>, one: bv32): (r: bv32)
    ensures !Good(v) ==> r == 0
    ensures Good(v) ==> r == MaskedBits(v.value.flags, one)
  {
    if !Good(v) then 0 else MaskedBits(v.value.flags, one)
  }

  /**
   * var_set_flagbit: sets the bits of field when one is non-zero and clears
   * them when it is zero; every other bit, and every other field, is kept.
   */
  function SetFlagBit(v: Option<Var>, field: bv32, one: bv32): (r: Option<Var>)
    ensures !Good(v) ==> r == v
    ensures Good(r) == Good(v)
    ensures r.Some? ==> r.value.(flags := 0) == v.value.(flags := 0)
    ensures Good(v) ==> r.value.flags == SetBits(v.value.flags, field, one)
  {
    if !Good(v) then v
    else Some(v.value.(flags := SetBits(v.value.flags, field, one)))
  }

  /** var_apply_filter: FALSE for a NULL variable, filter or instance; otherwise whether the flags match. */
  function ApplyFilter(v: Option<Var>, filter: Option<Filter>): (r: bool)
    ensures r <==> (Good(v) && filter.Some? &&
      Matches(v.value.flags, filter.value.matchbits, filter.value.matchvalue))
  {
    if !Good(v) || filter.None? then false
    else Matches(v.value.flags, filter.value.matchbits, filter.value.matchvalue)
  }

  /** var_n_incidencesF: the incidence count; 0 for a NULL variable (the instance is not checked). */
  function NIncidences(v: Option<Var>): (r: int32)
    ensures v.None? ==> r == 0
  {
    if v.Some? then v.value.nIncidences else 0
  }

  /** var_incidence_list: the stored incidence list, NULL for a NULL variable. */
  function Incidence(v: Option<Var>): (r: Option<seq<Relation>>)
    ensures v.None? ==> r.None?
  {
    if v.Some? then v.value.incidence else None
  }

  /**
   * var_set_incidencesF: stores the count and the list when the variable is
   * non-NULL and the count is not negative; a positive count with a NULL
   * list is stored all the same.
   */
  function SetIncidences(v: Option<Var>, n: int32, list: Option<seq<Relation>>): (r: Option<Var>)
    ensures v.None? || n < 0 ==> r == v
    ensures r.Some? == v.Some?
    ensures v.Some? && n >= 0 ==> NIncidences(r) == n && Incidence(r) == list
    ensures r.Some? ==> r.value.(nIncidences := 0, incidence := None) == v.value.(nIncidences := 0, incidence := None)
  {
    if v.Some? && n >= 0 then Some(v.value.(nIncidences := n, incidence := list)) else v
  }
}

=== FILE: str_order.dfy ===
/**
 * strcmp on C strings, as the sign of the first differing character (or
 * of the length difference when one string is a prefix of the other), and
 * the facts that make it a strict total order.
 */
module StrOrder {
  /** Sign of strcmp(a, b) on NUL-free strings, comparing characters by code point. */
  function StrCmp(a: string, b: string): (r: int)
    ensures -1 <= r <= 1
  {
    if |a| == 0 && |b| == 0 then 0
    else if |a| == 0 then -1
    else if |b| == 0 then 1
    else if a[0] < b[0] then -1
    else if a[0] > b[0] then 1
    else StrCmp(a[1..], b[1..])
  }

  lemma {:induction false} StrCmpZero(a: string, b: string)
    ensures StrCmp(a, b) == 0 <==> a == b
  {
    if |a| > 0 && |b| > 0 && a[0] == b[0] {
      StrCmpZero(a[1..], b[1..]);
      if a[1..] == b[1..] {
        assert a == [a[0]] + a[1..] && b == [b[0]] + b[1..];
      }
    }
  }

  lemma {:induction false} StrCmpAntisymmetric(a: string, b: string)
    ensures StrCmp(a, b) == -StrCmp(b, a)
  {
    if |a| > 0 && |b| > 0 && a[0] == b[0] {
      StrCmpAntisymmetric(a[1..], b[1..]);
    }
  }

  lemma {:induction false} StrCmpTransitive(a: string, b: string, c: string)
    requires StrCmp(a, b) < 0 && StrCmp(b, c) < 0
    ensures StrCmp(a, c) < 0
  {
    if |a| > 0 && |b| > 0 && |c| > 0 && a[0] == b[0] && b[0] == c[0] {
      StrCmpTransitive(a[1..], b[1..], c[1..]);
    }
  }

  /** A proper prefix sorts first: "" before every non-empty string, "ab" before "abc". */
  lemma {:induction false} PrefixFirst(a: string, rest: string)
    requires |rest| > 0
    ensures StrCmp(a, a + rest) < 0
  {
    if |a| > 0 {
      assert (a + rest)[1..] == a[1..] + rest;
      PrefixFirst(a[1..], rest);
    }
  }
}

=== FILE: var_laws.dfy ===
/** Round trips and consequences of the solver-variable accessors. */
module VarLaws {
  import opened Options
  import opened SolverVar
  import opened FlagWords

  /** Setting an index and reading it back gives the index; the other index is untouched. */
  lemma IndexRoundTrip(v: Option<Var>, m: int32, s: int32)
    requires Good(v)
    ensures MIndex(SetMIndex(v, m)) == m && SIndex(SetMIndex(v, m)) == SIndex(v)
    ensures SIndex(SetSIndex(v, s)) == s && MIndex(SetSIndex(v, s)) == MIndex(v)
  {
  }

  /** var_set_flagsF followed by var_flagsF returns the stored word. */
  lemma FlagsRoundTrip(v: Var, flags: bv32)
    ensures Flags(SetFlags(v, flags)) == flags
    ensures SetFlags(SetFlags(v, flags), Flags(v)) == v
  {
  }

  /** After var_set_flagbit, var_flagbit on the same field reports all of it or none of it. */
  lemma FlagBitAfterSet(v: Option<Var>, field: bv32, one: bv32)
    requires Good(v)
    ensures FlagBit(SetFlagBit(v, field, one), field) == (if one != 0 then field else 0)
  {
    SetBitsField(v.value.flags, field, one);
  }

  /** Setting a field twice the same way is setting it once. */
  lemma SetFlagBitIdempotent(v: Option<Var>, field: bv32, one: bv32)
    ensures SetFlagBit(SetFlagBit(v, field, one), field, one) == SetFlagBit(v, field, one)
  {
  }

  /** Setting then clearing a field leaves the other bits as they were and the field clear. */
  lemma SetThenClear(v: Option<Var>, field: bv32)
    requires Good(v)
    ensures SetFlagBit(SetFlagBit(v, field, 1), field, 0) == Some(v.value.(flags := v.value.flags & !field))
  {
    ClearAfterSet(v.value.flags, field);
  }

  /** A filter that selects no bits accepts every good variable and nothing else. */
  lemma EmptyFilterAcceptsAll(v: Option<Var>, matchvalue: bv32)
    ensures ApplyFilter(v, Some(Filter(0, matchvalue))) == Good(v)
  {
  }

  /** A NULL filter rejects every variable. */
  lemma NullFilterRejects(v: Option<Var>)
    ensures !ApplyFilter(v, None)
  {
  }

  /** Setting the incidences and reading them back; a negative count changes nothing. */
  lemma IncidenceRoundTrip(v: Option<Var>, n: int32, list: Option<seq<Relation>>)
    requires v.Some?
    ensures n >= 0 ==> NIncidences(SetIncidences(v, n, list)) == n && Incidence(SetIncidences(v, n, list)) == list
    ensures n < 0 ==> SetIncidences(v, n, list) == v
  {
  }
}
